=== FILE: README.md ===
# prom-garmin-scraper core, modelled in Dafny

This project models the core of the scraper that feeds workout data into Prometheus. It has three parts.

- **Fatigue primitives** (`FatigueChecker`). These are pure rules over per-ride dictionaries:
  - the intensity-factor (IF) band table and the band lookup;
  - the easy-ride eligibility gate and its reason codes;
  - per-ride strain extraction: cardiac cost and heart-rate drift;
  - per-band baseline statistics: mean, population stdev and count;
  - the comparison of one ride with its band's baseline: deltas and z-scores;
  - the history-sufficiency gate.
- **Activity parsing** (`intervals.py`). This covers:
  - the dispatch from an activity type to a compute path: full bike, rough bike estimated from metadata, running, or weight training;
  - the shared stream preamble: cleaning, sorting by time, per-row durations `dt` and total time;
  - intensity factor and TSS;
  - the single-zone placement used when only a power estimate is known;
  - the metadata number reader `_get_meta_num` and its synonym lists;
  - the segment buckets (rest, hard and drafting; easy, steady and hard; easy, moderate and intense) and their percentages.
- **Prometheus backfill** (`tsdb.py`). This covers:
  - cleaning a daily summary (None becomes 0);
  - the eleven two-hourly timestamps of a calendar day;
  - the text of one OpenMetrics block file: fifteen gauges as HELP, TYPE and sample lines, then `# EOF`;
  - the order in which `create_backfill` and `generate_tsdb_data` produce block files, including where a missing gauge stops the run.

Ride dictionaries are records of optional fields (`RideRecord.Ride`). A value that Python passes to `float()` and that may not be numeric is `Raw = Num(x) | NotNumber`. Files, pandas statistics (quantiles, rolling normalized power, means of heart rate) and the square root are supplied by the caller as parameters. Everything else is computed by the model.

## Model

| member | source | states |
|---|---|---|
| IfBands.DefineIfBands | app/garmin/fatigue.py:17-25 | The table has two labelled bands, IF_50_60 and IF_60_65. Each is a non-empty half-open range. They are ordered, do not overlap, and together cover [0.50, 0.65). |
| IfBands.FirstBandLabel | app/garmin/fatigue.py:76-79 | The label of the first band that contains x. The empty label when no band does. |
| IfBands.AssignIfBand | app/garmin/fatigue.py:69-79 | IF_50_60 exactly for 0.50 <= IF < 0.60. IF_60_65 exactly for 0.60 <= IF < 0.65. The empty label exactly for a missing IF, IF < 0.50 or IF >= 0.65. |
| EasyRide.Codes | app/garmin/fatigue.py:97-146 | A reason code is reported exactly when its check failed. The codes come in strictly increasing source order, so each appears at most once, in the order the checks append them. |
| EasyRide.FailedAmong | app/garmin/fatigue.py:97-146 | From a list of checks in source order, exactly the failed ones are kept, still in source order. |
| EasyRide.SameCodesSameList | app/garmin/fatigue.py:89-156 | Two reason lists in source order with the same codes are the same list, so membership and order together fix the reasons. |
| EasyRide.GateIf | app/garmin/fatigue.py:91-95 | No IF exactly when both keys are None. "intensity_factor" wins whenever it is present; otherwise "IF" is taken. |
| EasyRide.DurationMinutes | app/garmin/fatigue.py:106-116 | Minutes × 60 is the duration in seconds: "total_time", else "total_minutes" × 60. Without either the minutes are 0. Minutes given as "total_minutes" come back unchanged. |
| EasyRide.ZoneMap | app/garmin/fatigue.py:122 | "zone_percentages" or "pace_zone_percentages". The former is used only when present and non-empty. |
| EasyRide.LowZonePercent | app/garmin/fatigue.py:127-135 | A Z1+Z2 share in 0..1 becomes a percentage in 0..100. The result reaches 60 exactly when the share is a fraction of at least 0.6 or a percentage of at least 60. |
| EasyRide.EasyFailures | app/garmin/fatigue.py:105-140 | A missing duration counts as a short one. A given `total_time` is short exactly below 3600 s, and `total_minutes` exactly below 60 min. Missing zones count as too little time in Z2. A Z1+Z2 share of at most 1 is a fraction and must reach 0.6. A larger share is a percentage and must reach 60. |
| EasyRide.IsEasyRide | app/garmin/fatigue.py:81-156 | A code is reported exactly when its check failed, each at most once, in the order the checks run. The ride is easy iff no reported reason is blocking, so invalid_if or missing_duration alone does not block. |
| EasyRide.ReasonsFromFields | app/garmin/fatigue.py:91-146 | missing_if iff neither IF key is set. invalid_if iff the chosen IF is not numeric. if_too_high iff it is numeric and >= 0.65. missing_duration iff neither duration key is set. missing_zones iff there is no zone map. |
| EasyRide.EasyIffCriteria | app/garmin/fatigue.py:150-154 | A ride is easy exactly when it meets the criteria: an IF that is present and, when numeric, below 0.65; at least 60 minutes; and at least 60 % of its time in Z1+Z2. |
| EasyRide.InvalidIfAloneIsEasy | app/garmin/fatigue.py:100-103 | A ride whose only reason is invalid_if is still easy. |
| EasyRide.IfTooHighExample | app/garmin/fatigue.py:143-146 | A concrete long, low-zone ride with IF 0.7 fails with if_too_high only. |
| RideStrain.Present | app/garmin/fatigue.py:186 | The present values of the heart-rate series, and only those. |
| RideStrain.PresentAppend | app/garmin/fatigue.py:186 | The present values of two series joined are those of each, in order. |
| RideStrain.PresentCount | app/garmin/fatigue.py:186 | There are as many present values as positions holding one. |
| RideStrain.SeriesDrift | app/garmin/fatigue.py:187-191 | The drift of a constant series is zero. The drift of a non-decreasing series is non-negative. |
| RideStrain.HalvesDrift | app/garmin/fatigue.py:188-191 | The series is cut at `len // 2`. The first part has that many values and the second part holds the rest, so it is as long or one longer. The drift is the second part's mean minus the first part's mean. |
| RideStrain.StepDrift | app/garmin/fatigue.py:188-191 | A series at `a` for n samples, then at `b` for n or n + 1 samples, drifts by exactly `b - a`. |
| RideStrain.DriftExample | app/garmin/fatigue.py:188-191 | The series 1, 2, 3, 4 drifts by 2. |
| RideStrain.ComputePerRideStrain | app/garmin/fatigue.py:158-195 | Cardiac cost exists exactly when heart rate and a positive power exist, and then cost × power = heart rate. A given hr_drift is kept. Otherwise drift is computed from a series with at least two present values. The IF is carried over as the same number, and the other fields pass through. |
| Baseline.PVarianceZeroIffConstant | app/garmin/fatigue.py:231 | The population variance is non-negative, and zero exactly for a constant sample. |
| Baseline.StatOf | app/garmin/fatigue.py:224-233 | No values: no mean and no stdev. One value: the value itself and stdev 0.0. More: their mean, and the population stdev, the square root of the population variance, which is zero exactly when the values are all equal. The count is always the number of values. |
| Baseline.BaselineIf | app/garmin/fatigue.py:207 | `intensity_factor or IF`: a non-zero intensity_factor wins. When intensity_factor is missing or 0, the value is the number under "IF", or none. |
| Baseline.ReadyIffChosenIsNumber | app/garmin/fatigue.py:207-208 | A ride is admitted to the baseline exactly when the value `intensity_factor or IF` picks is a number or absent. That value is "intensity_factor" unless it is missing or 0, and then "IF". On admitted rides the baseline IF is that number. |
| Baseline.BandValuesMembers | app/garmin/fatigue.py:206-221 | A value is among a band's metric values exactly when some ride in that band has it. |
| Baseline.BandValuesAppend | app/garmin/fatigue.py:206-221 | The values of a history split anywhere are the values of its two parts, in ride order. |
| Baseline.BandValuesCount | app/garmin/fatigue.py:206-221 | A band has one value for each of its rides that has a value for the metric. |
| Baseline.BandsMembers | app/garmin/fatigue.py:206-211 | A band is present exactly when it is non-empty and some ride falls in it. |
| Baseline.BuildBaselineStatistics | app/garmin/fatigue.py:197-237 | The keys are exactly the bands some ride falls in. Each band has the four metrics. Each statistic holds the count, the mean and the population stdev of that band's non-None values of the metric. |
| Baseline.BaselineExample | app/garmin/fatigue.py:197-237 | Rides with IF 0.70, 0.55 and 0.58 give the single band IF_50_60. Its heart rate has count 2 and mean 135, and its TSS has count 0. |
| BaselineComparison.Deviate | app/garmin/fatigue.py:256-270 | A delta exactly when both value and mean exist, and it equals value − mean. A z-score exactly when there is a delta and a positive stdev, and z × stdev = delta. |
| BaselineComparison.CompareRideToBaseline | app/garmin/fatigue.py:239-274 | No comparison exactly when the ride has no band or its band has no baseline. Otherwise all four metrics are compared against the band's statistics. A missing statistic reads as no mean. |
| BaselineComparison.CompareWithOwnBaseline | app/garmin/fatigue.py:197-274 | A ride compared with the baseline built from itself alone has delta 0 on every metric it has, and no z-score. |
| BaselineComparison.OwnStat | app/garmin/fatigue.py:224-228 | In a baseline built from one ride, each metric's statistic is that ride's value with stdev 0, or no mean when the ride lacks the metric. |
| HistoryGate.DatedDays | app/garmin/fatigue.py:42 | A day is listed exactly when some ride has that date. Rides without a date are skipped. |
| HistoryGate.SpanDays | app/garmin/fatigue.py:51 | At least 1. No two dates are further apart, counting both ends, and some pair of dates is exactly that far apart. |
| HistoryGate.SpanShortIffClose | app/garmin/fatigue.py:51-53 | The span is under 21 days exactly when every pair of dates lies within it. |
| HistoryGate.HrPowerCount | app/garmin/fatigue.py:56-62 | The count is zero exactly when no ride has both power and heart rate. |
| HistoryGate.HistoryGating | app/garmin/fatigue.py:27-67 | No rides, a bad date and no dated ride each exit early with a single reason. Otherwise insufficient_history_days iff all dates lie within 21 days, and no_reliable_hr_power iff no ride has both. No other reason is given, each at most once, the span reason first. Sufficient iff there are no reasons. |
| HistoryGate.SingleRideIsTooShort | app/garmin/fatigue.py:51-53 | A single dated ride with heart rate and power is insufficient for the span reason alone. |
| SeqMath.SortBy | app/garmin/intervals.py:157 | The result is sorted by the key and is a permutation of the input. |
| SeqMath.MedianOfSorted | app/garmin/intervals.py:166 | The median is the middle element, or the mean of the two middle elements, of any sorted arrangement of the values. |
| SeqMath.SortedUnique | app/garmin/intervals.py:166 | Two sorted arrangements of the same values are the same sequence. |
| SeqMath.MeanBounds | app/garmin/fatigue.py:231 | The mean of values in [lo, hi] lies in [lo, hi]. |
| Samples.SortByTime | app/garmin/intervals.py:157 | The rows in ascending time order, as a permutation of the input. |
| Samples.DeltasTelescope | app/garmin/intervals.py:165 | The gaps add up to the stream's extent, last time minus first. |
| Samples.Positive | app/garmin/intervals.py:166 | Only positive values, and a value is kept exactly when it is a positive gap. |
| Samples.PositiveAppend | app/garmin/intervals.py:166 | Filtering two runs of gaps joined filters each in place, keeping order and repetitions. |
| Samples.LastStep | app/garmin/intervals.py:166-168 | Always positive. One second when no gap is positive. Otherwise the median of the positive gaps. |
| Samples.Clip | app/garmin/intervals.py:170 | Never negative. A non-negative value is unchanged. A negative value becomes 0. |
| Samples.RowDurations | app/garmin/intervals.py:164-171 | Each row lasts the clipped gap to the next row, and the last row lasts the last step. All durations are non-negative and the last is positive. On sorted times nothing is clipped. |
| Samples.TotalTimeTelescopes | app/garmin/intervals.py:165-173 | On sorted times, the total time is the span from the first to the last time plus the last step. |
| Samples.TotalTimePositive | app/garmin/intervals.py:173 | Any stream with a row has a positive total time. |
| Samples.Prepare | app/garmin/intervals.py:153-173 | The rows are a time-sorted permutation of the input. Each duration is the gap to the next row. The last row lasts the last-row step of the stream's own gaps. The stream time is the span from the first to the last time plus that step, so it is positive. |
| Intensity.IntensityFactor | app/garmin/intervals.py:191-193 | An IF exactly when NP exists and the FTP is non-zero, and then IF × FTP = NP. |
| Intensity.TrainingStress | app/garmin/intervals.py:195-200 | A TSS exactly when NP, IF, a non-zero FTP and a positive total time all exist. |
| Intensity.StressIsHoursTimesIfSquared | app/garmin/intervals.py:191-200 | With IF derived from NP, the TSS is 100 × hours × IF². It exists exactly when NP exists, the FTP is non-zero and the time is positive. |
| Intensity.PlaceInZone | app/garmin/intervals.py:336-344 | A zone exactly when the fraction is non-negative, and it is the one zone whose half-open range holds it. |
| Intensity.SingleZoneSplit | app/garmin/intervals.py:345-349 | The whole time goes to the placed zone. Every other zone gets 0. Percentages are shares of the total. |
| Intensity.FallbackZones | app/garmin/intervals.py:335-352 | No zones exactly when there is no estimate or the FTP is zero. Otherwise all six zones are present, and the total time goes to the zone that holds estimate/FTP. |
| Intensity.SingleZonePercentagesSum | app/garmin/intervals.py:345-349 | With a positive total, the percentages sum to 100 when a zone is placed and to 0 when none is. |
| Intensity.FallbackPercentagesSum | app/garmin/intervals.py:335-349 | Fallback percentages sum to 100 for a non-negative fraction, and to 0 for a negative one. |
| Metadata.ParseMeta | app/garmin/intervals.py:279-296 | None, a non-number and an unparseable text are skipped. A "%" text is divided by 100 only under treat_percent. A bare number is divided by 100 only under treat_percent and when it exceeds 1.5. |
| Metadata.FirstSome | app/garmin/intervals.py:278-297 | A value exactly when some entry has one, and then it is the first such entry. |
| Metadata.GetMetaNum | app/garmin/intervals.py:273-297 | A number exactly when some key yields one, and then it is the number from the first key that does. |
| Metadata.RepeatedKeyIsHarmless | app/garmin/intervals.py:278-297 | Repeating a key that was already tried never changes the result. |
| Metadata.PowerKeysRepeatHarmless | app/garmin/intervals.py:299-300 | The duplicated "icu_weighted_avg_watts" in the power synonyms changes nothing. |
| Metadata.PercentExamples | app/garmin/intervals.py:283-294 | "59%" and 59 read as 0.59 under treat_percent, 0.59 stays 0.59, and "59%" reads as 59 without treat_percent. |
| Metadata.UnparseableKeyIsSkipped | app/garmin/intervals.py:287-296 | An unparseable first synonym falls through to the next key. |
| Metadata.PowerFromAverageWatts | app/garmin/intervals.py:299-300 | Metadata with only "average_watts" gives that power. |
| Metadata.EstimateAvgPower | app/garmin/intervals.py:299-308 | A power synonym wins. Otherwise the estimate is the intensity fraction × FTP, exactly when both exist and the FTP is non-zero. |
| Segments.TimeWhereBounds | app/garmin/intervals.py:226 | A bucket holds between zero and all of the activity's time. |
| Segments.TimeWhereAll | app/garmin/intervals.py:226 | A mask that holds on every row takes the whole time. |
| Segments.TimeWhereNone | app/garmin/intervals.py:226 | A mask that holds on no row takes no time. |
| Segments.DisjointMasks | app/garmin/intervals.py:225-230 | Two masks that never hold together add up to at most the whole time. |
| Segments.PartitionMasks | app/garmin/intervals.py:506-508 | Three masks of which each row satisfies exactly one add up to the whole time. |
| Segments.HrBandsPartition | app/garmin/intervals.py:506-513 | Below lo, between lo and hi, and above hi partition the time when lo <= hi. |
| Segments.BikeSegments | app/garmin/intervals.py:220-235 | No buckets without watts or with FTP 0. Otherwise rest (cadence < 60 and watts < FTP/2) and hard (watts > 0.9 FTP). Drafting exactly when velocity is present. |
| Segments.BikeRestHardDisjoint | app/garmin/intervals.py:225-230 | With a positive FTP, rest and hard together take at most the whole time. |
| Segments.RoughSegments | app/garmin/intervals.py:364-389 | With heart rate: rest below 60 % and hard above 90 % of the threshold heart rate, or of the 25th and 90th percentiles. Without heart rate: the whole time is hard when the metadata intensity exceeds 0.9, rest otherwise, and there are no buckets without an intensity. |
| Segments.RoughRestHardDisjoint | app/garmin/intervals.py:364-389 | Rest exists exactly when hard does. With ordered thresholds they take at most the whole time. |
| Segments.HrBands | app/garmin/intervals.py:506-508 | The three buckets below, between and above the two thresholds. With lo <= hi they add up to the whole time. |
| Segments.RunSegments | app/garmin/intervals.py:499-513 | No buckets exactly without heart rate. Otherwise easy, steady and hard at 75 % and 90 % of the threshold heart rate, or at the 40th and 75th percentiles. |
| Segments.StrengthSegments | app/garmin/intervals.py:591-608 | Without heart rate, one "unknown" bucket with the whole time. Otherwise easy, moderate and intense at 70 % and 85 % of the threshold heart rate, or at the 33rd and 67th percentiles. |
| Segments.RunBucketsPartition | app/garmin/intervals.py:499-513 | The three running buckets add up to the whole run. |
| Segments.StrengthBucketsPartition | app/garmin/intervals.py:591-608 | The three strength buckets add up to the whole session. |
| Segments.SegmentPercentages | app/garmin/intervals.py:516-517 | One percentage per bucket. With a positive total, percentage × total = 100 × bucket time. Otherwise every percentage is 0. |
| Segments.RunPercentagesSum | app/garmin/intervals.py:499-517 | The running percentages sum to 100. |
| Segments.StrengthPercentagesSum | app/garmin/intervals.py:591-612 | The strength percentages sum to 100: over the three heart-rate buckets, or as the single unknown bucket at 100. |
| Activity.TruncateTowardZero | app/garmin/intervals.py:133 | The integer part, rounded toward zero, for either sign. |
| Activity.CleanRows | app/garmin/intervals.py:130-133 | At most as many rows as the file. None exactly when no row has a time. |
| Activity.CleanRowsAppend | app/garmin/intervals.py:130-133 | Cleaning two runs of rows joined cleans each in place, so the kept rows stay in file order. |
| Activity.CleanRowsMembers | app/garmin/intervals.py:130-133 | A row is kept exactly when it has a time, with the time cast to whole seconds and the other columns unchanged. |
| Activity.CleanRowsCount | app/garmin/intervals.py:130-133 | One row is kept for each row with a time. |
| Activity.WattSecondsOfSteadyPower | app/garmin/intervals.py:180 | At a steady power w, the watt-seconds are w × total time. |
| Activity.AveragePowerOfSteadyRide | app/garmin/intervals.py:180 | At a steady power, the time-weighted average is that power. |
| Activity.BikeMetricsOf | app/garmin/intervals.py:150-242 | Power figures exactly when a watts stream exists, and average power × total time = watt-seconds. IF, TSS and segments as above. |
| Activity.RoughMetricsOf | app/garmin/intervals.py:244-397 | The metadata estimate stands in for average and normalized power. A metadata training load overrides the computed TSS. Zones, segments and estimate_method are as above. |
| Activity.RunMetricsOf | app/garmin/intervals.py:399-521 | Load and elevation come from their synonym lists. Without heart rate there are no buckets. With it, a positive total time and ordered thresholds, the percentages sum to 100. |
| Activity.StrengthMetricsOf | app/garmin/intervals.py:523-620 | Load, distance and elevation come from their synonym lists. Without heart rate and with a positive total time, the percentages are unknown: 100. With heart rate and ordered thresholds, the three percentages sum to 100. |
| Activity.Dispatch | app/garmin/intervals.py:125-148 | Raises exactly without a time column, or on a compute path with no timed row. Ride types go to the full or rough bike path, Run to running, WeightTraining to strength, and Walk to "Not Implemented". Any other type gets no metrics. The payload is that path's metrics over the cleaned, sorted rows, whose total time is positive; the rough path's power is the metadata estimate. Type and date are copied. |
| Activity.ParseActivity | app/garmin/intervals.py:125-148 | As written: a ride takes the full bike path exactly when the file has a cadence column. |
| Activity.ParseActivityIntended | app/garmin/intervals.py:135-139 | As intended: a ride takes the full bike path exactly when the file has both a watts and a cadence column. |
| Activity.IntendedRideWithoutWattsIsEstimated | app/garmin/intervals.py:135-139 | As intended, a ride without a watts column always gets the metadata power estimate. |
| Activity.CadenceOnlyRideAsWritten | app/garmin/intervals.py:136-137 | A cadence-only ride file goes down the full bike path and reports no power. |
| Activity.CadenceOnlyRideIntended | app/garmin/intervals.py:138-139 | As intended, the same file goes to the metadata path and reads 200 W. |
| Activity.CadenceOnlyRideLosesPower | app/garmin/intervals.py:136 | The discrepancy: no power as written, 200 W as intended. |
| Decimal.IntRoundTrip | app/garmin/tsdb.py:27 | Reading the decimal text of an integer back gives the integer. |
| Decimal.IntToStringInjective | app/garmin/tsdb.py:27 | Distinct integers have distinct decimal texts. |
| Backfill.CleanupDaily | app/garmin/tsdb.py:78-82 | Same keys and same day. Every None becomes 0, and every other value is unchanged. |
| Backfill.CleanupIdempotent | app/garmin/tsdb.py:78-82 | Cleaning twice is cleaning once. |
| Backfill.Timestamps | app/garmin/tsdb.py:10-18 | Eleven timestamps. The first is local midnight of the day. Each is two hours after the previous. |
| Backfill.GetTimestampFromDate | app/garmin/tsdb.py:10-18 | The loop yields eleven timestamps from local midnight, two hours apart. |
| Backfill.TimestampsDistinct | app/garmin/tsdb.py:13-17 | A day's timestamps strictly increase. |
| Backfill.GaugesPlain | app/garmin/tsdb.py:30-74 | No gauge name or help text holds a line break. |
| Backfill.GaugeNamesDistinct | app/garmin/tsdb.py:30-74 | The fifteen gauges have fifteen different names. |
| Backfill.GroupLinesAt | app/garmin/tsdb.py:30-74 | For each gauge, in order: its HELP line, its TYPE line, and `name value timestamp`. |
| Backfill.BlockLines | app/garmin/tsdb.py:29-75 | A complete block has 46 lines: three per gauge, then `# EOF` last. |
| Backfill.SplitTerminated | app/garmin/tsdb.py:29-75 | Lines free of newlines, each written with "\n", then a final line, split back into exactly those lines. |
| Backfill.RenderedLinesReadBack | app/garmin/tsdb.py:29-75 | With newline-free gauge texts and values, splitting the block text on "\n" gives back its gauge lines, then `# EOF`. |
| Backfill.PartialReadsBack | app/garmin/tsdb.py:29-74 | The text written before a missing gauge splits back into the earlier groups, then that gauge's HELP and TYPE lines. |
| Backfill.BlockFileNameReadsBack | app/garmin/tsdb.py:27 | The name is "backfill_", the timestamp's decimal text, then ".txt". The middle part reads back as the timestamp, so different timestamps name different files. |
| Backfill.ValueTextReadsBack | app/garmin/tsdb.py:32 | An integer value's text reads back as that integer. A None left in place does not read as an integer. |
| Backfill.BlockReadsBack | app/garmin/tsdb.py:29-75 | A complete block of the fifteen gauges splits back into its 46 lines. |
| Backfill.FirstMissing | app/garmin/tsdb.py:32-74 | −1 exactly when every gauge is present. Otherwise the first absent gauge, with all earlier ones present. |
| Backfill.GenerateBlockfile | app/garmin/tsdb.py:26-76 | The file is named after its timestamp. The block is complete exactly when every gauge has a value. Otherwise it stops at the first gauge without one. |
| Backfill.BlockfileText | app/garmin/tsdb.py:29-75 | Splitting a written file on newlines gives the 46 block lines. An aborted file gives the groups before the first missing gauge, then that gauge's HELP and TYPE lines, and nothing more. |
| Backfill.GenerateTsdbData | app/garmin/tsdb.py:21-24 | Eleven blocks for a complete summary. Otherwise only the first block, which fails. |
| Backfill.TsdbBlocks | app/garmin/tsdb.py:21-24 | Block i is the one for the day's i-th timestamp, and it is written. |
| Backfill.CreateBackfill | app/garmin/tsdb.py:5-8 | Complete summaries give 11 written blocks per summary. Otherwise the run ends with an aborted block after written ones only. |
| Backfill.BackfillStopsAtFirstIncomplete | app/garmin/tsdb.py:5-24 | When summary e is the first to lack a gauge, the run has 11·e + 1 blocks: the run over the summaries before e, then summary e's first block. |
| Backfill.BackfillBlockAt | app/garmin/tsdb.py:5-8 | With complete summaries, block 11·d + i is the i-th block of day d, rendered from its cleaned summary. |
| Backfill.BackfillRendersNoNull | app/garmin/tsdb.py:5-8 | After cleaning, no sample reads "None" unless the value was that very text. |

## Left out

- pandas statistics are caller-supplied parameters (`Activity.StreamStats`, `Segments.Quantiles`). This covers the 30-sample rolling normalized power (intervals.py:183-184) and the heart-rate and velocity quantiles (intervals.py:233, 375-376, 511-513, 603-605).
- The bike path's `pd.cut` power zones (intervals.py:203-209) and the running pace zones (intervals.py:468-484) need per-row binning of real fractions. Only the single-zone fallback is modelled.
- The elapsed-time heart-rate drift of the compute paths (intervals.py:211-217, 354-362, 458-463, 584-589) is not modelled. Neither are the mean and maximum heart rate, average and maximum velocity, and average cadence of the run and strength paths. They are all pandas aggregates.
- The `{'error': 'no time column'}` returns (intervals.py:249-250, 406-407, 530-531) are not modelled. They are unreachable: `parse_activity` has already raised a KeyError at line 132.
- Missing "type" or "activity_date" keys in the activity metadata are not modelled. Both are taken as present.
- Activity.CleanRows: a time column that is present but not numeric is taken as absent in that row. pandas raises at `astype(int)` instead. NaN and infinities are not modelled.
- Samples.SortByTime is a stable sort, whereas pandas' default quicksort is not stable. Rows with equal times may come out in another order. Durations and sums are the same either way, since equal times give zero gaps.
- The square root behind `statistics.pstdev` is a parameter (`SquareRoot`): any function that is non-negative and zero exactly at zero. The `except` branch at fatigue.py:232-233 cannot fire for float values and is not modelled.
- Floats are exact `real`s; IEEE rounding is not modelled. Equalities the model proves hold only approximately in doubles. Examples: percentages summing to 100 (three 1 s buckets of a 3 s run give 99.99999999999999), cost × power = heart rate, and z × stdev = delta.
- A value passed to `float()` is a number or `NotNumber`. Texts are not modelled: a numeric text such as "0.55" converts in is_easy_ride, yet makes `assign_if_band` raise at fatigue.py:77 when bands are built. The empty text is invalid_if in is_easy_ride but falsy for `or` at fatigue.py:207.
- RideStrain.ComputePerRideStrain requires a numeric "intensity_factor". The source raises on any other value. Other fields are taken as already numeric.
- EasyRide.EasyFailures: a non-numeric `total_time`, `total_minutes` or zone share raises `ValueError` in the source (fatigue.py:114, 116, 129-131). The model only takes numbers there.
- Baseline.BuildBaselineStatistics, BaselineComparison.CompareRideToBaseline, Baseline.BaselineIf require BaselineReady: the source raises TypeError at fatigue.py:77 when the chosen IF (either key) is not a number. The chosen IF is `intensity_factor or IF` (fatigue.py:207, 245), so the raise comes from a non-numeric "intensity_factor", or from a non-numeric "IF" when "intensity_factor" is missing or 0. `Baseline.ReadyIffChosenIsNumber` states that exactly these rides are excluded. The raise itself is not modelled as a result.
- HistoryGate.HistoryGating: dates are day ordinals, and `strptime` is replaced by the three-way `DateField`. Date parsing itself is not modelled.
- Backfill.GenerateTsdbData, Backfill.CreateBackfill: a missing or None calendarDate raises at tsdb.py:22 before any file is written; the model takes the day as given. A missing key raises KeyError. `cleanup_daily` turns None into 0, and then `strptime` raises TypeError. A text that is not a `%Y-%m-%d` date raises ValueError. In each case the run stops there, with no block file for that summary. `Daily` always carries a day number, so these raises are not modelled.
- Backfill.GetTimestampFromDate: `strptime` and `timestamp()` read local time. The model takes the day as a day number and a fixed UTC offset for the whole day, so a daylight-saving change inside the day is not modelled.
- Backfill.ValueText: floats and other non-integer values are rendered as their `str()` text, which the summary supplies as `Literal`. Python's float formatting is not modelled.
- File I/O in `generate_blockfile` is not modelled: the Windows directory prefix (tsdb.py:27), `open`, the progress `print` (tsdb.py:28) and `close`. The model yields each file's name and text.
- `cleanup_daily` mutates its argument in place. The model returns the cleaned copy, which is all the caller uses.

## Findings

| source | as written | input that shows it | evidently intended | confidence | as-written member | corrected member |
|---|---|---|---|---|---|---|
| app/garmin/intervals.py:136 | `"watts" and "cadence" in df` evaluates to `"cadence" in df`, so the full bike path is chosen on the cadence column alone | a Ride file with columns time and cadence but no watts, and metadata `average_watts` 200: the full bike path reports `avg_power` None | take the full bike path only when both `watts` and `cadence` are columns; otherwise use the metadata estimate (200 W) | not executed | Activity.ParseActivity, Activity.CadenceOnlyRideLosesPower | Activity.ParseActivityIntended, Activity.IntendedRideWithoutWattsIsEstimated |

=== FILE: activity.dfy ===
/** `parse_activity` and the per-sport metric records of its compute paths (full bike, rough
    bike from metadata, running, weight training), restricted to the pieces that do not
    depend on pandas statistics. */
module Activity {
  import opened Options
  import opened SeqMath
  import opened Samples
  import opened Intensity
  import opened Metadata
  import opened Segments

  /** A stream row as read from the CSV; None is an empty or non-numeric cell. */
  datatype RawRow = RawRow(time: Option<real>, watts: Option<real>, cadence: Option<real>,
                           heartrate: Option<real>, velocity: Option<real>)

  /** The CSV: which columns it has, and its rows. */
  datatype Frame = Frame(columns: set<Column>, rows: seq<RawRow>)

  /** The activity metadata: its "type", its "activity_date" and the remaining fields. */
  datatype ActivityMeta = ActivityMeta(activityType: string, activityDate: string, fields: Meta)

  /** Statistics of the stream that pandas computes and the model takes as given: the
      30-sample rolling normalized power and the sample quantiles. */
  datatype StreamStats = StreamStats(normalizedPower: real, quantiles: Quantiles)

  /** `astype(int)` on a float: truncation toward zero. */
  function TruncateTowardZero(x: real): (n: int)
    ensures 0.0 <= x ==> 0 <= n && n as real <= x < n as real + 1.0
    ensures x < 0.0 ==> n <= 0 && n as real - 1.0 < x <= n as real
  {
    if x >= 0.0 then x.Floor else -((-x).Floor)
  }

  /** A timed row as the cleaned frame holds it: the time cast to whole seconds, the other
      columns as read. */
  function Cleaned(r: RawRow): Row
    requires r.time.Some?
  {
    Row(TruncateTowardZero(r.time.value), r.watts, r.cadence, r.heartrate, r.velocity)
  }

  /** `dropna(how='all')`, `dropna(subset=['time'])`, `time.astype(int)`: the rows with a time,
      in file order, with whole-second times. */
  function CleanRows(rows: seq<RawRow>): (clean: seq<Row>)
    ensures |clean| <= |rows|
    ensures |clean| == 0 <==> forall i | 0 <= i < |rows| :: rows[i].time.None?
  {
    if |rows| == 0 then []
    else
      var r := rows[0];
      assert forall i | 1 <= i < |rows| :: rows[i] == rows[1..][i - 1];
      (if r.time.Some? then [Cleaned(r)] else []) + CleanRows(rows[1..])
  }

  /** Cleaning two runs of rows one after the other cleans each run in place: the kept
      rows stay in file order. */
  lemma {:induction false} CleanRowsAppend(a: seq<RawRow>, b: seq<RawRow>)
    ensures CleanRows(a + b) == CleanRows(a) + CleanRows(b)
    decreases |a|
  {
    if |a| == 0 {
      assert a + b == b;
    } else {
      var head: seq<Row> := if a[0].time.Some? then [Cleaned(a[0])] else [];
      assert (a + b)[0] == a[0] && (a + b)[1..] == a[1..] + b;
      assert CleanRows(a + b) == head + CleanRows(a[1..] + b);
      CleanRowsAppend(a[1..], b);
    }
  }

  /** A row is kept exactly when it has a time, and then in its cleaned form. */
  lemma {:induction false} CleanRowsMembers(rows: seq<RawRow>)
    ensures forall i | 0 <= i < |rows| && rows[i].time.Some? :: Cleaned(rows[i]) in CleanRows(rows)
    ensures forall c | c in CleanRows(rows) ::
              exists i | 0 <= i < |rows| :: rows[i].time.Some? && c == Cleaned(rows[i])
    decreases |rows|
  {
    if |rows| > 0 {
      var tail := rows[1..];
      CleanRowsMembers(tail);
      var head: seq<Row> := if rows[0].time.Some? then [Cleaned(rows[0])] else [];
      assert CleanRows(rows) == head + CleanRows(tail);
      forall i | 0 <= i < |rows| && rows[i].time.Some? ensures Cleaned(rows[i]) in CleanRows(rows) {
        if i > 0 {
          assert rows[i] == tail[i - 1];
        }
      }
      forall c | c in CleanRows(rows)
        ensures exists i | 0 <= i < |rows| :: rows[i].time.Some? && c == Cleaned(rows[i])
      {
        if c !in head {
          var k :| 0 <= k < |tail| && tail[k].time.Some? && c == Cleaned(tail[k]);
          assert rows[k + 1] == tail[k];
        }
      }
    }
  }

  /** The positions of the rows that have a time. */
  function TimedPositions(rows: seq<RawRow>): set<int> {
    set i | 0 <= i < |rows| && rows[i].time.Some?
  }

  /** One row is kept for every row that has a time: none dropped, none repeated. */
  lemma {:induction false} CleanRowsCount(rows: seq<RawRow>)
    ensures |CleanRows(rows)| == |TimedPositions(rows)|
    decreases |rows|
  {
    if |rows| == 0 {
      assert TimedPositions(rows) == {};
    } else {
      var n := |rows| - 1;
      var init := rows[..n];
      assert rows == init + [rows[n]];
      CleanRowsAppend(init, [rows[n]]);
      assert [rows[n]][1..] == [];
      CleanRowsCount(init);
      TimedPositionsSnoc(rows);
    }
  }

  lemma TimedPositionsSnoc(rows: seq<RawRow>)
    requires |rows| > 0
    ensures |TimedPositions(rows)| == |TimedPositions(rows[..|rows| - 1])| + (if rows[|rows| - 1].time.Some? then 1 else 0)
  {
    var n := |rows| - 1;
    var before := TimedPositions(rows[..n]);
    var extra: set<int> := if rows[n].time.Some? then {n} else {};
    assert TimedPositions(rows) == before + extra by {
      forall i ensures i in TimedPositions(rows) <==> i in before + extra {
        if 0 <= i < n {
          assert rows[..n][i] == rows[i];
        }
      }
    }
    assert before !! extra;
  }

  /** `df['watts'].notna().any()` with the column present. */
  predicate HasWatts(columns: set<Column>, timed: seq<Timed>) {
    WattsColumn in columns && exists i | 0 <= i < |timed| :: timed[i].row.watts.Some?
  }

  /** `(df['watts'].fillna(0) * df['dt']).sum()`. */
  function WattSeconds(timed: seq<Timed>): real {
    if |timed| == 0 then 0.0 else timed[0].row.watts.GetOr(0.0) * timed[0].dt + WattSeconds(timed[1..])
  }

  /** Time-weighted average power. */
  function AveragePower(timed: seq<Timed>): real
    requires StreamTime(timed) > 0.0
  {
    WattSeconds(timed) / StreamTime(timed)
  }

  lemma {:induction false} WattSecondsOfSteadyPower(timed: seq<Timed>, w: real)
    requires forall i | 0 <= i < |timed| :: timed[i].row.watts == Some(w)
    ensures WattSeconds(timed) == w * StreamTime(timed)
  {
    if |timed| > 0 {
      StreamTimeCons(timed);
      WattSecondsOfSteadyPower(timed[1..], w);
      assert w * StreamTime(timed) == w * timed[0].dt + w * StreamTime(timed[1..]);
    }
  }

  /** Riding at a steady power, the time-weighted average is that power. */
  lemma AveragePowerOfSteadyRide(timed: seq<Timed>, w: real)
    requires StreamTime(timed) > 0.0
    requires forall i | 0 <= i < |timed| :: timed[i].row.watts == Some(w)
    ensures AveragePower(timed) == w
  {
    WattSecondsOfSteadyPower(timed, w);
  }

  datatype BikeMetrics = BikeMetrics(
    avgPower: Option<real>,
    normalizedPower: Option<real>,
    intensityFactor: Option<real>,
    tss: Option<real>,
    segmentTimes: map<string, real>,
    segmentPercentages: map<string, real>,
    totalTime: real)

  /** `compute_bike_metrics`, without the pandas-computed zones and heart-rate drift. */
  function BikeMetricsOf(columns: set<Column>, timed: seq<Timed>, ftp: int, stats: StreamStats): (m: BikeMetrics)
    requires StreamTime(timed) > 0.0
    ensures m.totalTime == StreamTime(timed)
    // power numbers exactly when there is a watts stream
    ensures m.avgPower.Some? <==> HasWatts(columns, timed)
    ensures m.normalizedPower.Some? <==> HasWatts(columns, timed)
    ensures m.avgPower.Some? ==> m.avgPower.value * m.totalTime == WattSeconds(timed)
    ensures m.intensityFactor == IntensityFactor(m.normalizedPower, ftp)
    ensures m.tss == TrainingStress(m.totalTime, m.normalizedPower, m.intensityFactor, ftp)
    ensures m.segmentTimes == BikeSegments(columns, timed, ftp, stats.quantiles)
    ensures m.segmentPercentages == SegmentPercentages(m.segmentTimes, m.totalTime)
  {
    var total := StreamTime(timed);
    var np := if HasWatts(columns, timed) then Some(stats.normalizedPower) else None;
    var intensity := IntensityFactor(np, ftp);
    var seg := BikeSegments(columns, timed, ftp, stats.quantiles);
    BikeMetrics(
      if HasWatts(columns, timed) then Some(AveragePower(timed)) else None,
      np, intensity, TrainingStress(total, np, intensity, ftp),
      seg, SegmentPercentages(seg, total), total)
  }

  /** The rough path's estimate method tag. */
  const RoughMethod: string := "rough_from_metadata_and_hr"
  const RunningMethod: string := "running_from_hr_and_velocity"
  const StrengthMethod: string := "strength_from_training_load_and_hr"

  datatype RoughMetrics = RoughMetrics(
    avgPower: Option<real>,
    normalizedPower: Option<real>,
    intensityFactor: Option<real>,
    tss: Option<real>,
    zones: ZoneSplit,
    segmentTimes: map<string, real>,
    segmentPercentages: map<string, real>,
    totalTime: real,
    estimateMethod: string)

  /** `compute_rough_guess_bike_metrics`, without the heart-rate drift. */
  function RoughMetricsOf(columns: set<Column>, timed: seq<Timed>, ftp: int, meta: Meta, stats: StreamStats): (m: RoughMetrics)
    ensures m.totalTime == StreamTime(timed)
    // power is estimated from metadata, and stands in for normalized power
    ensures m.avgPower == EstimateAvgPower(meta, ftp)
    ensures m.normalizedPower == m.avgPower
    ensures m.intensityFactor == IntensityFactor(m.normalizedPower, ftp)
    // a training load in metadata wins over the computed TSS
    ensures GetMetaNum(meta, RideLoadKeys, false).Some? ==> m.tss == GetMetaNum(meta, RideLoadKeys, false)
    ensures GetMetaNum(meta, RideLoadKeys, false).None? ==>
              m.tss == TrainingStress(m.totalTime, m.normalizedPower, m.intensityFactor, ftp)
    ensures m.zones == FallbackZones(m.avgPower, ftp, m.totalTime)
    ensures m.segmentTimes == RoughSegments(columns, timed, meta, stats.quantiles)
    ensures m.segmentPercentages == SegmentPercentages(m.segmentTimes, m.totalTime)
    ensures m.estimateMethod == RoughMethod
  {
    var total := StreamTime(timed);
    var estimate := EstimateAvgPower(meta, ftp);
    var intensity := IntensityFactor(estimate, ftp);
    var load := GetMetaNum(meta, RideLoadKeys, false);
    var seg := RoughSegments(columns, timed, meta, stats.quantiles);
    RoughMetrics(
      estimate, estimate, intensity,
      if load.Some? then load else TrainingStress(total, estimate, intensity, ftp),
      FallbackZones(estimate, ftp, total),
      seg, SegmentPercentages(seg, total), total, RoughMethod)
  }

  datatype RunMetrics = RunMetrics(
    trainingLoad: Option<real>,
    elevationGain: Option<real>,
    elevationLoss: Option<real>,
    segmentTimes: map<string, real>,
    segmentPercentages: map<string, real>,
    totalTime: real,
    estimateMethod: string)

  /** `compute_running_metrics`, without the pandas-computed heart-rate, pace and cadence
      statistics. */
  function RunMetricsOf(columns: set<Column>, timed: seq<Timed>, meta: Meta, stats: StreamStats): (m: RunMetrics)
    ensures m.totalTime == StreamTime(timed)
    ensures m.trainingLoad == GetMetaNum(meta, LoadKeys, false)
    ensures m.elevationGain == GetMetaNum(meta, ElevationGainKeys, false)
    ensures m.elevationLoss == GetMetaNum(meta, ElevationLossKeys, false)
    ensures m.segmentTimes == RunSegments(columns, timed, meta, stats.quantiles)
    ensures m.segmentPercentages == SegmentPercentages(m.segmentTimes, m.totalTime)
    ensures m.estimateMethod == RunningMethod
    // no heart rate, no buckets; with it and ordered thresholds the shares add up to 100
    ensures !HasHeartrate(columns, timed) ==> m.segmentTimes == map[] && m.segmentPercentages == map[]
    ensures HasHeartrate(columns, timed) && m.totalTime > 0.0 && ThresholdUsable(meta)
            && stats.quantiles.hr40 <= stats.quantiles.hr75 ==>
              m.segmentPercentages["easy"] + m.segmentPercentages["steady"] + m.segmentPercentages["hard"] == 100.0
  {
    var total := StreamTime(timed);
    var seg := RunSegments(columns, timed, meta, stats.quantiles);
    assert HasHeartrate(columns, timed) && total > 0.0 && ThresholdUsable(meta) && stats.quantiles.hr40 <= stats.quantiles.hr75 ==>
             var pct := SegmentPercentages(seg, total);
             pct["easy"] + pct["steady"] + pct["hard"] == 100.0 by {
      if HasHeartrate(columns, timed) && total > 0.0 && ThresholdUsable(meta) && stats.quantiles.hr40 <= stats.quantiles.hr75 {
        RunPercentagesSum(columns, timed, meta, stats.quantiles);
      }
    }
    RunMetrics(GetMetaNum(meta, LoadKeys, false), GetMetaNum(meta, ElevationGainKeys, false),
               GetMetaNum(meta, ElevationLossKeys, false), seg, SegmentPercentages(seg, total), total,
               RunningMethod)
  }

  datatype StrengthMetrics = StrengthMetrics(
    trainingLoad: Option<real>,
    distance: Option<real>,
    elevationGain: Option<real>,
    segmentTimes: map<string, real>,
    segmentPercentages: map<string, real>,
    totalTime: real,
    estimateMethod: string)

  /** `compute_weightlifting_metrics`, without the pandas-computed heart-rate statistics. */
  function StrengthMetricsOf(columns: set<Column>, timed: seq<Timed>, meta: Meta, stats: StreamStats): (m: StrengthMetrics)
    ensures m.totalTime == StreamTime(timed)
    ensures m.trainingLoad == GetMetaNum(meta, LoadKeys, false)
    ensures m.distance == GetMetaNum(meta, DistanceKeys, false)
    ensures m.elevationGain == GetMetaNum(meta, ElevationGainKeys, false)
    ensures m.segmentTimes == StrengthSegments(columns, timed, meta, stats.quantiles)
    ensures m.segmentPercentages == SegmentPercentages(m.segmentTimes, m.totalTime)
    ensures m.estimateMethod == StrengthMethod
    // without heart rate the whole session is unknown; with it and ordered thresholds the
    // three shares add up to 100
    ensures !HasHeartrate(columns, timed) && m.totalTime > 0.0 ==> m.segmentPercentages == map["unknown" := 100.0]
    ensures HasHeartrate(columns, timed) && m.totalTime > 0.0 && ThresholdUsable(meta)
            && stats.quantiles.hr33 <= stats.quantiles.hr67 ==>
              m.segmentPercentages["easy"] + m.segmentPercentages["moderate"] + m.segmentPercentages["intense"] == 100.0
  {
    var total := StreamTime(timed);
    var seg := StrengthSegments(columns, timed, meta, stats.quantiles);
    assert total > 0.0 && ThresholdUsable(meta) && stats.quantiles.hr33 <= stats.quantiles.hr67 ==>
             var pct := SegmentPercentages(seg, total);
             && (HasHeartrate(columns, timed) ==> pct["easy"] + pct["moderate"] + pct["intense"] == 100.0)
             && (!HasHeartrate(columns, timed) ==> pct == map["unknown" := 100.0]) by {
      if total > 0.0 && ThresholdUsable(meta) && stats.quantiles.hr33 <= stats.quantiles.hr67 {
        StrengthPercentagesSum(columns, timed, meta, stats.quantiles);
      }
    }
    assert !HasHeartrate(columns, timed) && total > 0.0 ==> SegmentPercentages(seg, total) == map["unknown" := 100.0] by {
      if !HasHeartrate(columns, timed) && total > 0.0 {
        WholeIsHundredPercent(total);
        assert SegmentPercentages(seg, total).Keys == {"unknown"};
      }
    }
    StrengthMetrics(GetMetaNum(meta, LoadKeys, false), GetMetaNum(meta, DistanceKeys, false),
                    GetMetaNum(meta, ElevationGainKeys, false), seg, SegmentPercentages(seg, total), total,
                    StrengthMethod)
  }

  /** What a parse produces besides "type" and "date". */
  datatype Body =
    | Bike(bike: BikeMetrics)
    | Rough(rough: RoughMetrics)
    | Running(run: RunMetrics)
    | Strength(strength: StrengthMetrics)
    | NotImplemented      // {"status": "Not Implemented"}
    | NoMetrics           // an activity type without a compute path

  /** A parsed activity, or the exception pandas raises: a missing "time" column, or an
      empty stream on a compute path. */
  datatype ParseResult = Parsed(body: Body, activityType: string, date: string) | Raises

  predicate IsRide(activityType: string) {
    activityType == "Ride" || activityType == "VirtualRide"
  }

  predicate ComputePath(activityType: string) {
    IsRide(activityType) || activityType == "Run" || activityType == "WeightTraining"
  }

  /** The dispatch, given which ride path is taken. */
  function Dispatch(frame: Frame, meta: ActivityMeta, ftp: int, stats: StreamStats, fullBike: bool): (p: ParseResult)
    ensures p.Raises? <==>
              TimeColumn !in frame.columns || (ComputePath(meta.activityType) && |CleanRows(frame.rows)| == 0)
    ensures p.Parsed? ==> p.activityType == meta.activityType && p.date == meta.activityDate
    ensures p.Parsed? ==>
              && (p.body.Bike? <==> IsRide(meta.activityType) && fullBike)
              && (p.body.Rough? <==> IsRide(meta.activityType) && !fullBike)
              && (p.body.Running? <==> meta.activityType == "Run")
              && (p.body.Strength? <==> meta.activityType == "WeightTraining")
              && (p.body.NotImplemented? <==> meta.activityType == "Walk")
              && (p.body.NoMetrics? <==> !ComputePath(meta.activityType) && meta.activityType != "Walk")
    // a compute path sees the cleaned, sorted, timed rows, whose total time is positive
    ensures p.Parsed? && ComputePath(meta.activityType) ==>
              && |CleanRows(frame.rows)| > 0
              && StreamTime(Prepare(CleanRows(frame.rows))) > 0.0
    ensures p.Parsed? && p.body.Bike? ==>
              p.body.bike == BikeMetricsOf(frame.columns, Prepare(CleanRows(frame.rows)), ftp, stats)
    ensures p.Parsed? && p.body.Rough? ==>
              && p.body.rough == RoughMetricsOf(frame.columns, Prepare(CleanRows(frame.rows)), ftp, meta.fields, stats)
              && p.body.rough.avgPower == EstimateAvgPower(meta.fields, ftp)
    ensures p.Parsed? && p.body.Running? ==>
              p.body.run == RunMetricsOf(frame.columns, Prepare(CleanRows(frame.rows)), meta.fields, stats)
    ensures p.Parsed? && p.body.Strength? ==>
              p.body.strength == StrengthMetricsOf(frame.columns, Prepare(CleanRows(frame.rows)), meta.fields, stats)
  {
    if TimeColumn !in frame.columns then Raises
    else
      var rows := CleanRows(frame.rows);
      if !ComputePath(meta.activityType) then
        Parsed(if meta.activityType == "Walk" then NotImplemented else NoMetrics, meta.activityType, meta.activityDate)
      else if |rows| == 0 then Raises
      else
        var timed := Prepare(rows);
        var cols := frame.columns;
        var body :=
          if IsRide(meta.activityType) then
            (if fullBike then Bike(BikeMetricsOf(cols, timed, ftp, stats))
             else Rough(RoughMetricsOf(cols, timed, ftp, meta.fields, stats)))
          else if meta.activityType == "Run" then Running(RunMetricsOf(cols, timed, meta.fields, stats))
          else Strength(StrengthMetricsOf(cols, timed, meta.fields, stats));
        Parsed(body, meta.activityType, meta.activityDate)
  }

  /** `parse_activity` as written: `"watts" and "cadence" in df` evaluates to
      `"cadence" in df`, so the full bike path is chosen on the cadence column alone. */
  function ParseActivity(frame: Frame, meta: ActivityMeta, ftp: int, stats: StreamStats): (p: ParseResult)
    ensures p.Parsed? && IsRide(meta.activityType) ==> (p.body.Bike? <==> CadenceColumn in frame.columns)
    ensures p.Raises? <==>
              TimeColumn !in frame.columns || (ComputePath(meta.activityType) && |CleanRows(frame.rows)| == 0)
    ensures p.Parsed? ==> p.activityType == meta.activityType && p.date == meta.activityDate
  {
    Dispatch(frame, meta, ftp, stats, CadenceColumn in frame.columns)
  }

  /** `parse_activity` as evidently intended: the full bike path needs both a watts and a
      cadence column. */
  function ParseActivityIntended(frame: Frame, meta: ActivityMeta, ftp: int, stats: StreamStats): (p: ParseResult)
    ensures p.Parsed? && IsRide(meta.activityType) ==>
              (p.body.Bike? <==> WattsColumn in frame.columns && CadenceColumn in frame.columns)
    ensures p.Raises? <==>
              TimeColumn !in frame.columns || (ComputePath(meta.activityType) && |CleanRows(frame.rows)| == 0)
    ensures p.Parsed? ==> p.activityType == meta.activityType && p.date == meta.activityDate
  {
    Dispatch(frame, meta, ftp, stats, WattsColumn in frame.columns && CadenceColumn in frame.columns)
  }

  /** On the intended dispatch, a ride whose file has no watts column always gets the
      metadata estimate, so its power figures come from metadata rather than being None. */
  lemma IntendedRideWithoutWattsIsEstimated(frame: Frame, meta: ActivityMeta, ftp: int, stats: StreamStats)
    requires IsRide(meta.activityType) && WattsColumn !in frame.columns
    ensures
      var p := ParseActivityIntended(frame, meta, ftp, stats);
      p.Parsed? ==> p.body.Rough? && p.body.rough.avgPower == EstimateAvgPower(meta.fields, ftp)
  {
  }

  /** A ride file with a cadence column but no watts column, one sample long. */
  const CadenceOnlyFrame: Frame := Frame({TimeColumn, CadenceColumn}, [RawRow(Some(0.0), None, Some(85.0), None, None)])
  /** Ride metadata giving only an average power of 200 W. */
  const AverageWattsMeta: ActivityMeta := ActivityMeta("Ride", "2024-05-01", map["average_watts" := Number(200.0)])
  const FlatStats: StreamStats := StreamStats(0.0, Quantiles(0.0, 0.0, 0.0, 0.0, 0.0, 0.0, None))

  /** As written, the cadence column sends the ride down the full bike path, which finds no
      watts and reports no power. */
  lemma CadenceOnlyRideAsWritten()
    ensures ParseActivity(CadenceOnlyFrame, AverageWattsMeta, 218, FlatStats).body.Bike?
    ensures ParseActivity(CadenceOnlyFrame, AverageWattsMeta, 218, FlatStats).body.bike.avgPower == None
  {
    var rows := CadenceOnlyFrame.rows;
    assert rows[1..] == [];
    assert |CleanRows(rows)| == 1;
  }

  /** As intended, the missing watts column sends it to the metadata path, which reads 200 W. */
  lemma CadenceOnlyRideIntended()
    ensures ParseActivityIntended(CadenceOnlyFrame, AverageWattsMeta, 218, FlatStats).body.Rough?
    ensures ParseActivityIntended(CadenceOnlyFrame, AverageWattsMeta, 218, FlatStats).body.rough.avgPower == Some(200.0)
  {
    var rows := CadenceOnlyFrame.rows;
    assert rows[1..] == [];
    assert |CleanRows(rows)| == 1;
    PowerFromAverageWatts(200.0);
  }

  /** The discrepancy: the same cadence-only ride with metadata power loses its power as
      written and keeps it as intended. */
  lemma CadenceOnlyRideLosesPower()
    ensures ParseActivity(CadenceOnlyFrame, AverageWattsMeta, 218, FlatStats).body.bike.avgPower == None
    ensures ParseActivityIntended(CadenceOnlyFrame, AverageWattsMeta, 218, FlatStats).body.rough.avgPower == Some(200.0)
  {
    CadenceOnlyRideAsWritten();
    CadenceOnlyRideIntended();
  }
}

=== FILE: backfill.dfy ===
/** The Prometheus backfill serializer: each daily summary becomes eleven text blocks, one
    every two hours from midnight, each holding fifteen gauges and the OpenMetrics `# EOF`
    terminator. */
module Backfill {
  import opened Decimal

  /** A daily summary value: None, an integer, or any other value given by the text `str()`
      makes of it (floats, strings). */
  datatype DailyValue = Null | Int(n: int) | Literal(text: string)

  /** A daily summary: its "calendarDate" as a day number since 1970-01-01, and its fields. */
  datatype Daily = Daily(calendarDay: int, fields: map<string, DailyValue>)

  /** `cleanup_daily`: every None becomes 0, nothing else changes. */
  function CleanupDaily(d: Daily): (c: Daily)
    ensures c.calendarDay == d.calendarDay
    ensures c.fields.Keys == d.fields.Keys
    ensures forall k | k in c.fields :: !c.fields[k].Null?
    ensures forall k | k in d.fields :: d.fields[k].Null? ==> c.fields[k] == Int(0)
    ensures forall k | k in d.fields :: !d.fields[k].Null? ==> c.fields[k] == d.fields[k]
  {
    Daily(d.calendarDay, map k | k in d.fields :: if d.fields[k].Null? then Int(0) else d.fields[k])
  }

  /** Cleaning a cleaned summary changes nothing. */
  lemma CleanupIdempotent(d: Daily)
    ensures CleanupDaily(CleanupDaily(d)) == CleanupDaily(d)
  {
    var c := CleanupDaily(d);
    assert CleanupDaily(c).fields == c.fields;
  }

  const SecondsPerDay: int := 86400
  /** Two hours. */
  const StepSeconds: int := 7200
  const SlotsPerDay: nat := 11

  /** The eleven sample times of a day: its local midnight, then every two hours. Local
      time is UTC plus `utcOffset` seconds, taken as constant over the day. */
  function Timestamps(day: int, utcOffset: int): (ts: seq<int>)
    ensures |ts| == SlotsPerDay
    ensures ts[0] == day * SecondsPerDay - utcOffset
    ensures forall i | 0 <= i < SlotsPerDay - 1 :: ts[i + 1] - ts[i] == StepSeconds
  {
    seq(SlotsPerDay, i requires 0 <= i < SlotsPerDay => day * SecondsPerDay - utcOffset + i * StepSeconds)
  }

  /** `get_timestamp_from_date`, step by step as the source does it. */
  method GetTimestampFromDate(day: int, utcOffset: int) returns (ts: seq<int>)
    ensures |ts| == SlotsPerDay
    ensures ts[0] == day * SecondsPerDay - utcOffset
    ensures forall i | 0 <= i < |ts| - 1 :: ts[i + 1] == ts[i] + StepSeconds
    ensures ts == Timestamps(day, utcOffset)
  {
    ts := [];
    var current := day * SecondsPerDay - utcOffset;
    var x := 0;
    while x < SlotsPerDay
      invariant 0 <= x <= SlotsPerDay
      invariant |ts| == x
      invariant current == day * SecondsPerDay - utcOffset + x * StepSeconds
      invariant forall i | 0 <= i < x :: ts[i] == day * SecondsPerDay - utcOffset + i * StepSeconds
    {
      ts := ts + [current];
      current := current + StepSeconds;
      x := x + 1;
    }
  }

  /** The timestamps of a day are distinct, so are the files they name. */
  lemma TimestampsDistinct(day: int, utcOffset: int)
    ensures forall i, j | 0 <= i < j < SlotsPerDay :: Timestamps(day, utcOffset)[i] < Timestamps(day, utcOffset)[j]
  {
  }

  /** A gauge: its metric name (also its key in the daily summary) and its help text. */
  datatype Gauge = Gauge(name: string, help: string)

  const GaugeCount: nat := 15

  /** The fifteen gauges, with the help texts as the source spells them. */
  const MinHeartRate: Gauge := Gauge("minHeartRate", "Min heart rate")
  const MaxHeartRate: Gauge := Gauge("maxHeartRate", "Max heart rate")
  const RestingHeartRate: Gauge := Gauge("restingHeartRate", "Resting heart rate")
  const SevenDayRestingHeartRate: Gauge := Gauge("lastSevenDaysAvgRestingHeartRate", "Sevenday avg heart rate")
  const BodyBatteryHighest: Gauge := Gauge("bodyBatteryHighestValue", "Body battery highest value")
  const BodyBatteryLowest: Gauge := Gauge("bodyBatteryLowestValue", "body battery lowest value")
  const BodyBatteryDuringSleep: Gauge := Gauge("bodyBatteryDuringSleep", "Body battery recovered during sleep")
  const AverageStress: Gauge := Gauge("averageStressLevel", "Average stress level")
  const MaxStress: Gauge := Gauge("maxStressLevel", "Max daily stress level")
  const AverageSpo2: Gauge := Gauge("averageSpo2", "Average SPO2")
  const LowestSpo2: Gauge := Gauge("lowestSpo2", "Lowest SPO2")
  const Sedentary: Gauge := Gauge("sedentarySeconds", "time spend sedentary")
  const Sleeping: Gauge := Gauge("sleepingSeconds", "seconds spent sleeping")
  const Active: Gauge := Gauge("activeSeconds", "seconds spent highly active")
  const HighlyActive: Gauge := Gauge("highlyActiveSeconds", "time spent highly active")

  /** The gauges in the order the block lists them. */
  function GaugeAt(k: nat): Gauge
    requires k < GaugeCount
  {
    match k
    case 0 => MinHeartRate
    case 1 => MaxHeartRate
    case 2 => RestingHeartRate
    case 3 => SevenDayRestingHeartRate
    case 4 => BodyBatteryHighest
    case 5 => BodyBatteryLowest
    case 6 => BodyBatteryDuringSleep
    case 7 => AverageStress
    case 8 => MaxStress
    case 9 => AverageSpo2
    case 10 => LowestSpo2
    case 11 => Sedentary
    case 12 => Sleeping
    case 13 => Active
    case _ => HighlyActive
  }

  /** The gauge table as a list. */
  function Gauges(): (gs: seq<Gauge>)
    ensures |gs| == GaugeCount
    ensures forall k | 0 <= k < GaugeCount :: gs[k] == GaugeAt(k)
  {
    seq(GaugeCount, k requires 0 <= k < GaugeCount => GaugeAt(k))
  }

  /** The f-string text of a value. */
  function ValueText(v: DailyValue): string {
    match v
    case Null => "None"
    case Int(n) => IntToString(n)
    case Literal(t) => t
  }

  function HelpLine(g: Gauge): string {
    "# HELP " + g.name + " " + g.help
  }

  function TypeLine(g: Gauge): string {
    "# TYPE " + g.name + " gauge"
  }

  function SampleLine(g: Gauge, v: DailyValue, timestamp: int): string {
    g.name + " " + ValueText(v) + " " + IntToString(timestamp)
  }

  predicate HasGauges(fields: map<string, DailyValue>, gs: seq<Gauge>) {
    forall i | 0 <= i < |gs| :: gs[i].name in fields
  }

  /** The three lines of one gauge group. */
  function Group(g: Gauge, v: DailyValue, timestamp: int): seq<string> {
    [HelpLine(g), TypeLine(g), SampleLine(g, v, timestamp)]
  }

  /** The lines of the gauge groups, without their newlines. */
  function GroupLines(gs: seq<Gauge>, fields: map<string, DailyValue>, timestamp: int): (lines: seq<string>)
    requires HasGauges(fields, gs)
    ensures |lines| == 3 * |gs|
  {
    if |gs| == 0 then []
    else Group(gs[0], fields[gs[0].name], timestamp) + GroupLines(gs[1..], fields, timestamp)
  }

  /** Gauge `k` owns lines 3k, 3k+1 and 3k+2: its HELP, TYPE and sample lines. */
  lemma {:induction false} GroupLinesAt(gs: seq<Gauge>, fields: map<string, DailyValue>, timestamp: int, k: int)
    requires HasGauges(fields, gs)
    requires 0 <= k < |gs|
    ensures
      var lines := GroupLines(gs, fields, timestamp);
      && lines[3 * k] == HelpLine(gs[k])
      && lines[3 * k + 1] == TypeLine(gs[k])
      && lines[3 * k + 2] == SampleLine(gs[k], fields[gs[k].name], timestamp)
  {
    var lines := GroupLines(gs, fields, timestamp);
    var head := Group(gs[0], fields[gs[0].name], timestamp);
    var rest := GroupLines(gs[1..], fields, timestamp);
    assert lines == head + rest;
    if k > 0 {
      assert HasGauges(fields, gs[1..]) by {
        forall j | 0 <= j < |gs[1..]| ensures gs[1..][j].name in fields {
          assert gs[1..][j] == gs[j + 1];
        }
      }
      GroupLinesAt(gs[1..], fields, timestamp, k - 1);
      assert gs[1..][k - 1] == gs[k];
      var j := 3 * (k - 1);
      assert 3 * k == |head| + j;
      ConcatIndex(head, rest, j);
      ConcatIndex(head, rest, j + 1);
      ConcatIndex(head, rest, j + 2);
    }
  }

  lemma ConcatIndex<T>(a: seq<T>, b: seq<T>, j: int)
    requires 0 <= j < |b|
    ensures (a + b)[|a| + j] == b[j]
  {
  }

  lemma AllGroupLines(gs: seq<Gauge>, fields: map<string, DailyValue>, timestamp: int)
    requires HasGauges(fields, gs)
    ensures forall k | 0 <= k < |gs| ::
              var lines := GroupLines(gs, fields, timestamp);
              && lines[3 * k] == HelpLine(gs[k])
              && lines[3 * k + 1] == TypeLine(gs[k])
              && lines[3 * k + 2] == SampleLine(gs[k], fields[gs[k].name], timestamp)
  {
    forall k | 0 <= k < |gs| ensures
        var lines := GroupLines(gs, fields, timestamp);
        && lines[3 * k] == HelpLine(gs[k])
        && lines[3 * k + 1] == TypeLine(gs[k])
        && lines[3 * k + 2] == SampleLine(gs[k], fields[gs[k].name], timestamp)
    {
      GroupLinesAt(gs, fields, timestamp, k);
    }
  }

  const EofLine: string := "# EOF"

  /** The lines of a complete block. */
  function BlockLines(fields: map<string, DailyValue>, timestamp: int): (lines: seq<string>)
    requires HasGauges(fields, Gauges())
    ensures |lines| == 3 * |Gauges()| + 1 == 46
    ensures lines[|lines| - 1] == EofLine
    ensures forall k | 0 <= k < |Gauges()| ::
              && lines[3 * k] == HelpLine(Gauges()[k])
              && lines[3 * k + 1] == TypeLine(Gauges()[k])
              && lines[3 * k + 2] == SampleLine(Gauges()[k], fields[Gauges()[k].name], timestamp)
  {
    AllGroupLines(Gauges(), fields, timestamp);
    GroupLines(Gauges(), fields, timestamp) + [EofLine]
  }

  /** The text of lines each written with its newline. */
  function Terminated(lines: seq<string>): string {
    if |lines| == 0 then "" else lines[0] + "\n" + Terminated(lines[1..])
  }

  /** `str.split("\n")`. */
  function SplitLines(s: string): (parts: seq<string>)
    ensures |parts| > 0
    decreases |s|
  {
    if |s| == 0 then [""]
    else
      var rest := SplitLines(s[1..]);
      if s[0] == '\n' then [""] + rest else [[s[0]] + rest[0]] + rest[1..]
  }

  predicate NoNewline(s: string) {
    forall i | 0 <= i < |s| :: s[i] != '\n'
  }

  lemma {:induction false} SplitLineBreak(a: string, b: string)
    requires NoNewline(a)
    ensures SplitLines(a + "\n" + b) == [a] + SplitLines(b)
    decreases |a|
  {
    if |a| == 0 {
      assert a + "\n" + b == "\n" + b;
      assert ("\n" + b)[1..] == b;
    } else {
      assert (a + "\n" + b)[1..] == a[1..] + "\n" + b;
      SplitLineBreak(a[1..], b);
      assert [a[0]] + a[1..] == a;
    }
  }

  lemma {:induction false} SplitSingleLine(a: string)
    requires NoNewline(a)
    ensures SplitLines(a) == [a]
    decreases |a|
  {
    if |a| > 0 {
      SplitSingleLine(a[1..]);
      assert [a[0]] + a[1..] == a;
    }
  }

  /** Lines written with their newlines and then a last line without one split back into
      exactly those lines. */
  lemma {:induction false} SplitTerminated(lines: seq<string>, last: string)
    requires forall i | 0 <= i < |lines| :: NoNewline(lines[i])
    requires NoNewline(last)
    ensures SplitLines(Terminated(lines) + last) == lines + [last]
  {
    if |lines| == 0 {
      assert Terminated(lines) + last == last;
      SplitSingleLine(last);
    } else {
      assert Terminated(lines) + last == lines[0] + "\n" + (Terminated(lines[1..]) + last);
      SplitLineBreak(lines[0], Terminated(lines[1..]) + last);
      SplitTerminated(lines[1..], last);
      assert [lines[0]] + (lines[1..] + [last]) == lines + [last];
    }
  }

  /** An integer's text reads back as that integer; a `None` that was not cleaned away
      would read as the word "None". */
  lemma ValueTextReadsBack(v: DailyValue)
    ensures v.Int? ==> IsIntText(ValueText(v)) && ParseInt(ValueText(v)) == v.n
    ensures v.Null? ==> !IsIntText(ValueText(v))
  {
    if v.Int? {
      IntRoundTrip(v.n);
    } else if v.Null? {
      assert !IsDigit(ValueText(v)[0]);
    }
  }

  /** `backfill_<timestamp>.txt`. */
  function BlockFileName(timestamp: int): string {
    "backfill_" + IntToString(timestamp) + ".txt"
  }

  /** A block's file name holds its timestamp between the fixed prefix and suffix, so
      different timestamps name different files. */
  lemma BlockFileNameReadsBack(timestamp: int)
    ensures
      var name := BlockFileName(timestamp);
      && |name| > 13 && name[..9] == "backfill_" && name[|name| - 4..] == ".txt"
      && IsIntText(name[9..|name| - 4]) && ParseInt(name[9..|name| - 4]) == timestamp
  {
    var digits := IntToString(timestamp);
    IntRoundTrip(timestamp);
    assert BlockFileName(timestamp)[9..9 + |digits|] == digits;
  }

  /** The first gauge the daily summary lacks, if any. */
  function FirstMissing(fields: map<string, DailyValue>, gs: seq<Gauge>): (k: int)
    ensures -1 <= k < |gs|
    ensures k == -1 <==> HasGauges(fields, gs)
    ensures k >= 0 ==> gs[k].name !in fields && HasGauges(fields, gs[..k])
  {
    if |gs| == 0 then -1
    else if gs[0].name !in fields then 0
    else
      var k := FirstMissing(fields, gs[1..]);
      assert forall i | 1 <= i < |gs| :: gs[i] == gs[1..][i - 1];
      if k == -1 then -1
      else
        assert gs[..k + 1] == [gs[0]] + gs[1..][..k];
        k + 1
  }

  /** One block file: its complete text, or, when a gauge's key is missing and the source
      raises a KeyError part-way, the text written before the failure. */
  datatype Block =
    | Written(fileName: string, text: string)
    | Aborted(fileName: string, missing: string, partial: string)

  /** `generate_blockfile`, as the text it writes. */
  function GenerateBlockfile(timestamp: int, daily: Daily): (b: Block)
    ensures b.fileName == BlockFileName(timestamp)
    // the block is complete exactly when every gauge has a value ...
    ensures b.Written? <==> HasGauges(daily.fields, Gauges())
    // ... and otherwise fails at the first gauge without one
    ensures b.Aborted? ==>
              exists k | 0 <= k < GaugeCount ::
                && b.missing == GaugeAt(k).name
                && b.missing !in daily.fields
                && forall j | 0 <= j < k :: GaugeAt(j).name in daily.fields
  {
    var k := FirstMissing(daily.fields, Gauges());
    if k == -1 then Written(BlockFileName(timestamp), BlockText(Gauges(), daily.fields, timestamp))
    else
      assert forall j | 0 <= j < k :: Gauges()[..k][j] == GaugeAt(j);
      Aborted(BlockFileName(timestamp), GaugeAt(k).name, PartialText(Gauges(), daily.fields, timestamp, k))
  }

  /** The text of a complete block: each group's lines with their newlines, then `# EOF`. */
  function BlockText(gs: seq<Gauge>, fields: map<string, DailyValue>, timestamp: int): string
    requires HasGauges(fields, gs)
  {
    Terminated(GroupLines(gs, fields, timestamp)) + EofLine
  }

  /** The text written before the lookup of gauge `k` fails: the complete groups before it
      and its HELP and TYPE lines. */
  function PartialText(gs: seq<Gauge>, fields: map<string, DailyValue>, timestamp: int, k: int): string
    requires 0 <= k < |gs| && HasGauges(fields, gs[..k])
  {
    Terminated(GroupLines(gs[..k], fields, timestamp) + [HelpLine(gs[k]), TypeLine(gs[k])])
  }

  predicate PlainGauge(g: Gauge) {
    NoNewline(g.name) && NoNewline(g.help)
  }

  // No gauge name or help text holds a line break, checked one gauge at a time.
  lemma MinHeartRatePlain() ensures PlainGauge(MinHeartRate) {}
  lemma MaxHeartRatePlain() ensures PlainGauge(MaxHeartRate) {}
  lemma RestingHeartRatePlain() ensures PlainGauge(RestingHeartRate) {}
  lemma SevenDayRestingHeartRatePlain() ensures PlainGauge(SevenDayRestingHeartRate) {}
  lemma BodyBatteryHighestPlain() ensures PlainGauge(BodyBatteryHighest) {}
  lemma BodyBatteryLowestPlain() ensures PlainGauge(BodyBatteryLowest) {}
  lemma BodyBatteryDuringSleepPlain() ensures PlainGauge(BodyBatteryDuringSleep) {}
  lemma AverageStressPlain() ensures PlainGauge(AverageStress) {}
  lemma MaxStressPlain() ensures PlainGauge(MaxStress) {}
  lemma AverageSpo2Plain() ensures PlainGauge(AverageSpo2) {}
  lemma LowestSpo2Plain() ensures PlainGauge(LowestSpo2) {}
  lemma SedentaryPlain() ensures PlainGauge(Sedentary) {}
  lemma SleepingPlain() ensures PlainGauge(Sleeping) {}
  lemma ActivePlain() ensures PlainGauge(Active) {}
  lemma HighlyActivePlain() ensures PlainGauge(HighlyActive) {}

  /** Every gauge of the table renders on lines of its own. */
  lemma GaugesPlain()
    ensures forall k | 0 <= k < |Gauges()| :: PlainGauge(Gauges()[k])
  {
    forall k | 0 <= k < GaugeCount ensures PlainGauge(GaugeAt(k)) {
      MinHeartRatePlain(); MaxHeartRatePlain(); RestingHeartRatePlain(); SevenDayRestingHeartRatePlain(); BodyBatteryHighestPlain();
      BodyBatteryLowestPlain(); BodyBatteryDuringSleepPlain(); AverageStressPlain(); MaxStressPlain(); AverageSpo2Plain();
      LowestSpo2Plain(); SedentaryPlain(); SleepingPlain(); ActivePlain(); HighlyActivePlain();
    }
  }

  /** A name's length, second letter and last letter: enough to tell the gauge names apart. */
  function NameTag(s: string): (int, char, char)
    requires |s| > 1
  {
    (|s|, s[1], s[|s| - 1])
  }

  const NameTags: seq<(int, char, char)> :=
    [(12, 'i', 'e'), (12, 'a', 'e'), (16, 'e', 'e'), (32, 'a', 'e'), (23, 'o', 'e'),
     (22, 'o', 'e'), (22, 'o', 'p'), (18, 'v', 'l'), (14, 'a', 'l'), (11, 'v', '2'),
     (10, 'o', '2'), (16, 'e', 's'), (15, 'l', 's'), (13, 'c', 's'), (19, 'i', 's')]

  lemma GaugeTag(k: nat)
    requires k < GaugeCount
    ensures |GaugeAt(k).name| > 1 && NameTag(GaugeAt(k).name) == NameTags[k]
  {
  }

  /** The fifteen gauges have fifteen different names, so a complete block holds one
      sample for each of fifteen metrics. */
  lemma GaugeNamesDistinct()
    ensures forall i, j | 0 <= i < j < |Gauges()| :: Gauges()[i].name != Gauges()[j].name
  {
    forall i, j | 0 <= i < j < GaugeCount ensures GaugeAt(i).name != GaugeAt(j).name {
      GaugeTag(i);
      GaugeTag(j);
      assert NameTags[i] != NameTags[j];
    }
  }

  lemma NoNewlineJoin(a: string, b: string)
    requires NoNewline(a) && NoNewline(b)
    ensures NoNewline(a + b)
  {
  }

  /** Decimal text never holds a line break. */
  lemma DecimalIsPlain(n: int)
    ensures NoNewline(IntToString(n))
  {
  }

  /** Every rendered line is free of line breaks when the gauge texts and values are. */
  lemma {:induction false} GroupLinesPlain(gs: seq<Gauge>, fields: map<string, DailyValue>, timestamp: int)
    requires HasGauges(fields, gs)
    requires forall k | 0 <= k < |gs| :: PlainGauge(gs[k])
    requires PlainValues(fields)
    ensures forall i | 0 <= i < 3 * |gs| :: NoNewline(GroupLines(gs, fields, timestamp)[i])
  {
    if |gs| > 0 {
      var g := gs[0];
      var head := Group(g, fields[g.name], timestamp);
      var rest := GroupLines(gs[1..], fields, timestamp);
      assert PlainGauge(g);
      NoNewlineJoin("# HELP " + g.name + " ", g.help);
      NoNewlineJoin("# TYPE " + g.name, " gauge");
      DecimalIsPlain(timestamp);
      NoNewlineJoin(g.name + " " + ValueText(fields[g.name]) + " ", IntToString(timestamp));
      assert forall j | 0 <= j < 3 :: NoNewline(head[j]);
      assert forall k | 0 <= k < |gs[1..]| :: gs[1..][k] == gs[k + 1];
      GroupLinesPlain(gs[1..], fields, timestamp);
      assert GroupLines(gs, fields, timestamp) == head + rest;
    }
  }

  /** The rendered groups, written line by line, read back as exactly their lines, with
      `# EOF` last: every gauge keeps its HELP, TYPE and sample line, in order, each sample
      stamped with the block's timestamp. This holds whenever no gauge text and no value
      text holds a line break. */
  lemma {:induction false} RenderedLinesReadBack(gs: seq<Gauge>, fields: map<string, DailyValue>, timestamp: int)
    requires HasGauges(fields, gs)
    requires forall k | 0 <= k < |gs| :: PlainGauge(gs[k])
    requires PlainValues(fields)
    ensures SplitLines(BlockText(gs, fields, timestamp)) == GroupLines(gs, fields, timestamp) + [EofLine]
  {
    var lines := GroupLines(gs, fields, timestamp);
    GroupLinesPlain(gs, fields, timestamp);
    SplitTerminated(lines, EofLine);
  }

  /** An aborted block reads back as the complete groups before the missing gauge, then
      that gauge's HELP and TYPE lines, then nothing: its sample line was never begun. */
  lemma PartialReadsBack(gs: seq<Gauge>, fields: map<string, DailyValue>, timestamp: int, k: int)
    requires 0 <= k < |gs| && HasGauges(fields, gs[..k])
    requires forall j | 0 <= j <= k :: PlainGauge(gs[j])
    requires PlainValues(fields)
    ensures SplitLines(PartialText(gs, fields, timestamp, k)) ==
            GroupLines(gs[..k], fields, timestamp) + [HelpLine(gs[k]), TypeLine(gs[k]), ""]
  {
    var g := gs[k];
    var lines := GroupLines(gs[..k], fields, timestamp) + [HelpLine(g), TypeLine(g)];
    assert forall j | 0 <= j < k :: gs[..k][j] == gs[j];
    GroupLinesPlain(gs[..k], fields, timestamp);
    assert PlainGauge(g);
    NoNewlineJoin("# HELP " + g.name + " ", g.help);
    NoNewlineJoin("# TYPE " + g.name, " gauge");
    assert forall i | 0 <= i < |lines| :: NoNewline(lines[i]);
    SplitTerminated(lines, "");
    assert Terminated(lines) + "" == PartialText(gs, fields, timestamp, k);
  }

  /** The values of a summary render without line breaks. */
  predicate PlainValues(fields: map<string, DailyValue>) {
    forall key | key in fields :: NoNewline(ValueText(fields[key]))
  }

  /** A complete block of the fifteen gauges reads back line by line as the 46 lines of
      `BlockLines`: every gauge's HELP, TYPE and sample line in table order, then `# EOF`. */
  lemma BlockReadsBack(fields: map<string, DailyValue>, timestamp: int)
    requires HasGauges(fields, Gauges()) && PlainValues(fields)
    ensures SplitLines(BlockText(Gauges(), fields, timestamp)) == BlockLines(fields, timestamp)
  {
    GaugesPlain();
    RenderedLinesReadBack(Gauges(), fields, timestamp);
  }

  /** What a reader of each written file sees: a written block splits into the complete
      block's lines; an aborted one into the groups before the first missing gauge, that
      gauge's HELP and TYPE lines, and an empty last piece. */
  lemma BlockfileText(timestamp: int, daily: Daily)
    requires PlainValues(daily.fields)
    ensures
      var b := GenerateBlockfile(timestamp, daily);
      && (b.Written? ==> SplitLines(b.text) == BlockLines(daily.fields, timestamp))
      && (b.Aborted? ==>
            var k := FirstMissing(daily.fields, Gauges());
            && 0 <= k < GaugeCount
            && SplitLines(b.partial) ==
               GroupLines(Gauges()[..k], daily.fields, timestamp) + [HelpLine(GaugeAt(k)), TypeLine(GaugeAt(k)), ""])
  {
    var b := GenerateBlockfile(timestamp, daily);
    if b.Written? {
      BlockReadsBack(daily.fields, timestamp);
    } else {
      var k := FirstMissing(daily.fields, Gauges());
      GaugesPlain();
      PartialReadsBack(Gauges(), daily.fields, timestamp, k);
    }
  }

  /** `generate_tsdb_data`: the day's eleven blocks, or the first block's failure, which
      ends the run. */
  function GenerateTsdbData(daily: Daily, utcOffset: int): (blocks: seq<Block>)
    ensures HasGauges(daily.fields, Gauges()) ==> |blocks| == SlotsPerDay
    ensures !HasGauges(daily.fields, Gauges()) ==>
              blocks == [GenerateBlockfile(Timestamps(daily.calendarDay, utcOffset)[0], daily)]
  {
    var ts := Timestamps(daily.calendarDay, utcOffset);
    if HasGauges(daily.fields, Gauges()) then seq(SlotsPerDay, i requires 0 <= i < SlotsPerDay => GenerateBlockfile(ts[i], daily))
    else [GenerateBlockfile(ts[0], daily)]
  }

  /** A complete summary gives one written block per timestamp of its day, in order. */
  lemma TsdbBlocks(daily: Daily, utcOffset: int)
    requires HasGauges(daily.fields, Gauges())
    ensures forall i | 0 <= i < SlotsPerDay ::
              && GenerateTsdbData(daily, utcOffset)[i] == GenerateBlockfile(Timestamps(daily.calendarDay, utcOffset)[i], daily)
              && GenerateTsdbData(daily, utcOffset)[i].Written?
  {
  }

  predicate AllComplete(dailies: seq<Daily>) {
    forall d | 0 <= d < |dailies| :: HasGauges(dailies[d].fields, Gauges())
  }

  /** `create_backfill`: each daily summary is cleaned and rendered in turn; the first
      summary lacking a gauge aborts the run after its first, partial block. */
  function CreateBackfill(dailies: seq<Daily>, utcOffset: int): (blocks: seq<Block>)
    ensures AllComplete(dailies) ==> |blocks| == SlotsPerDay * |dailies| && AllWritten(blocks)
    // otherwise the blocks end at the first failure
    ensures !AllComplete(dailies) ==> EndsAborted(blocks)
  {
    if |dailies| == 0 then []
    else
      var clean := CleanupDaily(dailies[0]);
      var first := GenerateTsdbData(clean, utcOffset);
      CompleteSplit(dailies);
      if !HasGauges(clean.fields, Gauges()) then
        assert first[..0] == [];
        first
      else
        var rest := CreateBackfill(dailies[1..], utcOffset);
        TsdbBlocks(clean, utcOffset);
        assert forall i | 0 <= i < SlotsPerDay :: first[i].Written?;
        if AllComplete(dailies[1..]) then
          AllWrittenConcat(first, rest);
          first + rest
        else
          EndsAbortedConcat(first, rest);
          first + rest
  }

  predicate AllWritten(blocks: seq<Block>) {
    forall i | 0 <= i < |blocks| :: blocks[i].Written?
  }

  /** The blocks end at their first failure. */
  predicate EndsAborted(blocks: seq<Block>) {
    |blocks| > 0 && blocks[|blocks| - 1].Aborted? && AllWritten(blocks[..|blocks| - 1])
  }

  lemma EndsAbortedConcat(a: seq<Block>, b: seq<Block>)
    requires AllWritten(a) && EndsAborted(b)
    ensures EndsAborted(a + b)
  {
    assert (a + b)[..|a + b| - 1] == a + b[..|b| - 1];
  }

  lemma AllWrittenConcat(a: seq<Block>, b: seq<Block>)
    requires AllWritten(a) && AllWritten(b)
    ensures AllWritten(a + b)
  {
  }

  /** A history is complete when its first summary, cleaned, and the rest are. */
  lemma CompleteSplit(dailies: seq<Daily>)
    requires |dailies| > 0
    ensures AllComplete(dailies) <==>
            HasGauges(CleanupDaily(dailies[0]).fields, Gauges()) && AllComplete(dailies[1..])
  {
    assert forall d | 1 <= d < |dailies| :: dailies[d] == dailies[1..][d - 1];
  }

  /** A run over a history whose summary `e` is the first to lack a gauge writes the
      complete run of the summaries before it, then summary `e`'s first block, and stops. */
  lemma {:induction false} BackfillStopsAtFirstIncomplete(dailies: seq<Daily>, utcOffset: int, e: int)
    requires 0 <= e < |dailies| && !HasGauges(dailies[e].fields, Gauges()) && AllComplete(dailies[..e])
    ensures
      var blocks := CreateBackfill(dailies, utcOffset);
      && |blocks| == SlotsPerDay * e + 1
      && blocks[..SlotsPerDay * e] == CreateBackfill(dailies[..e], utcOffset)
      && blocks[SlotsPerDay * e] ==
         GenerateBlockfile(Timestamps(dailies[e].calendarDay, utcOffset)[0], CleanupDaily(dailies[e]))
  {
    if e == 0 {
      assert !HasGauges(CleanupDaily(dailies[0]).fields, Gauges());
      assert dailies[..0] == [];
    } else {
      assert dailies[..e][0] == dailies[0];
      assert dailies[1..][e - 1] == dailies[e];
      assert dailies[1..][..e - 1] == dailies[..e][1..];
      BackfillStopsAtFirstIncomplete(dailies[1..], utcOffset, e - 1);
      var last := GenerateBlockfile(Timestamps(dailies[e].calendarDay, utcOffset)[0], CleanupDaily(dailies[e]));
      BackfillStopsStep(dailies, utcOffset, e, last);
    }
  }

  /** The inductive step: a complete first summary puts its eleven blocks in front of the
      run over the rest, and in front of the run over the summaries before `e`. */
  lemma BackfillStopsStep(dailies: seq<Daily>, utcOffset: int, e: int, last: Block)
    requires 0 < e < |dailies| && HasGauges(dailies[0].fields, Gauges())
    requires
      var rest := CreateBackfill(dailies[1..], utcOffset);
      && |rest| == SlotsPerDay * (e - 1) + 1
      && rest[..SlotsPerDay * (e - 1)] == CreateBackfill(dailies[1..][..e - 1], utcOffset)
      && rest[SlotsPerDay * (e - 1)] == last
    ensures
      var blocks := CreateBackfill(dailies, utcOffset);
      && |blocks| == SlotsPerDay * e + 1
      && blocks[..SlotsPerDay * e] == CreateBackfill(dailies[..e], utcOffset)
      && blocks[SlotsPerDay * e] == last
  {
    var first := GenerateTsdbData(CleanupDaily(dailies[0]), utcOffset);
    var rest := CreateBackfill(dailies[1..], utcOffset);
    BackfillHead(dailies, utcOffset);
    PrefixHead(dailies, utcOffset, e);
    ConcatSlice(first, rest, SlotsPerDay * (e - 1));
  }

  lemma ConcatSlice<T>(a: seq<T>, b: seq<T>, m: int)
    requires 0 <= m < |b|
    ensures (a + b)[..|a| + m] == a + b[..m]
    ensures (a + b)[|a| + m] == b[m]
  {
  }

  /** A run whose first summary is complete starts with that summary's eleven blocks. */
  lemma BackfillHead(dailies: seq<Daily>, utcOffset: int)
    requires |dailies| > 0 && HasGauges(dailies[0].fields, Gauges())
    ensures |GenerateTsdbData(CleanupDaily(dailies[0]), utcOffset)| == SlotsPerDay
    ensures CreateBackfill(dailies, utcOffset) ==
            GenerateTsdbData(CleanupDaily(dailies[0]), utcOffset) + CreateBackfill(dailies[1..], utcOffset)
  {
    assert HasGauges(CleanupDaily(dailies[0]).fields, Gauges());
  }

  lemma PrefixHead(dailies: seq<Daily>, utcOffset: int, d: int)
    requires 0 < d <= |dailies| && HasGauges(dailies[0].fields, Gauges())
    ensures CreateBackfill(dailies[..d], utcOffset) ==
            GenerateTsdbData(CleanupDaily(dailies[0]), utcOffset) + CreateBackfill(dailies[1..][..d - 1], utcOffset)
  {
    var before := dailies[..d];
    assert before[0] == dailies[0] && before[1..] == dailies[1..][..d - 1];
    BackfillHead(before, utcOffset);
  }

  /** With complete summaries, block `11 d + i` is the `i`-th two-hourly block of day `d`,
      rendered from the cleaned summary (which `GenerateTsdbData` relates to the `i`-th
      timestamp of that day). */
  lemma {:induction false} BackfillBlockAt(dailies: seq<Daily>, utcOffset: int, d: int, i: int)
    requires AllComplete(dailies)
    requires 0 <= d < |dailies| && 0 <= i < SlotsPerDay
    ensures CreateBackfill(dailies, utcOffset)[SlotsPerDay * d + i] ==
            GenerateTsdbData(CleanupDaily(dailies[d]), utcOffset)[i]
  {
    var first := GenerateTsdbData(CleanupDaily(dailies[0]), utcOffset);
    var rest := CreateBackfill(dailies[1..], utcOffset);
    var all := CreateBackfill(dailies, utcOffset);
    BackfillCons(dailies, utcOffset);
    if d == 0 {
      assert all[i] == first[i];
    } else {
      var j := SlotsPerDay * (d - 1) + i;
      BackfillBlockAt(dailies[1..], utcOffset, d - 1, i);
      assert rest[j] == GenerateTsdbData(CleanupDaily(dailies[d]), utcOffset)[i] by {
        assert dailies[1..][d - 1] == dailies[d];
      }
      assert SlotsPerDay * d + i == |first| + j;
      ConcatIndex(first, rest, j);
      assert all[SlotsPerDay * d + i] == rest[j];
    }
  }

  lemma BackfillCons(dailies: seq<Daily>, utcOffset: int)
    requires AllComplete(dailies) && |dailies| > 0
    ensures AllComplete(dailies[1..])
    ensures |GenerateTsdbData(CleanupDaily(dailies[0]), utcOffset)| == SlotsPerDay
    ensures CreateBackfill(dailies, utcOffset) ==
            GenerateTsdbData(CleanupDaily(dailies[0]), utcOffset) + CreateBackfill(dailies[1..], utcOffset)
  {
    CompleteSplit(dailies);
  }

  /** Every rendered value comes from a cleaned summary, so no sample reads "None" unless
      the value itself is that text. */
  lemma BackfillRendersNoNull(dailies: seq<Daily>)
    ensures forall d, k | 0 <= d < |dailies| && k in CleanupDaily(dailies[d]).fields ::
              ValueText(CleanupDaily(dailies[d]).fields[k]) == "None" ==>
              dailies[d].fields[k] == Literal("None")
  {
  }
}

=== FILE: baseline.dfy ===
/** `build_baseline_statistics`: per IF band, mean / population stdev / count of four
    strain metrics over the rides that fall in the band. */
module Baseline {
  import opened Options
  import opened SeqMath
  import opened RideRecord
  import opened IfBands
  import opened RideStrain

  datatype Metric = AvgHeartrate | HrDrift | CardiacCost | Tss

  const AllMetrics: set<Metric> := {AvgHeartrate, HrDrift, CardiacCost, Tss}

  /** The metric's key in the source's dictionaries. */
  function MetricName(k: Metric): string {
    match k
    case AvgHeartrate => "avg_heartrate"
    case HrDrift => "hr_drift"
    case CardiacCost => "cardiac_cost"
    case Tss => "tss"
  }

  function MetricValue(s: Strain, k: Metric): Option<real> {
    match k
    case AvgHeartrate => s.avgHeartrate
    case HrDrift => s.hrDrift
    case CardiacCost => s.cardiacCost
    case Tss => s.tss
  }

  /** A square root as far as the model needs one: non-negative, and zero exactly at zero.
      `statistics.pstdev` is the square root of the population variance. */
  type SquareRoot = f: real -> real | forall x :: 0.0 <= x ==> 0.0 <= f(x) && (f(x) == 0.0 <==> x == 0.0)
    witness (x: real) => x

  datatype Stat = Stat(mean: Option<real>, stdev: Option<real>, count: nat)

  type BandStats = map<Metric, Stat>

  /** Band label to per-metric statistics. */
  type BaselineStats = map<string, BandStats>

  function SumSqDev(xs: seq<real>, m: real): real {
    if |xs| == 0 then 0.0 else Square(xs[0] - m) + SumSqDev(xs[1..], m)
  }

  /** `x·x`. The second factor goes through `Id` so that the solver sees a product of two
      terms: its non-linear arithmetic does not relate a syntactic square to its sign. */
  function Square(x: real): real {
    x * Id(x)
  }

  function Id(x: real): real {
    x
  }

  lemma SquareFacts(d: real)
    ensures Square(d) >= 0.0
    ensures d != 0.0 ==> Square(d) > 0.0
    ensures d == 0.0 ==> Square(d) == 0.0
  {
    if d > 0.0 {
      ProductOfPositives(d, Id(d));
    } else if d < 0.0 {
      ProductOfPositives(-d, -Id(d));
      assert (-d) * (-Id(d)) == d * Id(d);
    }
  }

  lemma ProductOfPositives(a: real, b: real)
    requires a > 0.0 && b > 0.0
    ensures a * b > 0.0
  {
  }

  /** The sum of squared deviations is non-negative, and zero exactly when every element
      equals the centre. */
  lemma {:induction false} SumSqDevZero(xs: seq<real>, m: real)
    ensures SumSqDev(xs, m) >= 0.0
    ensures SumSqDev(xs, m) == 0.0 <==> forall i | 0 <= i < |xs| :: xs[i] == m
  {
    if |xs| > 0 {
      SumSqDevZero(xs[1..], m);
      var d := xs[0] - m;
      SquareFacts(d);
      assert forall i | 1 <= i < |xs| :: xs[i] == xs[1..][i - 1];
      if d == 0.0 {
        assert SumSqDev(xs, m) == SumSqDev(xs[1..], m);
      } else {
        assert SumSqDev(xs, m) > 0.0;
        assert xs[0] != m;
      }
    }
  }

  /** Population variance (`statistics.pvariance`). */
  function PVariance(xs: seq<real>): real
    requires |xs| > 0
  {
    SumSqDev(xs, Mean(xs)) / (|xs| as real)
  }

  /** The population variance is non-negative and zero exactly for a constant sample. */
  lemma PVarianceZeroIffConstant(xs: seq<real>)
    requires |xs| > 0
    ensures PVariance(xs) >= 0.0
    ensures PVariance(xs) == 0.0 <==> Constant(xs)
  {
    var m := Mean(xs);
    SumSqDevZero(xs, m);
    if Constant(xs) {
      MeanOfConstant(xs);
    }
  }

  /** `st` is what the source records for values `vs`: their count; no mean or stdev for
      none; the value and stdev 0.0 for one; the mean and the population stdev, the square
      root of the population variance, otherwise. */
  predicate Summarises(st: Stat, vs: seq<real>, sqrt: SquareRoot) {
    && st.count == |vs|
    && (|vs| == 0 <==> st.mean.None? && st.stdev.None?)
    && (|vs| == 1 ==> st.mean == Some(vs[0]) && st.stdev == Some(0.0))
    && (|vs| > 0 ==> st.mean == Some(Mean(vs)) && st.stdev.Some? && st.stdev.value >= 0.0)
    && (|vs| >= 2 ==> st.stdev == Some(sqrt(PVariance(vs))))
  }

  /** The statistics of one metric in one band: none for no values, the value itself and
      stdev 0.0 for one value, mean and population stdev otherwise. */
  function StatOf(vs: seq<real>, sqrt: SquareRoot): (st: Stat)
    ensures Summarises(st, vs, sqrt)
    ensures st.mean.None? <==> |vs| == 0
    ensures st.stdev.None? <==> |vs| == 0
    ensures |vs| == 1 ==> st.mean == Some(vs[0]) && st.stdev == Some(0.0)
    ensures |vs| > 0 ==> st.mean == Some(Mean(vs))
    ensures |vs| > 0 ==> st.stdev.value >= 0.0 && (st.stdev.value == 0.0 <==> Constant(vs))
  {
    if |vs| == 0 then Stat(None, None, 0)
    else if |vs| == 1 then
      assert Sum(vs) == vs[0] + Sum(vs[1..]);
      Stat(Some(vs[0]), Some(0.0), 1)
    else
      PVarianceZeroIffConstant(vs);
      Stat(Some(Mean(vs)), Some(sqrt(PVariance(vs))), |vs|)
  }

  /** Converting the IF with `float()` or comparing a text IF with a band bound raises in the
      source; a ride is admissible when neither can happen. */
  predicate BaselineReady(ride: Ride) {
    && ride.intensityFactor != Some(NotNumber)
    && (ride.ifAlias == Some(NotNumber) ==>
          ride.intensityFactor.Some? && ride.intensityFactor.value.x != 0.0)
  }

  predicate AllReady(rides: seq<Ride>) {
    forall i | 0 <= i < |rides| :: BaselineReady(rides[i])
  }

  /** The raw value `intensity_factor or IF` picks, before any comparison with a band bound:
      a missing or zero "intensity_factor" is falsy and yields "IF", whatever that holds. */
  function ChosenIf(ride: Ride): Option<Raw> {
    if ride.intensityFactor.Some? && ride.intensityFactor != Some(Num(0.0)) then ride.intensityFactor
    else ride.ifAlias
  }

  /** A ride is admissible exactly when the value the `or` picks is a number or absent, so the
      rides left out are exactly those on which `intensity_factor >= low` raises; on the others
      the baseline IF is that number. */
  lemma ReadyIffChosenIsNumber(ride: Ride)
    ensures BaselineReady(ride) <==> ChosenIf(ride) != Some(NotNumber)
    ensures BaselineReady(ride) ==>
      BaselineIf(ride) == (if ChosenIf(ride).Some? then Some(ChosenIf(ride).value.x) else None)
  {
    match ride.intensityFactor
    case Some(Num(x)) =>
      if x == 0.0 {
        assert ChosenIf(ride) == ride.ifAlias;
      }
    case _ =>
      assert ChosenIf(ride) == ride.intensityFactor || ChosenIf(ride) == ride.ifAlias;
  }

  /** `intensity_factor or IF`: a missing or zero "intensity_factor" falls through to "IF". */
  function BaselineIf(ride: Ride): (v: Option<real>)
    requires BaselineReady(ride)
    ensures (exists x :: ride.intensityFactor == Some(Num(x)) && x != 0.0) ==> v == Some(ride.intensityFactor.value.x)
    // otherwise "IF" decides: its number, or no IF at all
    ensures !(exists x :: ride.intensityFactor == Some(Num(x)) && x != 0.0) ==>
              v == (if ride.ifAlias.Some? && ride.ifAlias.value.Num? then Some(ride.ifAlias.value.x) else None)
  {
    match ride.intensityFactor
    case Some(Num(x)) =>
      if x != 0.0 then Some(x)
      else (match ride.ifAlias case Some(Num(y)) => Some(y) case _ => None)
    case _ =>
      match ride.ifAlias case Some(Num(y)) => Some(y) case _ => None
  }

  function RideBand(ride: Ride): string
    requires BaselineReady(ride)
  {
    AssignIfBand(BaselineIf(ride))
  }

  /** The value a ride gives metric `k` of `band`: its own value when it falls in the band. */
  function Contribution(ride: Ride, band: string, k: Metric): Option<real>
    requires BaselineReady(ride)
  {
    if RideBand(ride) == band then MetricValue(ComputePerRideStrain(ride), k) else None
  }

  function Contributions(rides: seq<Ride>, band: string, k: Metric): (cs: seq<Option<real>>)
    requires AllReady(rides)
    ensures |cs| == |rides|
    ensures forall i | 0 <= i < |rides| :: cs[i] == Contribution(rides[i], band, k)
  {
    seq(|rides|, i requires 0 <= i < |rides| && AllReady(rides) => Contribution(rides[i], band, k))
  }

  /** The non-None values of metric `k` over the rides in `band`, in ride order. */
  function BandValues(rides: seq<Ride>, band: string, k: Metric): (vs: seq<real>)
    requires AllReady(rides)
    ensures |vs| <= |rides|
  {
    Present(Contributions(rides, band, k))
  }

  /** The values of a history split at any point are the values of its two parts: each
      ride contributes its own value, once, in ride order. */
  lemma BandValuesAppend(a: seq<Ride>, b: seq<Ride>, band: string, k: Metric)
    requires AllReady(a + b)
    ensures AllReady(a) && AllReady(b)
    ensures BandValues(a + b, band, k) == BandValues(a, band, k) + BandValues(b, band, k)
  {
    ReadyParts(a, b);
    var ca, cb := Contributions(a, band, k), Contributions(b, band, k);
    assert Contributions(a + b, band, k) == ca + cb by {
      assert forall i | 0 <= i < |a| :: (a + b)[i] == a[i];
      assert forall i | |a| <= i < |a + b| :: (a + b)[i] == b[i - |a|];
    }
    PresentAppend(ca, cb);
  }

  lemma ReadyParts(a: seq<Ride>, b: seq<Ride>)
    requires AllReady(a + b)
    ensures AllReady(a) && AllReady(b)
  {
    assert forall i | 0 <= i < |a| :: a[i] == (a + b)[i];
    assert forall i | 0 <= i < |b| :: b[i] == (a + b)[|a| + i];
  }

  /** One ride contributes its metric value when it is in the band and has one. */
  lemma BandValuesOne(ride: Ride, band: string, k: Metric)
    requires BaselineReady(ride)
    ensures AllReady([ride])
    ensures
      var v := MetricValue(ComputePerRideStrain(ride), k);
      BandValues([ride], band, k) == if RideBand(ride) == band && v.Some? then [v.value] else []
  {
    var cs := Contributions([ride], band, k);
    assert cs == [Contribution(ride, band, k)];
    assert cs[1..] == [];
  }

  /** The rides of `band` that have a value for metric `k`, by index. */
  function BandHits(rides: seq<Ride>, band: string, k: Metric): set<int>
    requires AllReady(rides)
  {
    set i | 0 <= i < |rides| && RideBand(rides[i]) == band && MetricValue(ComputePerRideStrain(rides[i]), k).Some?
  }

  /** A band has as many values as it has rides with a value for the metric. */
  lemma BandValuesCount(rides: seq<Ride>, band: string, k: Metric)
    requires AllReady(rides)
    ensures |BandValues(rides, band, k)| == |BandHits(rides, band, k)|
  {
    var cs := Contributions(rides, band, k);
    PresentCount(cs);
    assert Filled(cs) == BandHits(rides, band, k);
  }

  /** A value is among a band's values exactly when some ride of the band has it. */
  lemma BandValuesMembers(rides: seq<Ride>, band: string, k: Metric)
    requires AllReady(rides)
    ensures forall v :: v in BandValues(rides, band, k) <==>
              exists i | 0 <= i < |rides| ::
                RideBand(rides[i]) == band && MetricValue(ComputePerRideStrain(rides[i]), k) == Some(v)
  {
    var cs := Contributions(rides, band, k);
    forall v ensures Some(v) in cs <==> exists i | 0 <= i < |rides| ::
                       RideBand(rides[i]) == band && MetricValue(ComputePerRideStrain(rides[i]), k) == Some(v)
    {
      if Some(v) in cs {
        var i :| 0 <= i < |cs| && cs[i] == Some(v);
        assert Contribution(rides[i], band, k) == Some(v);
      }
    }
  }

  /** The non-empty bands the rides fall in. */
  function Bands(rides: seq<Ride>): (bands: set<string>)
    requires AllReady(rides)
    ensures forall b | b in bands :: b == "IF_50_60" || b == "IF_60_65"
  {
    if |rides| == 0 then {}
    else (if RideBand(rides[0]) != "" then {RideBand(rides[0])} else {}) + Bands(rides[1..])
  }

  /** A band is present exactly when it is non-empty and some ride falls in it. */
  lemma {:induction false} BandsMembers(rides: seq<Ride>)
    requires AllReady(rides)
    ensures forall b :: b in Bands(rides) <==> b != "" && exists i | 0 <= i < |rides| :: RideBand(rides[i]) == b
  {
    if |rides| > 0 {
      BandsMembers(rides[1..]);
      assert forall i | 1 <= i < |rides| :: rides[i] == rides[1..][i - 1];
      forall b | b != "" && exists i | 0 <= i < |rides| :: RideBand(rides[i]) == b
        ensures b in Bands(rides)
      {
        var i :| 0 <= i < |rides| && RideBand(rides[i]) == b;
        if i > 0 {
          assert rides[1..][i - 1] == rides[i];
        }
      }
    }
  }

  /** `build_baseline_statistics`. */
  function BuildBaselineStatistics(rides: seq<Ride>, sqrt: SquareRoot): (baseline: BaselineStats)
    requires AllReady(rides)
    // exactly the non-empty bands that some ride falls in
    ensures baseline.Keys == Bands(rides)
    // each band carries exactly the four metrics
    ensures forall b | b in baseline :: baseline[b].Keys == AllMetrics
    // and each statistic summarises the band's non-None values of that metric
    ensures forall b, k | b in baseline && k in baseline[b] :: Summarises(baseline[b][k], BandValues(rides, b, k), sqrt)
  {
    map b | b in Bands(rides) :: BandStatsOf(rides, b, sqrt)
  }

  function BandStatsOf(rides: seq<Ride>, band: string, sqrt: SquareRoot): (stats: BandStats)
    requires AllReady(rides)
    ensures stats.Keys == AllMetrics
    ensures forall k | k in stats :: Summarises(stats[k], BandValues(rides, band, k), sqrt)
  {
    map k | k in AllMetrics :: StatOf(BandValues(rides, band, k), sqrt)
  }

  function ExampleRide(x: real, hr: real): Ride {
    Ride(NoDate, Some(Num(x)), None, None, None, None, None, Some(hr), None, None, None, None, None, None)
  }

  const ExampleRides: seq<Ride> := [ExampleRide(0.70, 150.0), ExampleRide(0.55, 130.0), ExampleRide(0.58, 140.0)]

  /** Rides with IF 0.70, 0.55 and 0.58: the first is out of band, so the baseline has the
      single band IF_50_60, built from two heart rates. */
  lemma BaselineExample(sqrt: SquareRoot)
    ensures AllReady(ExampleRides)
    ensures
      var baseline := BuildBaselineStatistics(ExampleRides, sqrt);
      && baseline.Keys == {"IF_50_60"}
      && baseline["IF_50_60"][AvgHeartrate].count == 2
      && baseline["IF_50_60"][AvgHeartrate].mean == Some(135.0)
      && baseline["IF_50_60"][Tss].count == 0
  {
    ExampleKeys(sqrt);
    ExampleValues();
    var baseline := BuildBaselineStatistics(ExampleRides, sqrt);
    var heart := baseline["IF_50_60"][AvgHeartrate];
    assert Summarises(heart, [130.0, 140.0], sqrt);
    MeanOfPair(130.0, 140.0);
    assert Summarises(baseline["IF_50_60"][Tss], [], sqrt);
  }

  lemma ExampleKeys(sqrt: SquareRoot)
    ensures AllReady(ExampleRides)
    ensures BuildBaselineStatistics(ExampleRides, sqrt).Keys == {"IF_50_60"}
  {
    ExampleBands();
    var rides := ExampleRides;
    assert rides[1..][1..] == [rides[2]];
    assert rides[1..][1..][1..] == [];
  }

  lemma MeanOfPair(a: real, b: real)
    ensures Mean([a, b]) == (a + b) / 2.0
  {
    assert [a, b][1..] == [b];
    assert [b][1..] == [];
    assert Sum([b]) == b;
    assert Sum([a, b]) == a + b;
  }

  lemma ExampleValues()
    ensures AllReady(ExampleRides)
    ensures BandValues(ExampleRides, "IF_50_60", AvgHeartrate) == [130.0, 140.0]
    ensures BandValues(ExampleRides, "IF_50_60", Tss) == []
  {
    ExampleBands();
    ExampleStrain(0.70, 150.0);
    ExampleStrain(0.55, 130.0);
    ExampleStrain(0.58, 140.0);
    var rides := ExampleRides;
    assert rides[1..][1..] == [rides[2]];
    assert rides[1..][1..][1..] == [];
  }

  lemma ExampleStrain(x: real, hr: real)
    requires x != 0.0
    ensures MetricValue(ComputePerRideStrain(ExampleRide(x, hr)), AvgHeartrate) == Some(hr)
    ensures MetricValue(ComputePerRideStrain(ExampleRide(x, hr)), Tss) == None
  {
  }

  lemma ExampleBands()
    ensures RideBand(ExampleRide(0.70, 150.0)) == ""
    ensures RideBand(ExampleRide(0.55, 130.0)) == "IF_50_60"
    ensures RideBand(ExampleRide(0.58, 140.0)) == "IF_50_60"
  {
  }
}

=== FILE: comparison.dfy ===
/** `compare_ride_to_baseline`: raw deltas and z-scores of one ride against the baseline of
    its IF band. */
module BaselineComparison {
  import opened Options
  import opened RideRecord
  import opened RideStrain
  import opened Baseline

  /** One metric of the comparison: the ride's value, its difference from the band mean and
      that difference in band standard deviations. */
  datatype Deviation = Deviation(value: Option<real>, delta: Option<real>, zscore: Option<real>)

  /** `comparison` is None when the ride has no band or the band has no baseline. */
  datatype Comparison = Comparison(band: string, comparison: Option<map<Metric, Deviation>>)

  /** `stats.get(k, {})`: a metric missing from the band reads as a statistic with no mean
      and no stdev. */
  function StatFor(stats: BandStats, k: Metric): Stat {
    if k in stats then stats[k] else Stat(None, None, 0)
  }

  /** `d` is the source's comparison of `value` with statistic `st`. */
  predicate Compares(d: Deviation, value: Option<real>, st: Stat) {
    && d.value == value
    // a delta exactly when both the value and the band mean exist ...
    && (d.delta.Some? <==> value.Some? && st.mean.Some?)
    && (d.delta.Some? ==> d.delta.value == value.value - st.mean.value)
    // ... and a z-score exactly when there is a delta and a positive stdev
    && (d.zscore.Some? <==> d.delta.Some? && st.stdev.Some? && st.stdev.value > 0.0)
    && (d.zscore.Some? ==> d.zscore.value * st.stdev.value == d.delta.value)
  }

  function Deviate(value: Option<real>, st: Stat): (d: Deviation)
    ensures Compares(d, value, st)
  {
    if value.None? || st.mean.None? then Deviation(value, None, None)
    else
      var delta := value.value - st.mean.value;
      // `if stdev and stdev > 0`: None and 0.0 are both falsy
      if st.stdev.Some? && st.stdev.value > 0.0 then Deviation(value, Some(delta), Some(delta / st.stdev.value))
      else Deviation(value, Some(delta), None)
  }

  /** `compare_ride_to_baseline`. */
  function CompareRideToBaseline(ride: Ride, baseline: BaselineStats): (c: Comparison)
    requires BaselineReady(ride)
    ensures c.band == RideBand(ride)
    ensures c.comparison.None? <==> RideBand(ride) == "" || RideBand(ride) !in baseline
    ensures c.comparison.Some? ==> c.comparison.value.Keys == AllMetrics
    ensures c.comparison.Some? ==>
              forall k | k in c.comparison.value ::
                Compares(c.comparison.value[k], MetricValue(ComputePerRideStrain(ride), k),
                         StatFor(baseline[c.band], k))
  {
    var band := RideBand(ride);
    if band == "" || band !in baseline then Comparison(band, None)
    else
      var strain := ComputePerRideStrain(ride);
      var stats := baseline[band];
      Comparison(band, Some(map k | k in AllMetrics :: Deviate(MetricValue(strain, k), StatFor(stats, k))))
  }

  /** A ride compared with a baseline built from that ride alone sits exactly on the mean:
      every metric it has gets delta 0 and, the stdev of one value being 0, no z-score. */
  lemma CompareWithOwnBaseline(ride: Ride, sqrt: SquareRoot)
    requires BaselineReady(ride) && RideBand(ride) != ""
    ensures AllReady([ride])
    ensures
      var c := CompareRideToBaseline(ride, BuildBaselineStatistics([ride], sqrt));
      && c.comparison.Some?
      && forall k | k in c.comparison.value ::
           && c.comparison.value[k].zscore.None?
           && (c.comparison.value[k].delta.Some? <==> MetricValue(ComputePerRideStrain(ride), k).Some?)
           && (c.comparison.value[k].delta.Some? ==> c.comparison.value[k].delta.value == 0.0)
  {
    var rides := [ride];
    assert AllReady(rides);
    var band := RideBand(ride);
    var baseline := BuildBaselineStatistics(rides, sqrt);
    BandsMembers(rides);
    assert rides[0] == ride;
    assert band in baseline;
    var c := CompareRideToBaseline(ride, baseline);
    forall k | k in c.comparison.value
      ensures c.comparison.value[k].zscore.None?
      ensures c.comparison.value[k].delta.Some? <==> MetricValue(ComputePerRideStrain(ride), k).Some?
      ensures c.comparison.value[k].delta.Some? ==> c.comparison.value[k].delta.value == 0.0
    {
      OwnStat(ride, sqrt, k);
    }
  }

  /** In a baseline built from one ride, each metric's statistic is that ride's value with
      stdev 0, or nothing. */
  lemma OwnStat(ride: Ride, sqrt: SquareRoot, k: Metric)
    requires BaselineReady(ride) && RideBand(ride) != ""
    ensures AllReady([ride])
    ensures
      var baseline := BuildBaselineStatistics([ride], sqrt);
      var v := MetricValue(ComputePerRideStrain(ride), k);
      && RideBand(ride) in baseline && k in baseline[RideBand(ride)]
      && (v.Some? ==> baseline[RideBand(ride)][k].mean == v && baseline[RideBand(ride)][k].stdev == Some(0.0))
      && (v.None? ==> baseline[RideBand(ride)][k].mean.None?)
  {
    var rides := [ride];
    var band := RideBand(ride);
    var baseline := BuildBaselineStatistics(rides, sqrt);
    BandsMembers(rides);
    assert rides[0] == ride;
    BandValuesOne(ride, band, k);
    assert Summarises(baseline[band][k], BandValues(rides, band, k), sqrt);
  }
}

=== FILE: decimal.dfy ===
/** Decimal text of integers, as Python's `str(int)` and f-strings write them, with the
    reading back that shows the text determines the number. */
module Decimal {

  predicate IsDigit(c: char) {
    '0' <= c <= '9'
  }

  function DigitChar(d: nat): (c: char)
    requires d < 10
    ensures IsDigit(c)
  {
    "0123456789"[d]
  }

  function DigitValue(c: char): (d: nat)
    requires IsDigit(c)
    ensures d < 10
  {
    (c as int - '0' as int) as nat
  }

  lemma DigitRoundTrip(d: nat)
    requires d < 10
    ensures DigitValue(DigitChar(d)) == d
  {
  }

  /** The shortest decimal text of a natural number: no leading zeros, "0" for zero. */
  function NatToString(n: nat): (s: string)
    ensures |s| > 0
    ensures forall i | 0 <= i < |s| :: IsDigit(s[i])
    ensures |s| > 1 ==> s[0] != '0'
    decreases n
  {
    if n < 10 then [DigitChar(n)]
    else NatToString(n / 10) + [DigitChar(n % 10)]
  }

  /** Digits, with a leading minus sign allowed. */
  predicate IsIntText(s: string) {
    |s| > 0 && forall i | 0 <= i < |s| :: IsDigit(s[i]) || (i == 0 && s[i] == '-')
  }

  /** `str(n)`: a minus sign before the digits of a negative number. */
  function IntToString(n: int): (s: string)
    ensures |s| > 0
    ensures s[0] == '-' <==> n < 0
    ensures forall i | 0 <= i < |s| :: IsDigit(s[i]) || (i == 0 && s[i] == '-')
  {
    if n < 0 then "-" + NatToString(-n) else NatToString(n)
  }

  function ParseNat(s: string): nat
    requires forall i | 0 <= i < |s| :: IsDigit(s[i])
  {
    if |s| == 0 then 0 else ParseNat(s[..|s| - 1]) * 10 + DigitValue(s[|s| - 1])
  }

  /** The reading of a decimal text `IntToString` produces. */
  function ParseInt(s: string): int
    requires |s| > 0
    requires forall i | 0 <= i < |s| :: IsDigit(s[i]) || (i == 0 && s[i] == '-')
  {
    if s[0] == '-' then 0 - (ParseNat(s[1..]) as int) else ParseNat(s)
  }

  lemma {:induction false} NatRoundTrip(n: nat)
    ensures ParseNat(NatToString(n)) == n
    decreases n
  {
    var s := NatToString(n);
    if n < 10 {
      DigitRoundTrip(n);
    } else {
      NatRoundTrip(n / 10);
      assert s[..|s| - 1] == NatToString(n / 10);
      DigitRoundTrip(n % 10);
    }
  }

  /** Reading the text back gives the number: the decimal text names exactly one integer. */
  lemma IntRoundTrip(n: int)
    ensures ParseInt(IntToString(n)) == n
  {
    if n < 0 {
      NatRoundTrip(-n);
      assert IntToString(n)[1..] == NatToString(-n);
    } else {
      NatRoundTrip(n);
    }
  }

  /** Hence distinct numbers have distinct texts. */
  lemma IntToStringInjective(m: int, n: int)
    requires IntToString(m) == IntToString(n)
    ensures m == n
  {
    IntRoundTrip(m);
    IntRoundTrip(n);
  }
}

=== FILE: easy_ride.dfy ===
/** `is_easy_ride`: the easy-ride eligibility gate, which accumulates reason codes and
    declares a ride easy exactly when no blocking code was raised. */
module EasyRide {
  import opened Options
  import opened RideRecord

  datatype EasyReason =
    | MissingIf | InvalidIf | MissingDuration | ShortDuration
    | MissingZones | InsufficientTimeInZ2 | IfTooHigh

  /** The reason code as the source spells it. */
  function Code(r: EasyReason): string {
    match r
    case MissingIf => "missing_if"
    case InvalidIf => "invalid_if"
    case MissingDuration => "missing_duration"
    case ShortDuration => "short_duration"
    case MissingZones => "missing_zones"
    case InsufficientTimeInZ2 => "insufficient_time_in_z2"
    case IfTooHigh => "if_too_high"
  }

  /** The codes that veto eligibility; `invalid_if` and `missing_duration` are not among them. */
  predicate Blocking(r: EasyReason) {
    !(r.InvalidIf? || r.MissingDuration?)
  }

  datatype EasyVerdict = EasyVerdict(easy: bool, reasons: seq<EasyReason>)

  /** The IF the gate looks at: "intensity_factor" when not None, else "IF". */
  function GateIf(ride: Ride): (g: Option<Raw>)
    ensures g.None? <==> ride.intensityFactor.None? && ride.ifAlias.None?
    // "intensity_factor" wins whenever it is present
    ensures g == ride.intensityFactor || (ride.intensityFactor.None? && g == ride.ifAlias)
  {
    if ride.intensityFactor.Some? then ride.intensityFactor else ride.ifAlias
  }

  /** Duration in seconds: "total_time" when present, else "total_minutes" times 60. */
  function DurationSeconds(ride: Ride): Option<real> {
    if ride.totalTime.Some? then ride.totalTime
    else if ride.totalMinutes.Some? then Some(ride.totalMinutes.value * 60.0)
    else None
  }

  /** Duration in minutes, 0 when neither duration field is present. Minutes given as
      "total_minutes" come back unchanged through the conversion to seconds. */
  function DurationMinutes(ride: Ride): (m: real)
    ensures DurationSeconds(ride).Some? ==> m * 60.0 == DurationSeconds(ride).value
    ensures DurationSeconds(ride).None? ==> m == 0.0
    ensures ride.totalTime.None? && ride.totalMinutes.Some? ==> m == ride.totalMinutes.value
  {
    match DurationSeconds(ride)
    case None => 0.0
    case Some(s) => s / 60.0
  }

  /** The zone dictionary: "zone_percentages" unless absent or empty (falsy), else
      "pace_zone_percentages". */
  function ZoneMap(ride: Ride): (z: Option<ZoneShares>)
    ensures z == ride.zonePercentages || z == ride.paceZonePercentages
    // an empty "zone_percentages" is never used in place of the pace zones
    ensures z != ride.paceZonePercentages ==> z.Some? && |z.value| > 0
  {
    if ride.zonePercentages.Some? && |ride.zonePercentages.value| > 0 then ride.zonePercentages
    else ride.paceZonePercentages
  }

  /** A zone's share, 0 when the key is absent or its value is None. */
  function ZoneValue(zones: ZoneShares, zone: string): real {
    if zone in zones && zones[zone].Some? then zones[zone].value else 0.0
  }

  /** Z1+Z2 as a percentage: a sum of at most 1.0 is read as a fraction and scaled by 100. */
  function LowZonePercent(zones: ZoneShares): (p: real)
    // a fraction lands in 0..100, and reaches 60 exactly when it reaches 0.6
    ensures
      var share := ZoneValue(zones, "Z1") + ZoneValue(zones, "Z2");
      && (0.0 <= share <= 1.0 ==> 0.0 <= p <= 100.0)
      && (p >= 60.0 <==> 0.6 <= share <= 1.0 || 60.0 <= share)
  {
    var share := ZoneValue(zones, "Z1") + ZoneValue(zones, "Z2");
    if share <= 1.0 then share * 100.0 else share
  }

  /** Which checks failed, one flag per reason code. */
  datatype Failures = Failures(
    missingIf: bool, invalidIf: bool, missingDuration: bool, shortDuration: bool,
    missingZones: bool, insufficientZ2: bool, ifTooHigh: bool)

  /** Whether the check behind reason `e` failed. */
  predicate Failed(f: Failures, e: EasyReason) {
    match e
    case MissingIf => f.missingIf
    case InvalidIf => f.invalidIf
    case MissingDuration => f.missingDuration
    case ShortDuration => f.shortDuration
    case MissingZones => f.missingZones
    case InsufficientTimeInZ2 => f.insufficientZ2
    case IfTooHigh => f.ifTooHigh
  }

  /** The position of a check in `is_easy_ride`, which appends the codes in this order. */
  function Rank(e: EasyReason): nat {
    match e
    case MissingIf => 0
    case InvalidIf => 1
    case MissingDuration => 2
    case ShortDuration => 3
    case MissingZones => 4
    case InsufficientTimeInZ2 => 5
    case IfTooHigh => 6
  }

  /** Codes in strictly increasing source order, hence each at most once. */
  predicate InSourceOrder(rs: seq<EasyReason>) {
    forall i, j | 0 <= i < j < |rs| :: Rank(rs[i]) < Rank(rs[j])
  }

  /** The checks in the order `is_easy_ride` runs them. */
  const CheckOrder: seq<EasyReason> :=
    [MissingIf, InvalidIf, MissingDuration, ShortDuration, MissingZones, InsufficientTimeInZ2, IfTooHigh]

  /** Two lists in source order with the same codes are the same list: membership and
      order together determine a reason list. */
  lemma {:induction false} SameCodesSameList(a: seq<EasyReason>, b: seq<EasyReason>)
    requires InSourceOrder(a) && InSourceOrder(b)
    requires forall x :: x in a <==> x in b
    ensures a == b
    decreases |a|
  {
    if |a| == 0 {
      if |b| > 0 {
        HeadIsMember(b);
        assert false;
      }
    } else if |b| == 0 {
      HeadIsMember(a);
      assert false;
    } else {
      HeadIsFirst(a, b[0]);
      HeadIsFirst(b, a[0]);
      assert a[0] == b[0];
      forall x ensures x in a[1..] <==> x in b[1..] {
        InTail(a, x);
        InTail(b, x);
      }
      SameCodesSameList(a[1..], b[1..]);
      assert a == [a[0]] + a[1..] && b == [b[0]] + b[1..];
    }
  }

  lemma HeadIsMember(a: seq<EasyReason>)
    requires |a| > 0
    ensures a[0] in a
  {
  }

  lemma HeadIsFirst(a: seq<EasyReason>, x: EasyReason)
    requires InSourceOrder(a) && x in a
    ensures Rank(a[0]) <= Rank(x)
  {
    var k :| 0 <= k < |a| && a[k] == x;
    if k > 0 {
      assert Rank(a[0]) < Rank(a[k]);
    }
  }

  lemma InTail(a: seq<EasyReason>, x: EasyReason)
    requires InSourceOrder(a) && |a| > 0
    ensures x in a[1..] <==> x in a && x != a[0]
  {
    if x in a[1..] {
      var k :| 0 <= k < |a[1..]| && a[1..][k] == x;
      assert Rank(a[0]) < Rank(a[k + 1]);
    }
    if x in a && x != a[0] {
      var k :| 0 <= k < |a| && a[k] == x;
      assert a[1..][k - 1] == x;
    }
  }

  /** The codes of the failed checks among `es`, in the order of `es`. */
  function FailedAmong(f: Failures, es: seq<EasyReason>): (rs: seq<EasyReason>)
    requires InSourceOrder(es)
    ensures forall e :: e in rs <==> e in es && Failed(f, e)
    ensures InSourceOrder(rs)
  {
    if |es| == 0 then []
    else
      assert InSourceOrder(es[1..]) by {
        forall i, j | 0 <= i < j < |es[1..]| ensures Rank(es[1..][i]) < Rank(es[1..][j]) {
          assert es[1..][i] == es[i + 1] && es[1..][j] == es[j + 1];
        }
      }
      var rest := FailedAmong(f, es[1..]);
      forall x | x in rest ensures Rank(es[0]) < Rank(x) {
        InTail(es, x);
        HeadIsFirst(es, x);
      }
      assert es == [es[0]] + es[1..];
      var head := When(Failed(f, es[0]), es[0]);
      forall i, j | 0 <= i < j < |head + rest| ensures Rank((head + rest)[i]) < Rank((head + rest)[j]) {
        if i < |head| {
          assert (head + rest)[j] in rest;
        }
      }
      head + rest
  }

  /** `[e]` when the check failed, nothing otherwise. */
  function When(failed: bool, e: EasyReason): (rs: seq<EasyReason>)
    ensures forall x :: x in rs <==> failed && x == e
  {
    if failed then [e] else []
  }

  /** The reason list in the order the source appends to it. */
  function Codes(f: Failures): (rs: seq<EasyReason>)
    ensures forall e :: e in rs <==> Failed(f, e)
    ensures InSourceOrder(rs)
  {
    assert InSourceOrder(CheckOrder);
    assert forall e :: e in CheckOrder by {
      forall e ensures e in CheckOrder {
        assert CheckOrder[Rank(e)] == e;
      }
    }
    FailedAmong(f, CheckOrder)
  }

  /** The checks of `is_easy_ride`. A text IF is `invalid_if`; comparing it with 0.65 raises
      in the source and the error is swallowed, so only a numeric IF can be too high. */
  function EasyFailures(ride: Ride): (f: Failures)
    // a missing duration counts as zero minutes, hence is also short
    ensures f.missingDuration ==> f.shortDuration
    // seconds are preferred over minutes
    ensures ride.totalTime.Some? ==> (f.shortDuration <==> ride.totalTime.value < 3600.0)
    ensures ride.totalTime.None? && ride.totalMinutes.Some? ==>
              (f.shortDuration <==> ride.totalMinutes.value < 60.0)
    ensures f.missingZones ==> f.insufficientZ2
    // Z1+Z2 of at most 1.0 is a fraction that must reach 0.6; above 1.0 it is a percentage
    ensures ZoneMap(ride).Some? ==>
              var share := ZoneValue(ZoneMap(ride).value, "Z1") + ZoneValue(ZoneMap(ride).value, "Z2");
              (f.insufficientZ2 <==> share < 0.6 || 1.0 < share < 60.0)
  {
    var chosen := GateIf(ride);
    var zones := ZoneMap(ride);
    Failures(
      missingIf := chosen.None?,
      invalidIf := chosen == Some(NotNumber),
      missingDuration := DurationSeconds(ride).None?,
      shortDuration := DurationMinutes(ride) < 60.0,
      missingZones := zones.None?,
      insufficientZ2 := zones.None? || LowZonePercent(zones.value) < 60.0,
      ifTooHigh := chosen.Some? && chosen.value.Num? && chosen.value.x >= 0.65)
  }

  /** The eligibility criteria stated directly: a known IF that, when numeric, is below
      0.65; at least 60 minutes; and zone shares with Z1+Z2 of at least 60%. */
  predicate MeetsEasyCriteria(ride: Ride) {
    && GateIf(ride).Some? && (GateIf(ride).value.Num? ==> GateIf(ride).value.x < 0.65)
    && DurationMinutes(ride) >= 60.0
    && ZoneMap(ride).Some? && LowZonePercent(ZoneMap(ride).value) >= 60.0
  }

  /** `is_easy_ride`. Reasons appear in the order the source appends them. */
  function IsEasyRide(ride: Ride): (v: EasyVerdict)
    // the verdict is exactly the absence of blocking codes
    ensures v.easy <==> forall e | e in v.reasons :: !Blocking(e)
    ensures forall e :: e in v.reasons <==> Failed(EasyFailures(ride), e)
    // each code at most once, in the order the checks run
    ensures InSourceOrder(v.reasons)
  {
    var f := EasyFailures(ride);
    var reasons := Codes(f);
    assert forall e :: e in reasons <==> Failed(f, e);
    var easy :=
      && MissingIf !in reasons
      && ShortDuration !in reasons
      && MissingZones !in reasons
      && InsufficientTimeInZ2 !in reasons
      && IfTooHigh !in reasons;
    EasyVerdict(easy, reasons)
  }

  /** Which fields raise which of the codes that do not depend on a threshold. */
  lemma ReasonsFromFields(ride: Ride)
    ensures
      var v := IsEasyRide(ride);
      && (MissingIf in v.reasons <==> ride.intensityFactor.None? && ride.ifAlias.None?)
      && (InvalidIf in v.reasons <==> GateIf(ride) == Some(NotNumber))
      && (IfTooHigh in v.reasons <==> GateIf(ride).Some? && GateIf(ride).value.Num? && GateIf(ride).value.x >= 0.65)
      && (MissingDuration in v.reasons <==> ride.totalTime.None? && ride.totalMinutes.None?)
      && (MissingZones in v.reasons <==> ZoneMap(ride).None?)
  {
    var f := EasyFailures(ride);
    assert Failed(f, MissingIf) <==> ride.intensityFactor.None? && ride.ifAlias.None?;
    assert Failed(f, MissingZones) <==> ZoneMap(ride).None?;
  }

  /** The reason-code verdict agrees with the criteria stated directly. */
  lemma EasyIffCriteria(ride: Ride)
    ensures IsEasyRide(ride).easy <==> MeetsEasyCriteria(ride)
  {
    var v := IsEasyRide(ride);
  }

  /** `invalid_if` alone never blocks eligibility: a ride whose only fault is a
      non-numeric IF is still easy. */
  lemma InvalidIfAloneIsEasy(ride: Ride)
    requires IsEasyRide(ride).reasons == [InvalidIf]
    ensures IsEasyRide(ride).easy
  {
  }

  /** Z1 50% and Z2 30%. */
  const SteadyZones: ZoneShares := map["Z1" := Some(50.0), "Z2" := Some(30.0)]
  /** IF 0.70 over 90 minutes (5400 s) in `SteadyZones`. */
  const HighIfRide: Ride := Ride(NoDate, Some(Num(0.70)), None, Some(5400.0), None, Some(SteadyZones), None,
                                 None, None, None, None, None, None, None)

  lemma HighIfRideFailures()
    ensures EasyFailures(HighIfRide) == Failures(false, false, false, false, false, false, true)
  {
    assert ZoneValue(SteadyZones, "Z1") == 50.0;
    assert ZoneValue(SteadyZones, "Z2") == 30.0;
    assert |SteadyZones| > 0 by { assert "Z1" in SteadyZones; }
  }

  /** With only the IF check failed, the reason list is that one code. */
  lemma OnlyIfTooHigh(f: Failures)
    requires f == Failures(false, false, false, false, false, false, true)
    ensures Codes(f) == [IfTooHigh]
  {
    forall e ensures e in Codes(f) <==> e in [IfTooHigh] {
      assert Failed(f, e) <==> e == IfTooHigh;
    }
    SameCodesSameList(Codes(f), [IfTooHigh]);
  }

  /** IF 0.70 over 90 minutes with Z1+Z2 = 80% fails only because the IF is too high. */
  lemma IfTooHighExample()
    ensures IsEasyRide(HighIfRide) == EasyVerdict(false, [IfTooHigh])
  {
    HighIfRideFailures();
    OnlyIfTooHigh(EasyFailures(HighIfRide));
  }
}

=== FILE: history_gate.dfy ===
/** `history_gating`: whether a ride history is long enough, and carries heart rate and
    power, for baselines to mean anything. */
module HistoryGate {
  import opened Options
  import opened RideRecord

  datatype HistoryReason = NoRides | BadDateFormat | NoValidDates | InsufficientHistoryDays | NoReliableHrPower

  /** The reason codes of the source. */
  function ReasonCode(r: HistoryReason): string {
    match r
    case NoRides => "no_rides"
    case BadDateFormat => "bad_date_format"
    case NoValidDates => "no_valid_dates"
    case InsufficientHistoryDays => "insufficient_history_days"
    case NoReliableHrPower => "no_reliable_hr_power"
  }

  datatype Gating = Gating(sufficient: bool, reasons: seq<HistoryReason>)

  /** The fewest distinct calendar days, first to last inclusive, a history must span. */
  const MinHistoryDays: int := 21

  predicate AnyBadDate(rides: seq<Ride>) {
    exists i | 0 <= i < |rides| :: rides[i].date.BadDate?
  }

  /** The parsed dates, in ride order; rides without a date are skipped. */
  function DatedDays(rides: seq<Ride>): (days: seq<int>)
    ensures |days| <= |rides|
    ensures forall d :: d in days <==> exists i | 0 <= i < |rides| :: rides[i].date == Day(d)
  {
    if |rides| == 0 then []
    else
      var rest := DatedDays(rides[1..]);
      assert forall i | 1 <= i < |rides| :: rides[i] == rides[1..][i - 1];
      (if rides[0].date.Day? then [rides[0].date.ordinal] else []) + rest
  }

  function MaxOf(xs: seq<int>): (m: int)
    requires |xs| > 0
    ensures m in xs
    ensures forall i | 0 <= i < |xs| :: xs[i] <= m
  {
    if |xs| == 1 then xs[0]
    else
      var rest := MaxOf(xs[1..]);
      assert forall i | 1 <= i < |xs| :: xs[i] == xs[1..][i - 1];
      if xs[0] >= rest then xs[0] else rest
  }

  function MinOf(xs: seq<int>): (m: int)
    requires |xs| > 0
    ensures m in xs
    ensures forall i | 0 <= i < |xs| :: m <= xs[i]
  {
    if |xs| == 1 then xs[0]
    else
      var rest := MinOf(xs[1..]);
      assert forall i | 1 <= i < |xs| :: xs[i] == xs[1..][i - 1];
      if xs[0] <= rest then xs[0] else rest
  }

  /** Days from the first to the last date, both inclusive: the widest inclusive span
      between any two of the dates. */
  function SpanDays(days: seq<int>): (span: int)
    requires |days| > 0
    ensures span >= 1
    ensures forall a, b | a in days && b in days :: b - a + 1 <= span
    ensures exists a, b | a in days && b in days :: b - a + 1 == span
  {
    var hi, lo := MaxOf(days), MinOf(days);
    forall a, b | a in days && b in days ensures b - a + 1 <= hi - lo + 1 {
      var i :| 0 <= i < |days| && days[i] == a;
      var j :| 0 <= j < |days| && days[j] == b;
    }
    hi - lo + 1
  }

  /** The span is short exactly when every pair of dates lies within `MinHistoryDays - 1`
      days of each other. */
  lemma SpanShortIffClose(days: seq<int>)
    requires |days| > 0
    ensures SpanDays(days) < MinHistoryDays <==>
              forall a, b | a in days && b in days :: b - a + 1 < MinHistoryDays
  {
    var span := SpanDays(days);
    if span >= MinHistoryDays {
      var a, b :| a in days && b in days && b - a + 1 == span;
    }
  }

  predicate HasHrAndPower(ride: Ride) {
    ride.avgPower.Some? && ride.avgHeartrate.Some?
  }

  function HrPowerCount(rides: seq<Ride>): (n: nat)
    ensures n <= |rides|
    ensures n == 0 <==> forall i | 0 <= i < |rides| :: !HasHrAndPower(rides[i])
  {
    if |rides| == 0 then 0
    else
      assert forall i | 1 <= i < |rides| :: rides[i] == rides[1..][i - 1];
      (if HasHrAndPower(rides[0]) then 1 else 0) + HrPowerCount(rides[1..])
  }

  /** `history_gating`. */
  function HistoryGating(rides: seq<Ride>): (g: Gating)
    // the three early exits, each with a single reason
    ensures |rides| == 0 ==> g.reasons == [NoRides]
    ensures |rides| > 0 && AnyBadDate(rides) ==> g.reasons == [BadDateFormat]
    ensures |rides| > 0 && !AnyBadDate(rides) && |DatedDays(rides)| == 0 ==> g.reasons == [NoValidDates]
    // past them, a short span and a lack of heart rate with power are reported, in that order
    ensures |rides| > 0 && !AnyBadDate(rides) && |DatedDays(rides)| > 0 ==>
              && (InsufficientHistoryDays in g.reasons <==>
                    forall a, b | a in DatedDays(rides) && b in DatedDays(rides) :: b - a + 1 < MinHistoryDays)
              && (NoReliableHrPower in g.reasons <==> forall i | 0 <= i < |rides| :: !HasHrAndPower(rides[i]))
              && (forall r | r in g.reasons :: r == InsufficientHistoryDays || r == NoReliableHrPower)
              // at most the two, each once, the span first
              && |g.reasons| <= 2
              && (forall i, j | 0 <= i < j < |g.reasons| ::
                    g.reasons[i] == InsufficientHistoryDays && g.reasons[j] == NoReliableHrPower)
    ensures g.sufficient <==> g.reasons == []
  {
    if |rides| == 0 then Gating(false, [NoRides])
    else if AnyBadDate(rides) then Gating(false, [BadDateFormat])
    else
      var days := DatedDays(rides);
      if |days| == 0 then Gating(false, [NoValidDates])
      else
        SpanShortIffClose(days);
        var first: seq<HistoryReason> := if SpanDays(days) < MinHistoryDays then [InsufficientHistoryDays] else [];
        var second: seq<HistoryReason> := if HrPowerCount(rides) == 0 then [NoReliableHrPower] else [];
        var reasons := first + second;
        assert |first| <= 1 && |second| <= 1;
        assert forall i | 0 <= i < |reasons| ::
                 reasons[i] == (if i < |first| then InsufficientHistoryDays else NoReliableHrPower);
        Gating(reasons == [], reasons)
  }

  /** A history of a single dated ride with heart rate and power spans one day: it is
      insufficient for that reason alone. */
  lemma SingleRideIsTooShort(ride: Ride)
    requires ride.date.Day? && HasHrAndPower(ride)
    ensures HistoryGating([ride]) == Gating(false, [InsufficientHistoryDays])
  {
    var rides := [ride];
    assert rides[1..] == [];
    assert DatedDays(rides) == [ride.date.ordinal];
    assert !AnyBadDate(rides);
  }
}

=== FILE: if_bands.dfy ===
/** The fixed intensity-factor band table and the band lookup of `FatigueChecker`. */
module IfBands {
  import opened Options

  /** A band `[low, high)` with its label. */
  datatype IfBand = IfBand(low: real, high: real, name: string)

  predicate InBand(b: IfBand, x: real) {
    b.low <= x < b.high
  }

  /** The band table: two non-empty, ordered, non-overlapping half-open ranges. */
  function DefineIfBands(): (bands: seq<IfBand>)
    ensures |bands| == 2
    ensures bands[0].name == "IF_50_60" && bands[1].name == "IF_60_65"
    ensures forall i | 0 <= i < |bands| :: bands[i].low < bands[i].high
    ensures forall i, j | 0 <= i < j < |bands| :: bands[i].high <= bands[j].low
    ensures bands[0].low == 0.50 && bands[|bands| - 1].high == 0.65
  {
    [IfBand(0.50, 0.60, "IF_50_60"), IfBand(0.60, 0.65, "IF_60_65")]
  }

  /** The label of the first band of `bands` containing `x`, or "" when none does. */
  function FirstBandLabel(bands: seq<IfBand>, x: real): (band: string)
    ensures (forall i | 0 <= i < |bands| :: !InBand(bands[i], x)) ==> band == ""
    ensures forall i | 0 <= i < |bands| && InBand(bands[i], x) ::
              (forall j | 0 <= j < i :: !InBand(bands[j], x)) ==> band == bands[i].name
  {
    if |bands| == 0 then ""
    else if InBand(bands[0], x) then bands[0].name
    else FirstBandLabel(bands[1..], x)
  }

  /** `assign_if_band`: exactly the two fixed ranges get a label; a missing IF and every
      value outside both ranges (including IF >= 0.65) get "". */
  function AssignIfBand(intensityFactor: Option<real>): (band: string)
    ensures intensityFactor.None? ==> band == ""
    ensures band == "IF_50_60" <==> intensityFactor.Some? && 0.50 <= intensityFactor.value < 0.60
    ensures band == "IF_60_65" <==> intensityFactor.Some? && 0.60 <= intensityFactor.value < 0.65
    ensures band == "" <==> intensityFactor.None? || intensityFactor.value < 0.50 || intensityFactor.value >= 0.65
  {
    match intensityFactor
    case None => ""
    case Some(x) =>
      var bands := DefineIfBands();
      assert InBand(bands[0], x) <==> 0.50 <= x < 0.60;
      assert InBand(bands[1], x) <==> 0.60 <= x < 0.65;
      FirstBandLabel(bands, x)
  }
}

=== FILE: intensity.dfy ===
/** Intensity factor, training stress score and the single-zone placement used when only
    an average power estimate is known. */
module Intensity {
  import opened Options

  /** `IF = NP / ftp if (NP is not None and ftp) else None`; the FTP is a whole number of
      watts and a zero FTP is falsy. */
  function IntensityFactor(np: Option<real>, ftp: int): (intensity: Option<real>)
    ensures intensity.Some? <==> np.Some? && ftp != 0
    ensures intensity.Some? ==> intensity.value * (ftp as real) == np.value
  {
    if np.Some? && ftp != 0 then Some(np.value / (ftp as real)) else None
  }

  /** The computed TSS: `(T · NP · IF) / (ftp · 3600) · 100` when NP, IF, a non-zero FTP and a
      positive total time are all there. */
  function TrainingStress(totalTime: real, np: Option<real>, intensity: Option<real>, ftp: int): (tss: Option<real>)
    ensures tss.Some? <==> np.Some? && intensity.Some? && ftp != 0 && totalTime > 0.0
  {
    if np.Some? && intensity.Some? && ftp != 0 && totalTime > 0.0 then
      Some((totalTime * np.value * intensity.value) / ((ftp as real) * 3600.0) * 100.0)
    else None
  }

  /** With IF derived from NP, the TSS is the textbook `100 · hours · IF²`; it is present
      exactly when NP is known, the FTP is non-zero and the activity lasted. */
  lemma StressIsHoursTimesIfSquared(totalTime: real, np: Option<real>, ftp: int)
    ensures
      var intensity := IntensityFactor(np, ftp);
      var tss := TrainingStress(totalTime, np, intensity, ftp);
      && (tss.Some? <==> np.Some? && ftp != 0 && totalTime > 0.0)
      && (tss.Some? ==> tss.value == 100.0 * (totalTime / 3600.0) * intensity.value * intensity.value)
  {
    var intensity := IntensityFactor(np, ftp);
    if np.Some? && ftp != 0 && totalTime > 0.0 {
      var f := ftp as real;
      var x := intensity.value;
      assert np.value == x * f;
      calc {
        (totalTime * np.value * x) / (f * 3600.0) * 100.0;
        { assert totalTime * np.value * x == (totalTime * x * x) * f; }
        ((totalTime * x * x) * f) / (f * 3600.0) * 100.0;
        (totalTime * x * x) / 3600.0 * 100.0;
        100.0 * (totalTime / 3600.0) * x * x;
      }
    }
  }

  datatype Zone = Z1 | Z2 | Z3 | Z4 | Z5 | Z6

  const AllZones: seq<Zone> := [Z1, Z2, Z3, Z4, Z5, Z6]

  function ZoneName(z: Zone): string {
    match z
    case Z1 => "Z1"
    case Z2 => "Z2"
    case Z3 => "Z3"
    case Z4 => "Z4"
    case Z5 => "Z5"
    case Z6 => "Z6"
  }

  /** Inclusive lower bound of a zone as a fraction of FTP. */
  function ZoneLow(z: Zone): real {
    match z
    case Z1 => 0.0
    case Z2 => 0.55
    case Z3 => 0.75
    case Z4 => 0.90
    case Z5 => 1.05
    case Z6 => 1.20
  }

  /** Exclusive upper bound; Z6 runs to infinity. */
  function ZoneHigh(z: Zone): Option<real> {
    match z
    case Z1 => Some(0.55)
    case Z2 => Some(0.75)
    case Z3 => Some(0.90)
    case Z4 => Some(1.05)
    case Z5 => Some(1.20)
    case Z6 => None
  }

  predicate InZone(z: Zone, frac: real) {
    ZoneLow(z) <= frac && (ZoneHigh(z).None? || frac < ZoneHigh(z).value)
  }

  /** The scan over `bins`: the first half-open bin holding the fraction, or none. */
  function PlaceInZone(frac: real): (zone: Option<Zone>)
    ensures zone.None? <==> frac < 0.0
    ensures forall z :: zone == Some(z) <==> InZone(z, frac)
  {
    if frac < 0.0 then None
    else if frac < 0.55 then Some(Z1)
    else if frac < 0.75 then Some(Z2)
    else if frac < 0.90 then Some(Z3)
    else if frac < 1.05 then Some(Z4)
    else if frac < 1.20 then Some(Z5)
    else Some(Z6)
  }

  /** Zone times and their shares of the total time, in percent. */
  datatype ZoneSplit = ZoneSplit(times: map<Zone, real>, percentages: map<Zone, real>)

  /** `v / total_time * 100.0 if total_time > 0 else 0.0`. */
  function Percent(v: real, totalTime: real): real {
    if totalTime > 0.0 then v / totalTime * 100.0 else 0.0
  }

  /** The whole activity in `zone` (if any) and nothing anywhere else. */
  function SingleZoneSplit(zone: Option<Zone>, totalTime: real): (split: ZoneSplit)
    ensures forall z: Zone :: z in split.times && z in split.percentages
    ensures forall z: Zone :: split.times[z] == (if zone == Some(z) then totalTime else 0.0)
    ensures forall z: Zone :: split.percentages[z] == Percent(split.times[z], totalTime)
  {
    var times := map z: Zone | true :: if zone == Some(z) then totalTime else 0.0;
    ZoneSplit(times, map z: Zone | true :: Percent(times[z], totalTime))
  }

  /** The fallback zones: with a power estimate and a non-zero FTP, the whole activity goes
      into the zone of `estimate / ftp` and every other zone gets nothing; otherwise there
      are no zones at all. */
  function FallbackZones(estimate: Option<real>, ftp: int, totalTime: real): (split: ZoneSplit)
    ensures estimate.None? || ftp == 0 <==> split.times == map[] && split.percentages == map[]
    ensures estimate.Some? && ftp != 0 ==>
              && forall z: Zone ::
                   && z in split.times && z in split.percentages
                   && split.times[z] == (if InZone(z, estimate.value / (ftp as real)) then totalTime else 0.0)
                   && split.percentages[z] == Percent(split.times[z], totalTime)
  {
    if estimate.None? || ftp == 0 then ZoneSplit(map[], map[])
    else
      var split := SingleZoneSplit(PlaceInZone(estimate.value / (ftp as real)), totalTime);
      assert Z1 in split.times;
      split
  }

  function ZoneTotal(m: map<Zone, real>): real
    requires forall z: Zone :: z in m
  {
    m[Z1] + m[Z2] + m[Z3] + m[Z4] + m[Z5] + m[Z6]
  }

  lemma WholeIsHundredPercent(totalTime: real)
    requires totalTime > 0.0
    ensures Percent(totalTime, totalTime) == 100.0
  {
    assert totalTime / totalTime == 1.0;
  }

  /** A split with the activity in one zone has percentages adding up to 100; with no zone,
      to 0. */
  lemma SingleZonePercentagesSum(zone: Option<Zone>, totalTime: real)
    requires totalTime > 0.0
    ensures ZoneTotal(SingleZoneSplit(zone, totalTime).percentages) == if zone.Some? then 100.0 else 0.0
  {
    var split := SingleZoneSplit(zone, totalTime);
    assert Percent(0.0, totalTime) == 0.0;
    WholeIsHundredPercent(totalTime);
    var p := split.percentages;
    if zone.Some? {
      match zone.value
      case Z1 => assert p[Z1] == 100.0 && p[Z2] == 0.0 && p[Z3] == 0.0 && p[Z4] == 0.0 && p[Z5] == 0.0 && p[Z6] == 0.0;
      case Z2 => assert p[Z1] == 0.0 && p[Z2] == 100.0 && p[Z3] == 0.0 && p[Z4] == 0.0 && p[Z5] == 0.0 && p[Z6] == 0.0;
      case Z3 => assert p[Z1] == 0.0 && p[Z2] == 0.0 && p[Z3] == 100.0 && p[Z4] == 0.0 && p[Z5] == 0.0 && p[Z6] == 0.0;
      case Z4 => assert p[Z1] == 0.0 && p[Z2] == 0.0 && p[Z3] == 0.0 && p[Z4] == 100.0 && p[Z5] == 0.0 && p[Z6] == 0.0;
      case Z5 => assert p[Z1] == 0.0 && p[Z2] == 0.0 && p[Z3] == 0.0 && p[Z4] == 0.0 && p[Z5] == 100.0 && p[Z6] == 0.0;
      case Z6 => assert p[Z1] == 0.0 && p[Z2] == 0.0 && p[Z3] == 0.0 && p[Z4] == 0.0 && p[Z5] == 0.0 && p[Z6] == 100.0;
    } else {
      assert p[Z1] == 0.0 && p[Z2] == 0.0 && p[Z3] == 0.0 && p[Z4] == 0.0 && p[Z5] == 0.0 && p[Z6] == 0.0;
    }
  }

  /** Placed in a zone, the fallback percentages add up to 100; with a negative power
      fraction no zone takes the activity and they add up to 0. */
  lemma FallbackPercentagesSum(estimate: real, ftp: int, totalTime: real)
    requires ftp != 0 && totalTime > 0.0
    ensures
      var split := FallbackZones(Some(estimate), ftp, totalTime);
      && ZoneTotal(split.percentages) == (if estimate / (ftp as real) >= 0.0 then 100.0 else 0.0)
  {
    var frac := estimate / (ftp as real);
    SingleZonePercentagesSum(PlaceInZone(frac), totalTime);
  }
}

=== FILE: metadata.dfy ===
/** `_get_meta_num`: the first usable number among synonym keys of the activity metadata,
    with optional percent handling, and the key lists the compute paths use. */
module Metadata {
  import opened Options

  /** A metadata value as `_get_meta_num` sees it. A text records whether it contains `%`
      and what `float()` makes of it (after dropping the `%` signs and stripping, when it
      has one); None means `float()` raises. `Other` is a value `float()` rejects outright
      (a list, a dictionary). */
  datatype MetaValue = Null | Number(x: real) | Text(hasPercent: bool, parsed: Option<real>) | Other

  type Meta = map<string, MetaValue>

  /** `metadata.get(k)`: a missing key reads as None. */
  function Lookup(meta: Meta, k: string): MetaValue {
    if k in meta then meta[k] else Null
  }

  /** What one value contributes: None to move on to the next key, or the number returned. */
  function ParseMeta(v: MetaValue, treatPercent: bool): (r: Option<real>)
    ensures r.None? <==> v.Null? || v.Other? || (v.Text? && v.parsed.None?)
    // a "%" text is a percentage only when asked for one
    ensures v.Text? && v.hasPercent && v.parsed.Some? ==>
              r == Some(if treatPercent then v.parsed.value / 100.0 else v.parsed.value)
    // a plain number is scaled only when asked for a fraction and it exceeds 1.5
    ensures v.Number? ==> r == Some(if treatPercent && v.x > 1.5 then v.x / 100.0 else v.x)
    ensures v.Text? && !v.hasPercent && v.parsed.Some? ==>
              r == Some(if treatPercent && v.parsed.value > 1.5 then v.parsed.value / 100.0 else v.parsed.value)
  {
    match v
    case Null => None
    case Other => None
    case Text(true, parsed) =>
      if parsed.None? then None
      else Some(if treatPercent then parsed.value / 100.0 else parsed.value)
    case Text(false, parsed) =>
      if parsed.None? then None else Some(ScaleBare(parsed.value, treatPercent))
    case Number(x) => Some(ScaleBare(x, treatPercent))
  }

  /** `num / 100.0 if treat_percent and num > 1.5 else num`. */
  function ScaleBare(num: real, treatPercent: bool): real {
    if treatPercent && num > 1.5 then num / 100.0 else num
  }

  /** The first present entry, if any. */
  function FirstSome(rs: seq<Option<real>>): (r: Option<real>)
    ensures r.Some? <==> exists i | 0 <= i < |rs| :: rs[i].Some?
    ensures r.Some? ==> exists i | 0 <= i < |rs| :: r == rs[i] && forall j | 0 <= j < i :: rs[j].None?
  {
    if |rs| == 0 then None
    else
      assert forall i | 1 <= i < |rs| :: rs[i] == rs[1..][i - 1];
      if rs[0].Some? then rs[0] else FirstSome(rs[1..])
  }

  /** What each key would contribute, in key order. */
  function Candidates(meta: Meta, keys: seq<string>, treatPercent: bool): (rs: seq<Option<real>>)
    ensures |rs| == |keys|
    ensures forall i | 0 <= i < |keys| :: rs[i] == ParseMeta(Lookup(meta, keys[i]), treatPercent)
  {
    seq(|keys|, i requires 0 <= i < |keys| => ParseMeta(Lookup(meta, keys[i]), treatPercent))
  }

  /** `_get_meta_num(keys, treat_percent)`: the keys are tried in order, and the first one
      whose value yields a number decides. */
  function GetMetaNum(meta: Meta, keys: seq<string>, treatPercent: bool): (r: Option<real>)
    // a number exactly when some key gives one ...
    ensures r.Some? <==> exists i | 0 <= i < |keys| :: ParseMeta(Lookup(meta, keys[i]), treatPercent).Some?
    // ... and it is the number of the first key that does
    ensures r.Some? ==>
              exists i | 0 <= i < |keys| ::
                && r == ParseMeta(Lookup(meta, keys[i]), treatPercent)
                && forall j | 0 <= j < i :: ParseMeta(Lookup(meta, keys[j]), treatPercent).None?
  {
    FirstSome(Candidates(meta, keys, treatPercent))
  }

  /** An entry equal to an earlier one can be dropped. */
  lemma {:induction false} FirstSomeRepeat(a: seq<Option<real>>, x: Option<real>, b: seq<Option<real>>)
    requires x in a
    ensures FirstSome(a + [x] + b) == FirstSome(a + b)
  {
    if a[0].None? {
      assert (a + [x] + b)[0] == (a + b)[0] == a[0];
      assert (a + [x] + b)[1..] == a[1..] + [x] + b;
      assert (a + b)[1..] == a[1..] + b;
      if a[0] == x {
        FirstSomeSkip(a[1..], x, b);
      } else {
        FirstSomeRepeat(a[1..], x, b);
      }
    } else {
      assert (a + [x] + b)[0] == (a + b)[0] == a[0];
    }
  }

  /** An absent entry can be dropped. */
  lemma {:induction false} FirstSomeSkip(a: seq<Option<real>>, x: Option<real>, b: seq<Option<real>>)
    requires x.None?
    ensures FirstSome(a + [x] + b) == FirstSome(a + b)
  {
    if |a| == 0 {
      assert (a + [x] + b)[1..] == b;
      assert a + b == b;
    } else {
      assert (a + [x] + b)[0] == (a + b)[0] == a[0];
      assert (a + [x] + b)[1..] == a[1..] + [x] + b;
      assert (a + b)[1..] == a[1..] + b;
      FirstSomeSkip(a[1..], x, b);
    }
  }

  /** Looking a key up a second time never changes the answer: a repeated key (as in the
      power synonyms) can be dropped. */
  lemma RepeatedKeyIsHarmless(meta: Meta, prefix: seq<string>, k: string, suffix: seq<string>, treatPercent: bool)
    requires k in prefix
    ensures GetMetaNum(meta, prefix + [k] + suffix, treatPercent) == GetMetaNum(meta, prefix + suffix, treatPercent)
  {
    var a := Candidates(meta, prefix, treatPercent);
    var x := ParseMeta(Lookup(meta, k), treatPercent);
    var b := Candidates(meta, suffix, treatPercent);
    assert Candidates(meta, prefix + [k] + suffix, treatPercent) == a + [x] + b;
    assert Candidates(meta, prefix + suffix, treatPercent) == a + b;
    var i :| 0 <= i < |prefix| && prefix[i] == k;
    assert a[i] == x;
    FirstSomeRepeat(a, x, b);
  }

  /** Percent handling: "59%" and a bare 59 both read as 0.59 under `treat_percent`, a bare
      0.59 stays as it is, and without `treat_percent` "59%" reads as 59. */
  lemma PercentExamples()
    ensures GetMetaNum(map["icu_intensity" := Text(true, Some(59.0))], IntensityKeys, true) == Some(0.59)
    ensures GetMetaNum(map["intensity" := Number(59.0)], IntensityKeys, true) == Some(0.59)
    ensures GetMetaNum(map["icu_intensity" := Number(0.59)], IntensityKeys, true) == Some(0.59)
    ensures GetMetaNum(map["icu_intensity" := Text(true, Some(59.0))], SegmentIntensityKeys, false) == Some(59.0)
  {
    var ks := IntensityKeys;
    assert ks[1..][1..] == ["intensity"];
    assert SegmentIntensityKeys[1..] == ["intensity"];
  }

  /** An unparseable first synonym is skipped, not fatal. */
  lemma UnparseableKeyIsSkipped()
    ensures GetMetaNum(map["icu_training_load" := Text(false, None), "training_load" := Number(42.0)],
                       RideLoadKeys, false) == Some(42.0)
  {
    assert RideLoadKeys[1..] == ["training_load", "icu_tss"];
  }

  // The synonym lists of the compute paths, in the order the source tries them.

  /** Average power, including the repeated "icu_weighted_avg_watts". */
  const PowerKeys: seq<string> := ["icu_weighted_avg_watts", "icu_weighted_avg_power", "icu_weighted_avg_watts",
                                   "average_watts", "weighted_avg_watts", "average_power"]
  /** Intensity as a fraction of FTP, read with `treat_percent`. */
  const IntensityKeys: seq<string> := ["icu_intensity", "icu_power_intensity", "intensity"]
  /** Training load on the ride fallback path. */
  const RideLoadKeys: seq<string> := ["icu_training_load", "training_load", "icu_tss"]
  /** Lactate threshold heart rate. */
  const ThresholdKeys: seq<string> := ["lthr", "icu_lthr", "lactate_threshold_hr"]
  /** Intensity for the heart-rate-less segment rule, read without `treat_percent`. */
  const SegmentIntensityKeys: seq<string> := ["icu_intensity", "intensity"]
  /** Training load on the run and strength paths. */
  const LoadKeys: seq<string> := ["icu_training_load", "training_load", "tss"]
  const ElevationGainKeys: seq<string> := ["total_elevation_gain", "elevation_gain"]
  const ElevationLossKeys: seq<string> := ["total_elevation_loss", "elevation_loss"]
  const DistanceKeys: seq<string> := ["distance", "icu_distance"]

  /** The duplicate power key changes nothing. */
  lemma PowerKeysRepeatHarmless(meta: Meta)
    ensures GetMetaNum(meta, PowerKeys, false) ==
            GetMetaNum(meta, ["icu_weighted_avg_watts", "icu_weighted_avg_power", "average_watts",
                              "weighted_avg_watts", "average_power"], false)
  {
    var prefix := ["icu_weighted_avg_watts", "icu_weighted_avg_power"];
    var suffix := ["average_watts", "weighted_avg_watts", "average_power"];
    assert PowerKeys == prefix + ["icu_weighted_avg_watts"] + suffix;
    assert prefix + suffix == ["icu_weighted_avg_watts", "icu_weighted_avg_power", "average_watts",
                               "weighted_avg_watts", "average_power"];
    RepeatedKeyIsHarmless(meta, prefix, "icu_weighted_avg_watts", suffix, false);
  }

  /** Metadata carrying only "average_watts" gives that power. */
  lemma PowerFromAverageWatts(w: real)
    ensures GetMetaNum(map["average_watts" := Number(w)], PowerKeys, false) == Some(w)
  {
    var rs := Candidates(map["average_watts" := Number(w)], PowerKeys, false);
    assert rs == [None, None, None, Some(w), None, None];
    assert rs[1..] == [None, None, Some(w), None, None];
    assert rs[1..][1..] == [None, Some(w), None, None];
    assert rs[1..][1..][1..] == [Some(w), None, None];
    assert FirstSome(rs[1..][1..][1..]) == Some(w);
  }

  /** The fallback power estimate: a power synonym first; otherwise the intensity fraction
      times FTP, when both exist and the FTP is non-zero. */
  function EstimateAvgPower(meta: Meta, ftp: int): (estimate: Option<real>)
    ensures GetMetaNum(meta, PowerKeys, false).Some? ==> estimate == GetMetaNum(meta, PowerKeys, false)
    ensures GetMetaNum(meta, PowerKeys, false).None? ==>
              (estimate.Some? <==> GetMetaNum(meta, IntensityKeys, true).Some? && ftp != 0)
    ensures GetMetaNum(meta, PowerKeys, false).None? && estimate.Some? ==>
              estimate.value == GetMetaNum(meta, IntensityKeys, true).value * (ftp as real)
  {
    var watts := GetMetaNum(meta, PowerKeys, false);
    if watts.Some? then watts
    else
      var intensity := GetMetaNum(meta, IntensityKeys, true);
      if intensity.Some? && ftp != 0 then Some(intensity.value * (ftp as real)) else None
  }
}

=== FILE: options.dfy ===
/** The nullable value used for every optional field of the model: Python's `None`
    becomes `None`, any present value becomes `Some(value)`. */
module Options {

  datatype Option<+T> = None | Some(value: T) {

    /** The wrapped value, or `default` when absent (pandas' `fillna(default)`). */
    function GetOr(default: T): T {
      match this
      case Some(v) => v
      case None => default
    }
  }
}

=== FILE: ride.dfy ===
/** The per-ride record the fatigue primitives read: a free-form dictionary in the
    source, here a record of optional fields. */
module RideRecord {
  import opened Options

  /** A value the source hands to `float()`: a number, or something `float()` rejects
      (a non-numeric, non-empty text). */
  datatype Raw = Num(x: real) | NotNumber

  /** The `date` key as `history_gating` sees it: absent or empty (skipped), a
      `%Y-%m-%d` date given as its day ordinal, or text `strptime` rejects. */
  datatype DateField = NoDate | Day(ordinal: int) | BadDate

  /** Zone-share dictionary (`zone_percentages`): zone label to share, possibly `None`. */
  type ZoneShares = map<string, Option<real>>

  datatype Ride = Ride(
    date: DateField,
    intensityFactor: Option<Raw>,    // key "intensity_factor"
    ifAlias: Option<Raw>,            // key "IF"
    totalTime: Option<real>,         // seconds
    totalMinutes: Option<real>,
    zonePercentages: Option<ZoneShares>,
    paceZonePercentages: Option<ZoneShares>,
    avgHeartrate: Option<real>,
    maxHeartrate: Option<real>,
    hrDrift: Option<real>,
    avgPower: Option<real>,
    normalizedPower: Option<real>,
    tss: Option<real>,
    heartrateSeries: Option<seq<Option<real>>>)
}

=== FILE: ride_strain.dfy ===
/** `compute_per_ride_strain`: the per-ride strain record (cardiac cost, HR drift with a
    series fallback, and the metrics carried over from the ride). */
module RideStrain {
  import opened Options
  import opened SeqMath
  import opened RideRecord

  datatype Strain = Strain(
    avgHeartrate: Option<real>,
    maxHeartrate: Option<real>,
    hrDrift: Option<real>,
    avgPower: Option<real>,
    normalizedPower: Option<real>,
    intensityFactor: Option<real>,
    totalTime: Option<real>,
    cardiacCost: Option<real>,
    tss: Option<real>)

  /** The non-None values of a series, in order. */
  function Present(xs: seq<Option<real>>): (vs: seq<real>)
    ensures |vs| <= |xs|
    ensures forall v :: v in vs <==> Some(v) in xs
  {
    if |xs| == 0 then []
    else
      assert xs == [xs[0]] + xs[1..];
      (if xs[0].Some? then [xs[0].value] else []) + Present(xs[1..])
  }

  /** Present values of a split series are those of its two parts. */
  lemma {:induction false} PresentAppend(a: seq<Option<real>>, b: seq<Option<real>>)
    ensures Present(a + b) == Present(a) + Present(b)
    decreases |a|
  {
    if |a| == 0 {
      assert a + b == b;
    } else {
      assert (a + b)[1..] == a[1..] + b;
      PresentAppend(a[1..], b);
    }
  }

  /** The positions of a series that hold a value. */
  function Filled(xs: seq<Option<real>>): set<int> {
    set i | 0 <= i < |xs| && xs[i].Some?
  }

  /** There are as many present values as positions holding one. */
  lemma {:induction false} PresentCount(xs: seq<Option<real>>)
    ensures |Present(xs)| == |Filled(xs)|
    decreases |xs|
  {
    if |xs| == 0 {
      assert Filled(xs) == {};
    } else {
      var n := |xs| - 1;
      var init := xs[..n];
      assert xs == init + [xs[n]];
      PresentAppend(init, [xs[n]]);
      assert [xs[n]][1..] == [];
      PresentCount(init);
      FilledSnoc(xs);
    }
  }

  lemma FilledSnoc(xs: seq<Option<real>>)
    requires |xs| > 0
    ensures |Filled(xs)| == |Filled(xs[..|xs| - 1])| + (if xs[|xs| - 1].Some? then 1 else 0)
  {
    var n := |xs| - 1;
    var before := Filled(xs[..n]);
    var extra: set<int> := if xs[n].Some? then {n} else {};
    assert Filled(xs) == before + extra by {
      forall i ensures i in Filled(xs) <==> i in before + extra {
        if 0 <= i < n {
          assert xs[..n][i] == xs[i];
        }
      }
    }
    assert before !! extra;
  }

  /** HR drift of a series: mean of the second half minus mean of the first half, split
      at `len // 2`. A flat series has no drift; a rising series has non-negative drift. */
  function SeriesDrift(vs: seq<real>): (drift: real)
    requires |vs| >= 2
    ensures Constant(vs) ==> drift == 0.0
    ensures NonDecreasing(vs) ==> drift >= 0.0
  {
    var mid := |vs| / 2;
    assert Constant(vs) ==> Mean(vs[mid..]) == Mean(vs[..mid]) by {
      if Constant(vs) {
        MeanOfConstant(vs[..mid]);
        MeanOfConstant(vs[mid..]);
      }
    }
    assert NonDecreasing(vs) ==> Mean(vs[..mid]) <= vs[mid] <= Mean(vs[mid..]) by {
      if NonDecreasing(vs) {
        MeanBounds(vs[..mid], vs[0], vs[mid]);
        MeanBounds(vs[mid..], vs[mid], vs[|vs| - 1]);
      }
    }
    Mean(vs[mid..]) - Mean(vs[..mid])
  }

  /** Where the series is cut: a first part of `len // 2` values and a second part of the
      rest, which is as long or one longer, so an odd middle value goes to the second half. */
  lemma HalvesDrift(first: seq<real>, second: seq<real>)
    requires |first| >= 1 && (|second| == |first| || |second| == |first| + 1)
    ensures SeriesDrift(first + second) == Mean(second) - Mean(first)
  {
    var vs := first + second;
    assert |vs| / 2 == |first|;
    assert vs[..|first|] == first && vs[|first|..] == second;
  }

  /** A series that holds `a` for `n` samples and then `b` for `n` or `n + 1` samples drifts
      by exactly `b - a`. */
  lemma StepDrift(a: real, b: real, n: nat, m: nat)
    requires n >= 1 && (m == n || m == n + 1)
    ensures SeriesDrift(seq(n, _ => a) + seq(m, _ => b)) == b - a
  {
    var low, high := seq(n, _ => a), seq(m, _ => b);
    HalvesDrift(low, high);
    MeanOfConstant(low);
    MeanOfConstant(high);
  }

  /** Heart rates 1, 2, 3, 4: the halves average 1.5 and 3.5, a drift of 2. */
  lemma DriftExample()
    ensures SeriesDrift([1.0, 2.0, 3.0, 4.0]) == 2.0
  {
    HalvesDrift([1.0, 2.0], [3.0, 4.0]);
    assert [1.0, 2.0] + [3.0, 4.0] == [1.0, 2.0, 3.0, 4.0];
    assert Sum([1.0, 2.0]) == 3.0 by {
      assert [1.0, 2.0][1..] == [2.0];
      assert [2.0][1..] == [];
    }
    assert Sum([3.0, 4.0]) == 7.0 by {
      assert [3.0, 4.0][1..] == [4.0];
      assert [4.0][1..] == [];
    }
  }

  /** `compute_per_ride_strain`. Converting a non-numeric "intensity_factor" raises in the
      source, hence the precondition. */
  function ComputePerRideStrain(ride: Ride): (s: Strain)
    requires ride.intensityFactor != Some(NotNumber)
    ensures s.cardiacCost.Some? <==>
              ride.avgHeartrate.Some? && ride.avgPower.Some? && ride.avgPower.value > 0.0
    ensures s.cardiacCost.Some? ==> s.cardiacCost.value * ride.avgPower.value == ride.avgHeartrate.value
    ensures ride.hrDrift.Some? ==> s.hrDrift == ride.hrDrift
    ensures ride.hrDrift.None? ==>
              (s.hrDrift.Some? <==> ride.heartrateSeries.Some? && |Present(ride.heartrateSeries.value)| >= 2)
    ensures ride.hrDrift.None? && s.hrDrift.Some? ==>
              s.hrDrift.value == SeriesDrift(Present(ride.heartrateSeries.value))
    ensures s.intensityFactor.Some? <==> ride.intensityFactor.Some?
    // the IF is carried over as the number it is
    ensures s.intensityFactor.Some? ==> ride.intensityFactor == Some(Num(s.intensityFactor.value))
    ensures s.avgHeartrate == ride.avgHeartrate && s.avgPower == ride.avgPower && s.tss == ride.tss
    ensures s.maxHeartrate == ride.maxHeartrate && s.normalizedPower == ride.normalizedPower
    ensures s.totalTime == ride.totalTime
  {
    var cardiac :=
      if ride.avgHeartrate.Some? && ride.avgPower.Some? && ride.avgPower.value > 0.0
      then Some(ride.avgHeartrate.value / ride.avgPower.value)
      else None;
    var drift :=
      if ride.hrDrift.Some? then ride.hrDrift
      else if ride.heartrateSeries.Some? && |ride.heartrateSeries.value| > 1
              && |Present(ride.heartrateSeries.value)| >= 2
      then Some(SeriesDrift(Present(ride.heartrateSeries.value)))
      else None;
    var intensity := match ride.intensityFactor
      case Some(Num(x)) => Some(x)
      case _ => None;
    Strain(ride.avgHeartrate, ride.maxHeartrate, drift, ride.avgPower, ride.normalizedPower,
           intensity, ride.totalTime, cardiac, ride.tss)
  }
}

=== FILE: samples.dfy ===
/** The activity stream after cleaning: one row per sample, sorted by time, each row
    weighted by the seconds it stands for (`dt`). Every compute path of the activity
    parser shares this preamble. */
module Samples {
  import opened Options
  import opened SeqMath

  /** One stream row once `time` has been cast to whole seconds; a column that is absent,
      empty or not numeric in a row reads as None (pandas' NaN). */
  datatype Row = Row(
    time: int,
    watts: Option<real>,
    cadence: Option<real>,
    heartrate: Option<real>,
    velocity: Option<real>)   // column "velocity_smooth"

  /** The stream columns the compute paths look at ("velocity_smooth" for velocity). */
  datatype Column = TimeColumn | WattsColumn | CadenceColumn | HeartrateColumn | VelocityColumn

  /** A row together with its duration. */
  datatype Timed = Timed(row: Row, dt: real)

  function TimeKey(r: Row): real {
    r.time as real
  }

  /** `sort_values('time')`: a stable sort of the rows by time. */
  function SortByTime(rows: seq<Row>): (sorted: seq<Row>)
    ensures |sorted| == |rows|
    ensures multiset(sorted) == multiset(rows)
    ensures forall i, j | 0 <= i < j < |sorted| :: sorted[i].time <= sorted[j].time
  {
    var s := SortBy(rows, TimeKey);
    assert forall i, j | 0 <= i < j < |s| :: TimeKey(s[i]) <= TimeKey(s[j]);
    s
  }

  function Times(rows: seq<Row>): (ts: seq<int>)
    ensures |ts| == |rows|
    ensures forall i | 0 <= i < |rows| :: ts[i] == rows[i].time
  {
    seq(|rows|, i requires 0 <= i < |rows| => rows[i].time)
  }

  predicate Ascending(ts: seq<int>) {
    forall i, j | 0 <= i < j < |ts| :: ts[i] <= ts[j]
  }

  /** `time.shift(-1) - time` without its undefined last entry. */
  function Deltas(ts: seq<int>): (ds: seq<real>)
    requires |ts| > 0
    ensures |ds| == |ts| - 1
    ensures forall i | 0 <= i < |ds| :: ds[i] == (ts[i + 1] - ts[i]) as real
  {
    seq(|ts| - 1, i requires 0 <= i < |ts| - 1 => (ts[i + 1] - ts[i]) as real)
  }

  function Positive(ds: seq<real>): (ps: seq<real>)
    ensures |ps| <= |ds|
    ensures forall i | 0 <= i < |ps| :: ps[i] > 0.0
    ensures forall x :: x in ps <==> x in ds && x > 0.0
  {
    if |ds| == 0 then []
    else (if ds[0] > 0.0 then [ds[0]] else []) + Positive(ds[1..])
  }

  /** Keeping the positive gaps of two runs of gaps one after the other keeps each run's
      positive gaps, in order and with their repetitions. */
  lemma {:induction false} PositiveAppend(a: seq<real>, b: seq<real>)
    ensures Positive(a + b) == Positive(a) + Positive(b)
  {
    if |a| == 0 {
      assert a + b == b;
    } else {
      assert (a + b)[1..] == a[1..] + b;
      PositiveAppend(a[1..], b);
    }
  }

  /** The duration given to the last row: the median of the positive gaps before it, or one
      second when there are none (`median()` of nothing is NaN). */
  function LastStep(ds: seq<real>): (step: real)
    ensures step > 0.0
    ensures (forall i | 0 <= i < |ds| :: ds[i] <= 0.0) ==> step == 1.0
    ensures (exists i | 0 <= i < |ds| :: ds[i] > 0.0) ==>
              (exists i | 0 <= i < |ds| :: 0.0 < ds[i] <= step) && (exists j | 0 <= j < |ds| :: step <= ds[j])
    ensures (exists i | 0 <= i < |ds| :: ds[i] > 0.0) ==> |Positive(ds)| > 0 && step == Median(Positive(ds))
  {
    var ps := Positive(ds);
    if |ps| == 0 then
      assert forall i | 0 <= i < |ds| :: ds[i] <= 0.0 by {
        forall i | 0 <= i < |ds| ensures ds[i] <= 0.0 {
          assert ds[i] in ds;
        }
      }
      1.0
    else
      var m := Median(ps);
      var i :| 0 <= i < |ps| && ps[i] <= m;
      var j :| 0 <= j < |ps| && m <= ps[j];
      assert ps[i] in ds && ps[j] in ds;
      m
  }

  /** `clip(lower=0)`. */
  function Clip(x: real): (c: real)
    ensures c >= 0.0
    ensures x >= 0.0 ==> c == x
    ensures x < 0.0 ==> c == 0.0
  {
    if x < 0.0 then 0.0 else x
  }

  /** The per-row durations: the gap to the next row, the last-row step for the last row,
      all clipped at zero. pandas raises on an empty frame (`dt.iloc[-1] = ...`). */
  function RowDurations(ts: seq<int>): (dt: seq<real>)
    requires |ts| > 0
    ensures |dt| == |ts|
    ensures forall i | 0 <= i < |ts| - 1 :: dt[i] == Clip((ts[i + 1] - ts[i]) as real)
    ensures dt[|ts| - 1] == LastStep(Deltas(ts))
    ensures forall i | 0 <= i < |dt| :: dt[i] >= 0.0
    ensures dt[|ts| - 1] > 0.0
    // on sorted times nothing is clipped: each row lasts until the next one
    ensures Ascending(ts) ==> forall i | 0 <= i < |ts| - 1 :: dt[i] == (ts[i + 1] - ts[i]) as real
  {
    var ds := Deltas(ts);
    seq(|ts|, i requires 0 <= i < |ts| => if i < |ts| - 1 then Clip(ds[i]) else LastStep(ds))
  }

  function TotalTime(dt: seq<real>): real {
    Sum(dt)
  }

  /** The gaps of a sorted stream add up to its extent. */
  lemma {:induction false} DeltasTelescope(ts: seq<int>)
    requires |ts| > 0
    ensures Sum(Deltas(ts)) == (ts[|ts| - 1] - ts[0]) as real
  {
    if |ts| > 1 {
      DeltasTelescope(ts[1..]);
      assert Deltas(ts)[1..] == Deltas(ts[1..]);
    }
  }

  /** On sorted times the total duration is the stream's extent plus the last row's step. */
  lemma TotalTimeTelescopes(ts: seq<int>)
    requires |ts| > 0 && Ascending(ts)
    ensures TotalTime(RowDurations(ts)) == (ts[|ts| - 1] - ts[0]) as real + LastStep(Deltas(ts))
  {
    var dt := RowDurations(ts);
    var n := |ts|;
    assert dt[..n - 1] == Deltas(ts);
    assert dt == dt[..n - 1] + [dt[n - 1]];
    SumAppend(Deltas(ts), [dt[n - 1]]);
    DeltasTelescope(ts);
    assert Sum([dt[n - 1]]) == dt[n - 1];
  }

  /** Durations are never negative and the last is positive, so any stream with a row has a
      positive total time: the divisions by `total_time` never divide by zero. */
  lemma TotalTimePositive(ts: seq<int>)
    requires |ts| > 0
    ensures TotalTime(RowDurations(ts)) > 0.0
  {
    var dt := RowDurations(ts);
    var n := |ts|;
    assert dt == dt[..n - 1] + [dt[n - 1]];
    SumAppend(dt[..n - 1], [dt[n - 1]]);
    NonNegativeBound(dt[..n - 1]);
    assert Sum([dt[n - 1]]) == dt[n - 1];
  }

  /** A sum of non-negative terms bounds each of them. */
  lemma {:induction false} NonNegativeBound(xs: seq<real>)
    requires forall i | 0 <= i < |xs| :: xs[i] >= 0.0
    ensures Sum(xs) >= 0.0
    ensures forall i | 0 <= i < |xs| :: xs[i] <= Sum(xs)
  {
    if |xs| > 0 {
      NonNegativeBound(xs[1..]);
      assert forall i | 1 <= i < |xs| :: xs[i] == xs[1..][i - 1];
    }
  }

  /** The rows paired with their durations. */
  function WithDurations(rows: seq<Row>): (timed: seq<Timed>)
    requires |rows| > 0
    ensures |timed| == |rows|
    ensures forall i | 0 <= i < |rows| :: timed[i].row == rows[i] && timed[i].dt >= 0.0
    ensures forall i | 0 <= i < |rows| :: timed[i].dt == RowDurations(Times(rows))[i]
  {
    var dt := RowDurations(Times(rows));
    seq(|rows|, i requires 0 <= i < |rows| => Timed(rows[i], dt[i]))
  }

  function Durations(timed: seq<Timed>): (dt: seq<real>)
    ensures |dt| == |timed|
    ensures forall i | 0 <= i < |timed| :: dt[i] == timed[i].dt
  {
    seq(|timed|, i requires 0 <= i < |timed| => timed[i].dt)
  }

  /** `float(df['dt'].sum())`. */
  function StreamTime(timed: seq<Timed>): real {
    TotalTime(Durations(timed))
  }

  /** On rows already in time order, each duration is the gap to the next row, the last
      row lasts the median positive gap, and the durations add up to the stream's extent
      plus that last step, a positive stream time. */
  lemma SortedDurations(sorted: seq<Row>)
    requires |sorted| > 0
    requires forall i, j | 0 <= i < j < |sorted| :: sorted[i].time <= sorted[j].time
    ensures
      var timed := WithDurations(sorted);
      var last := |timed| - 1;
      && seq(|timed|, i requires 0 <= i < |timed| => timed[i].row) == sorted
      && Durations(timed) == RowDurations(Times(sorted))
      && (forall i | 0 <= i < last :: timed[i].dt == (timed[i + 1].row.time - timed[i].row.time) as real)
      && timed[last].dt == LastStep(Deltas(Times(sorted)))
      && StreamTime(timed) == (timed[last].row.time - timed[0].row.time) as real + timed[last].dt
      && StreamTime(timed) > 0.0
  {
    var timed := WithDurations(sorted);
    var ts := Times(sorted);
    assert Ascending(ts);
    RowsOfTimed(sorted);
    assert Durations(timed) == RowDurations(ts);
    TotalTimeTelescopes(ts);
    TotalTimePositive(ts);
  }

  lemma RowsOfTimed(rows: seq<Row>)
    requires |rows| > 0
    ensures
      var timed := WithDurations(rows);
      seq(|timed|, i requires 0 <= i < |timed| => timed[i].row) == rows
  {
  }

  /** A cleaned stream: rows sorted by time, each with its duration. */
  function Prepare(rows: seq<Row>): (timed: seq<Timed>)
    requires |rows| > 0
    ensures |timed| == |rows|
    ensures multiset(seq(|timed|, i requires 0 <= i < |timed| => timed[i].row)) == multiset(rows)
    ensures forall i, j | 0 <= i < j < |timed| :: timed[i].row.time <= timed[j].row.time
    ensures forall i | 0 <= i < |timed| - 1 :: timed[i].dt == (timed[i + 1].row.time - timed[i].row.time) as real
    ensures timed[|timed| - 1].dt ==
      LastStep(Deltas(Times(seq(|timed|, i requires 0 <= i < |timed| => timed[i].row))))
    ensures StreamTime(timed) ==
      (timed[|timed| - 1].row.time - timed[0].row.time) as real + timed[|timed| - 1].dt
    ensures StreamTime(timed) > 0.0
  {
    var sorted := SortByTime(rows);
    SortedDurations(sorted);
    WithDurations(sorted)
  }
}

=== FILE: segments.dfy ===
/** Segment buckets: the seconds of an activity spent under threshold masks (rest, hard,
    drafting on the bike; easy, steady, hard running; easy, moderate, intense lifting). */
module Segments {
  import opened Options
  import opened SeqMath
  import opened Samples
  import opened Intensity
  import opened Metadata

  /** A row mask. Heart-rate masks compare `heartrate.fillna(0)`; a comparison with a
      missing (NaN) value is false. */
  datatype Mask =
    | HrBelow(t: real)                        // hr < t
    | HrBetween(lo: real, hi: real)           // lo <= hr <= hi
    | HrAbove(t: real)                        // hr > t
    | BikeRest(ftp: int, cadenceColumn: bool) // cadence < 60 and watts < 0.5 ftp
    | BikeHard(ftp: int)                      // watts > 0.9 ftp
    | Drafting(v75: Option<real>, ftp: int)   // velocity > v75 and watts < 0.5 ftp

  function Hr(r: Row): real {
    r.heartrate.GetOr(0.0)
  }

  /** `cadence.fillna(0)` when the column exists, the scalar 0 otherwise. */
  function Cadence(r: Row, cadenceColumn: bool): real {
    if cadenceColumn then r.cadence.GetOr(0.0) else 0.0
  }

  predicate Holds(m: Mask, r: Row) {
    match m
    case HrBelow(t) => Hr(r) < t
    case HrBetween(lo, hi) => lo <= Hr(r) <= hi
    case HrAbove(t) => Hr(r) > t
    case BikeRest(ftp, cadenceColumn) =>
      Cadence(r, cadenceColumn) < 60.0 && r.watts.Some? && r.watts.value < 0.5 * (ftp as real)
    case BikeHard(ftp) => r.watts.Some? && r.watts.value > 0.90 * (ftp as real)
    case Drafting(v75, ftp) =>
      && v75.Some? && r.velocity.Some? && r.velocity.value > v75.value
      && r.watts.Some? && r.watts.value < 0.5 * (ftp as real)
  }

  /** `df.loc[mask, 'dt'].sum()`. */
  function TimeWhere(timed: seq<Timed>, m: Mask): real {
    if |timed| == 0 then 0.0
    else (if Holds(m, timed[0].row) then timed[0].dt else 0.0) + TimeWhere(timed[1..], m)
  }

  predicate NonNegativeDurations(timed: seq<Timed>) {
    forall i | 0 <= i < |timed| :: timed[i].dt >= 0.0
  }

  lemma StreamTimeCons(timed: seq<Timed>)
    requires |timed| > 0
    ensures StreamTime(timed) == timed[0].dt + StreamTime(timed[1..])
  {
    assert Durations(timed)[1..] == Durations(timed[1..]);
  }

  /** A mask that holds on every row takes the whole time. */
  lemma {:induction false} TimeWhereAll(timed: seq<Timed>, m: Mask)
    requires forall i | 0 <= i < |timed| :: Holds(m, timed[i].row)
    ensures TimeWhere(timed, m) == StreamTime(timed)
  {
    if |timed| > 0 {
      StreamTimeCons(timed);
      TimeWhereAll(timed[1..], m);
    }
  }

  /** A mask that holds on no row takes no time. */
  lemma {:induction false} TimeWhereNone(timed: seq<Timed>, m: Mask)
    requires forall i | 0 <= i < |timed| :: !Holds(m, timed[i].row)
    ensures TimeWhere(timed, m) == 0.0
  {
    if |timed| > 0 {
      TimeWhereNone(timed[1..], m);
    }
  }

  /** A bucket holds between none and all of the activity's time. */
  lemma {:induction false} TimeWhereBounds(timed: seq<Timed>, m: Mask)
    requires NonNegativeDurations(timed)
    ensures 0.0 <= TimeWhere(timed, m) <= StreamTime(timed)
  {
    if |timed| > 0 {
      StreamTimeCons(timed);
      TimeWhereBounds(timed[1..], m);
    }
  }

  /** Two masks that never hold together split off at most the whole time between them. */
  lemma {:induction false} DisjointMasks(timed: seq<Timed>, p: Mask, q: Mask)
    requires NonNegativeDurations(timed)
    requires forall i | 0 <= i < |timed| :: !(Holds(p, timed[i].row) && Holds(q, timed[i].row))
    ensures TimeWhere(timed, p) + TimeWhere(timed, q) <= StreamTime(timed)
  {
    if |timed| > 0 {
      StreamTimeCons(timed);
      DisjointMasks(timed[1..], p, q);
    }
  }

  /** Three masks of which every row satisfies exactly one share out the whole time. */
  lemma {:induction false} PartitionMasks(timed: seq<Timed>, p: Mask, q: Mask, s: Mask)
    requires forall i | 0 <= i < |timed| ::
               && (Holds(p, timed[i].row) || Holds(q, timed[i].row) || Holds(s, timed[i].row))
               && !(Holds(p, timed[i].row) && Holds(q, timed[i].row))
               && !(Holds(p, timed[i].row) && Holds(s, timed[i].row))
               && !(Holds(q, timed[i].row) && Holds(s, timed[i].row))
    ensures TimeWhere(timed, p) + TimeWhere(timed, q) + TimeWhere(timed, s) == StreamTime(timed)
  {
    if |timed| > 0 {
      StreamTimeCons(timed);
      PartitionMasks(timed[1..], p, q, s);
    }
  }

  /** Below `lo`, between `lo` and `hi` inclusive, above `hi`: with `lo <= hi` these
      partition the heart-rate axis. */
  lemma HrBandsPartition(timed: seq<Timed>, lo: real, hi: real)
    requires lo <= hi
    ensures TimeWhere(timed, HrBelow(lo)) + TimeWhere(timed, HrBetween(lo, hi)) + TimeWhere(timed, HrAbove(hi))
            == StreamTime(timed)
  {
    PartitionMasks(timed, HrBelow(lo), HrBetween(lo, hi), HrAbove(hi));
  }

  /** A threshold heart rate in metadata, when there is one, is not negative. */
  predicate ThresholdUsable(meta: Meta) {
    GetMetaNum(meta, ThresholdKeys, false).Some? ==> GetMetaNum(meta, ThresholdKeys, false).value >= 0.0
  }

  /** The sample quantiles the percentile fallbacks compare against, computed by pandas
      and supplied by the caller. `velocity75` is None when the velocity column is all NaN. */
  datatype Quantiles = Quantiles(hr25: real, hr33: real, hr40: real, hr67: real, hr75: real, hr90: real,
                                 velocity75: Option<real>)

  /** A heart-rate stream exists: the column is there and some row has a value. */
  predicate HasHeartrate(columns: set<Column>, timed: seq<Timed>) {
    HeartrateColumn in columns && exists i | 0 <= i < |timed| :: timed[i].row.heartrate.Some?
  }

  /** Bike segments: rest and hard with watts and a non-zero FTP, drafting when velocity is
      there as well. */
  function BikeSegments(columns: set<Column>, timed: seq<Timed>, ftp: int, q: Quantiles): (seg: map<string, real>)
    ensures WattsColumn !in columns || ftp == 0 ==> seg == map[]
    ensures WattsColumn in columns && ftp != 0 ==>
              && "rest" in seg && seg["rest"] == TimeWhere(timed, BikeRest(ftp, CadenceColumn in columns))
              && "hard" in seg && seg["hard"] == TimeWhere(timed, BikeHard(ftp))
              && ("drafting" in seg <==> VelocityColumn in columns)
              && seg.Keys <= {"rest", "hard", "drafting"}
    ensures "drafting" in seg ==> seg["drafting"] == TimeWhere(timed, Drafting(q.velocity75, ftp))
  {
    if WattsColumn !in columns || ftp == 0 then map[]
    else
      var base := map["rest" := TimeWhere(timed, BikeRest(ftp, CadenceColumn in columns)),
                      "hard" := TimeWhere(timed, BikeHard(ftp))];
      if VelocityColumn in columns then base["drafting" := TimeWhere(timed, Drafting(q.velocity75, ftp))]
      else base
  }

  /** With a positive FTP no row is both resting and hard, so rest and hard together take
      at most the activity's time. */
  lemma BikeRestHardDisjoint(columns: set<Column>, timed: seq<Timed>, ftp: int, q: Quantiles)
    requires NonNegativeDurations(timed) && ftp > 0 && WattsColumn in columns
    ensures
      var seg := BikeSegments(columns, timed, ftp, q);
      seg["rest"] + seg["hard"] <= StreamTime(timed)
  {
    DisjointMasks(timed, BikeRest(ftp, CadenceColumn in columns), BikeHard(ftp));
  }

  /** The rough bike path: with heart rate, rest and hard against the threshold heart rate
      from metadata (60% / 90%) or else the 25th / 90th percentiles; without it, the whole
      ride is hard when the metadata intensity exceeds 0.9 and rest otherwise, and there
      are no buckets without an intensity. */
  function RoughSegments(columns: set<Column>, timed: seq<Timed>, meta: Meta, q: Quantiles): (seg: map<string, real>)
    ensures HasHeartrate(columns, timed) ==>
              var lthr := GetMetaNum(meta, ThresholdKeys, false);
              var restBelow := if lthr.Some? then 0.6 * lthr.value else q.hr25;
              var hardAbove := if lthr.Some? then 0.9 * lthr.value else q.hr90;
              seg == map["rest" := TimeWhere(timed, HrBelow(restBelow)), "hard" := TimeWhere(timed, HrAbove(hardAbove))]
    ensures !HasHeartrate(columns, timed) ==>
              var intensity := GetMetaNum(meta, SegmentIntensityKeys, false);
              && (intensity.None? ==> seg == map[])
              && (intensity.Some? && intensity.value > 0.9 ==> seg == map["hard" := StreamTime(timed), "rest" := 0.0])
              && (intensity.Some? && intensity.value <= 0.9 ==> seg == map["rest" := StreamTime(timed), "hard" := 0.0])
  {
    if HasHeartrate(columns, timed) then
      var lthr := GetMetaNum(meta, ThresholdKeys, false);
      if lthr.Some? then
        map["rest" := TimeWhere(timed, HrBelow(0.6 * lthr.value)), "hard" := TimeWhere(timed, HrAbove(0.9 * lthr.value))]
      else
        map["rest" := TimeWhere(timed, HrBelow(q.hr25)), "hard" := TimeWhere(timed, HrAbove(q.hr90))]
    else
      var intensity := GetMetaNum(meta, SegmentIntensityKeys, false);
      if intensity.None? then map[]
      else if intensity.value > 0.9 then map["hard" := StreamTime(timed), "rest" := 0.0]
      else map["rest" := StreamTime(timed), "hard" := 0.0]
  }

  /** Whatever the path, the rough rest and hard buckets never overlap when the thresholds
      are ordered (a non-negative threshold heart rate, or ordered percentiles). */
  lemma RoughRestHardDisjoint(columns: set<Column>, timed: seq<Timed>, meta: Meta, q: Quantiles)
    requires NonNegativeDurations(timed)
    requires ThresholdUsable(meta)
    requires q.hr25 <= q.hr90
    ensures
      var seg := RoughSegments(columns, timed, meta, q);
      "rest" in seg <==> "hard" in seg
    ensures
      var seg := RoughSegments(columns, timed, meta, q);
      "rest" in seg ==> seg["rest"] + seg["hard"] <= StreamTime(timed)
  {
    var lthr := GetMetaNum(meta, ThresholdKeys, false);
    if HasHeartrate(columns, timed) {
      var lo := if lthr.Some? then 0.6 * lthr.value else q.hr25;
      var hi := if lthr.Some? then 0.9 * lthr.value else q.hr90;
      DisjointMasks(timed, HrBelow(lo), HrAbove(hi));
    }
  }

  /** Three heart-rate buckets split at `lo` and `hi`. */
  function HrBands(timed: seq<Timed>, low: string, middle: string, high: string, lo: real, hi: real): (seg: map<string, real>)
    requires low != middle && middle != high && low != high
    ensures seg.Keys == {low, middle, high}
    ensures seg[low] == TimeWhere(timed, HrBelow(lo))
    ensures seg[middle] == TimeWhere(timed, HrBetween(lo, hi))
    ensures seg[high] == TimeWhere(timed, HrAbove(hi))
    // with ordered thresholds every second lands in exactly one bucket
    ensures lo <= hi ==> seg[low] + seg[middle] + seg[high] == StreamTime(timed)
  {
    assert lo <= hi ==> TimeWhere(timed, HrBelow(lo)) + TimeWhere(timed, HrBetween(lo, hi)) + TimeWhere(timed, HrAbove(hi))
                        == StreamTime(timed) by {
      if lo <= hi {
        HrBandsPartition(timed, lo, hi);
      }
    }
    map[low := TimeWhere(timed, HrBelow(lo)), middle := TimeWhere(timed, HrBetween(lo, hi)),
        high := TimeWhere(timed, HrAbove(hi))]
  }

  /** Running: easy below 75% of threshold heart rate, steady from 75% to 90%, hard above
      90% (percentiles 40 and 75 without a threshold); no buckets without heart rate. */
  function RunSegments(columns: set<Column>, timed: seq<Timed>, meta: Meta, q: Quantiles): (seg: map<string, real>)
    ensures !HasHeartrate(columns, timed) <==> seg == map[]
    ensures HasHeartrate(columns, timed) ==>
              var lthr := GetMetaNum(meta, ThresholdKeys, false);
              var lo := if lthr.Some? then 0.75 * lthr.value else q.hr40;
              var hi := if lthr.Some? then 0.90 * lthr.value else q.hr75;
              && seg.Keys == {"easy", "steady", "hard"}
              && seg["easy"] == TimeWhere(timed, HrBelow(lo))
              && seg["steady"] == TimeWhere(timed, HrBetween(lo, hi))
              && seg["hard"] == TimeWhere(timed, HrAbove(hi))
  {
    if !HasHeartrate(columns, timed) then map[]
    else
      var lthr := GetMetaNum(meta, ThresholdKeys, false);
      var seg := if lthr.Some? then HrBands(timed, "easy", "steady", "hard", 0.75 * lthr.value, 0.90 * lthr.value)
                 else HrBands(timed, "easy", "steady", "hard", q.hr40, q.hr75);
      assert "easy" in seg;
      seg
  }

  /** Strength: easy below 70% of threshold heart rate, moderate from 70% to 85%, intense
      above 85% (percentiles 33 and 67 without a threshold); without heart rate the whole
      session is one "unknown" bucket. */
  function StrengthSegments(columns: set<Column>, timed: seq<Timed>, meta: Meta, q: Quantiles): (seg: map<string, real>)
    ensures !HasHeartrate(columns, timed) ==> seg == map["unknown" := StreamTime(timed)]
    ensures HasHeartrate(columns, timed) ==>
              var lthr := GetMetaNum(meta, ThresholdKeys, false);
              var lo := if lthr.Some? then 0.70 * lthr.value else q.hr33;
              var hi := if lthr.Some? then 0.85 * lthr.value else q.hr67;
              && seg.Keys == {"easy", "moderate", "intense"}
              && seg["easy"] == TimeWhere(timed, HrBelow(lo))
              && seg["moderate"] == TimeWhere(timed, HrBetween(lo, hi))
              && seg["intense"] == TimeWhere(timed, HrAbove(hi))
  {
    if !HasHeartrate(columns, timed) then map["unknown" := StreamTime(timed)]
    else
      var lthr := GetMetaNum(meta, ThresholdKeys, false);
      if lthr.Some? then HrBands(timed, "easy", "moderate", "intense", 0.70 * lthr.value, 0.85 * lthr.value)
      else HrBands(timed, "easy", "moderate", "intense", q.hr33, q.hr67)
  }

  /** With a non-negative threshold heart rate (or ordered percentiles) the three running
      buckets account for every second of the run. */
  lemma RunBucketsPartition(columns: set<Column>, timed: seq<Timed>, meta: Meta, q: Quantiles)
    requires HasHeartrate(columns, timed)
    requires ThresholdUsable(meta)
    requires q.hr40 <= q.hr75
    ensures
      var seg := RunSegments(columns, timed, meta, q);
      seg["easy"] + seg["steady"] + seg["hard"] == StreamTime(timed)
  {
    var lthr := GetMetaNum(meta, ThresholdKeys, false);
    var lo := if lthr.Some? then 0.75 * lthr.value else q.hr40;
    var hi := if lthr.Some? then 0.90 * lthr.value else q.hr75;
    HrBandsPartition(timed, lo, hi);
  }

  /** Likewise the three strength buckets, and the single unknown bucket without heart
      rate, account for every second of the session. */
  lemma StrengthBucketsPartition(columns: set<Column>, timed: seq<Timed>, meta: Meta, q: Quantiles)
    requires ThresholdUsable(meta)
    requires q.hr33 <= q.hr67
    ensures
      var seg := StrengthSegments(columns, timed, meta, q);
      HasHeartrate(columns, timed) ==> seg["easy"] + seg["moderate"] + seg["intense"] == StreamTime(timed)
  {
    if HasHeartrate(columns, timed) {
      var lthr := GetMetaNum(meta, ThresholdKeys, false);
      var lo := if lthr.Some? then 0.70 * lthr.value else q.hr33;
      var hi := if lthr.Some? then 0.85 * lthr.value else q.hr67;
      HrBandsPartition(timed, lo, hi);
    }
  }

  /** `{k: v / total_time * 100.0 if total_time > 0 else 0.0 for k, v in seg_times.items()}`. */
  function SegmentPercentages(seg: map<string, real>, totalTime: real): (pct: map<string, real>)
    ensures pct.Keys == seg.Keys
    ensures forall k | k in seg :: pct[k] == Percent(seg[k], totalTime)
    // each share scaled back by the total time gives the bucket's time, in hundreds
    ensures totalTime > 0.0 ==> forall k | k in seg :: pct[k] * totalTime == 100.0 * seg[k]
    ensures totalTime <= 0.0 ==> forall k | k in seg :: pct[k] == 0.0
  {
    assert totalTime > 0.0 ==> forall k | k in seg :: Percent(seg[k], totalTime) * totalTime == 100.0 * seg[k] by {
      if totalTime > 0.0 {
        forall k | k in seg ensures Percent(seg[k], totalTime) * totalTime == 100.0 * seg[k] {
          PercentScalesBack(seg[k], totalTime);
        }
      }
    }
    map k | k in seg :: Percent(seg[k], totalTime)
  }

  lemma PercentScalesBack(v: real, t: real)
    requires t > 0.0
    ensures Percent(v, t) * t == 100.0 * v
  {
    assert v / t * t == v;
  }

  /** Shares of a positive total add up as their times do. */
  lemma PercentSum3(a: real, b: real, c: real, t: real)
    requires t > 0.0 && a + b + c == t
    ensures Percent(a, t) + Percent(b, t) + Percent(c, t) == 100.0
  {
    assert a / t + b / t + c / t == (a + b + c) / t;
    WholeIsHundredPercent(t);
  }

  /** The running percentages therefore add up to 100. */
  lemma RunPercentagesSum(columns: set<Column>, timed: seq<Timed>, meta: Meta, q: Quantiles)
    requires HasHeartrate(columns, timed) && StreamTime(timed) > 0.0
    requires ThresholdUsable(meta)
    requires q.hr40 <= q.hr75
    ensures
      var pct := SegmentPercentages(RunSegments(columns, timed, meta, q), StreamTime(timed));
      pct["easy"] + pct["steady"] + pct["hard"] == 100.0
  {
    var seg := RunSegments(columns, timed, meta, q);
    RunBucketsPartition(columns, timed, meta, q);
    PercentSum3(seg["easy"], seg["steady"], seg["hard"], StreamTime(timed));
  }

  /** Likewise the strength percentages add up to 100, over the three heart-rate buckets
      or the single unknown bucket. */
  lemma StrengthPercentagesSum(columns: set<Column>, timed: seq<Timed>, meta: Meta, q: Quantiles)
    requires StreamTime(timed) > 0.0
    requires ThresholdUsable(meta)
    requires q.hr33 <= q.hr67
    ensures
      var pct := SegmentPercentages(StrengthSegments(columns, timed, meta, q), StreamTime(timed));
      && (HasHeartrate(columns, timed) ==> pct["easy"] + pct["moderate"] + pct["intense"] == 100.0)
      && (!HasHeartrate(columns, timed) ==> pct == map["unknown" := 100.0])
  {
    var seg := StrengthSegments(columns, timed, meta, q);
    var pct := SegmentPercentages(seg, StreamTime(timed));
    if HasHeartrate(columns, timed) {
      StrengthBucketsPartition(columns, timed, meta, q);
      PercentSum3(seg["easy"], seg["moderate"], seg["intense"], StreamTime(timed));
    } else {
      WholeIsHundredPercent(StreamTime(timed));
      assert pct.Keys == {"unknown"};
    }
  }
}

=== FILE: seq_math.dfy ===
/** Exact arithmetic over sequences of reals: sums, means, a stable insertion sort
    and the median, as used by the per-row duration and baseline computations. */
module SeqMath {

  function Sum(xs: seq<real>): real {
    if |xs| == 0 then 0.0 else xs[0] + Sum(xs[1..])
  }

  /** Arithmetic mean of a non-empty sequence (`statistics.mean`). */
  function Mean(xs: seq<real>): real
    requires |xs| > 0
  {
    Sum(xs) / (|xs| as real)
  }

  predicate Constant(xs: seq<real>) {
    forall i, j | 0 <= i < |xs| && 0 <= j < |xs| :: xs[i] == xs[j]
  }

  predicate NonDecreasing(xs: seq<real>) {
    forall i, j | 0 <= i < j < |xs| :: xs[i] <= xs[j]
  }

  lemma {:induction false} SumAppend(a: seq<real>, b: seq<real>)
    ensures Sum(a + b) == Sum(a) + Sum(b)
  {
    if |a| == 0 {
      assert a + b == b;
    } else {
      assert (a + b)[1..] == a[1..] + b;
      SumAppend(a[1..], b);
    }
  }

  /** Every element at least `lo` makes the sum at least `|xs|·lo`; at most `hi`, at most `|xs|·hi`. */
  lemma {:induction false} SumBounds(xs: seq<real>, lo: real, hi: real)
    requires forall i | 0 <= i < |xs| :: lo <= xs[i] <= hi
    ensures (|xs| as real) * lo <= Sum(xs) <= (|xs| as real) * hi
  {
    if |xs| > 0 {
      SumBounds(xs[1..], lo, hi);
      assert (|xs| as real) * lo == lo + (|xs[1..]| as real) * lo;
      assert (|xs| as real) * hi == hi + (|xs[1..]| as real) * hi;
    }
  }

  /** A mean lies between any lower and upper bound of its elements. */
  lemma MeanBounds(xs: seq<real>, lo: real, hi: real)
    requires |xs| > 0
    requires forall i | 0 <= i < |xs| :: lo <= xs[i] <= hi
    ensures lo <= Mean(xs) <= hi
  {
    SumBounds(xs, lo, hi);
    var n := |xs| as real;
    assert Sum(xs) / n >= lo by {
      assert n * lo <= Sum(xs);
    }
    assert Sum(xs) / n <= hi by {
      assert Sum(xs) <= n * hi;
    }
  }

  /** The mean of a sequence of one repeated value is that value. */
  lemma MeanOfConstant(xs: seq<real>)
    requires |xs| > 0 && Constant(xs)
    ensures Mean(xs) == xs[0]
  {
    MeanBounds(xs, xs[0], xs[0]);
  }

  /** Stable insertion sort by a real-valued key. */
  function Insert<T>(x: T, s: seq<T>, key: T -> real): (r: seq<T>)
    requires SortedBy(s, key)
    ensures SortedBy(r, key)
    ensures multiset(r) == multiset(s) + multiset{x}
    ensures |r| == |s| + 1
    ensures forall k | 0 <= k < |r| :: r[k] == x || r[k] in s
  {
    if |s| == 0 then [x]
    else if key(x) < key(s[0]) then
      assert s == [s[0]] + s[1..];
      [x] + s
    else
      var rest := Insert(x, s[1..], key);
      forall k | 0 <= k < |rest| ensures key(s[0]) <= key(rest[k]) {
        if rest[k] != x {
          HeadIsLeast(s, key, rest[k]);
        }
      }
      assert s == [s[0]] + s[1..];
      [s[0]] + rest
  }

  /** The head of a sorted sequence has the least key of all that follow it. */
  lemma HeadIsLeast<T>(s: seq<T>, key: T -> real, y: T)
    requires |s| > 0 && SortedBy(s, key)
    requires y in s[1..]
    ensures key(s[0]) <= key(y)
  {
    var j :| 0 <= j < |s[1..]| && s[1..][j] == y;
    assert s[j + 1] == y;
  }

  ghost predicate SortedBy<T>(s: seq<T>, key: T -> real) {
    forall i, j | 0 <= i < j < |s| :: key(s[i]) <= key(s[j])
  }

  function SortBy<T>(s: seq<T>, key: T -> real): (r: seq<T>)
    ensures SortedBy(r, key)
    ensures multiset(r) == multiset(s)
    ensures |r| == |s|
  {
    if |s| == 0 then []
    else
      assert s == [s[0]] + s[1..];
      Insert(s[0], SortBy(s[1..], key), key)
  }

  function Itself(x: real): real {
    x
  }

  /** The middle of a sorted series: its middle element, or the average of the two middle
      ones for an even count. It lies between the lower and the upper middle element. */
  function Middle(s: seq<real>): (m: real)
    requires |s| > 0 && NonDecreasing(s)
    ensures s[(|s| - 1) / 2] <= m <= s[|s| / 2]
  {
    var n := |s|;
    if n % 2 == 1 then s[n / 2] else (s[n / 2 - 1] + s[n / 2]) / 2.0
  }

  lemma SortedByItself(s: seq<real>)
    requires SortedBy(s, Itself)
    ensures NonDecreasing(s)
  {
    forall i, j | 0 <= i < j < |s| ensures s[i] <= s[j] {
      assert Itself(s[i]) <= Itself(s[j]);
    }
  }

  /** pandas' `Series.median` on a non-empty series: the middle of the sorted values. */
  function Median(xs: seq<real>): (m: real)
    requires |xs| > 0
    ensures exists i | 0 <= i < |xs| :: xs[i] <= m
    ensures exists j | 0 <= j < |xs| :: m <= xs[j]
    ensures (forall i | 0 <= i < |xs| :: xs[i] > 0.0) ==> m > 0.0
  {
    var s := SortBy(xs, Itself);
    SortedByItself(s);
    var lo, hi := s[(|s| - 1) / 2], s[|s| / 2];
    assert lo in multiset(xs) && hi in multiset(xs);
    assert lo in xs && hi in xs;
    Middle(s)
  }

  /** Two sorted arrangements of the same values are the same sequence. */
  lemma {:induction false} SortedUnique(s: seq<real>, t: seq<real>)
    requires NonDecreasing(s) && NonDecreasing(t) && multiset(s) == multiset(t)
    ensures s == t
    decreases |s|
  {
    assert |s| == |multiset(s)| == |multiset(t)| == |t|;
    if |s| > 0 {
      SameHead(s, t);
      assert s == [s[0]] + s[1..] && t == [t[0]] + t[1..];
      assert multiset(s[1..]) == multiset(s) - multiset{s[0]};
      assert multiset(t[1..]) == multiset(t) - multiset{t[0]};
      SortedUnique(s[1..], t[1..]);
    }
  }

  lemma SameHead(s: seq<real>, t: seq<real>)
    requires NonDecreasing(s) && NonDecreasing(t) && multiset(s) == multiset(t)
    requires |s| > 0 && |t| > 0
    ensures s[0] == t[0]
  {
    assert t[0] in multiset(s) && s[0] in multiset(t);
    var i :| 0 <= i < |s| && s[i] == t[0];
    var j :| 0 <= j < |t| && t[j] == s[0];
    assert s[0] <= s[i] && t[0] <= t[j];
  }

  /** The median is the middle of every sorted arrangement of the values, whichever sort
      produced it. */
  lemma MedianOfSorted(xs: seq<real>, s: seq<real>)
    requires |xs| > 0
    requires NonDecreasing(s) && multiset(s) == multiset(xs)
    ensures |s| == |xs|
    ensures Median(xs) == Middle(s)
  {
    var sorted := SortBy(xs, Itself);
    SortedByItself(sorted);
    assert |s| == |multiset(s)| == |xs|;
    SortedUnique(sorted, s);
  }
}
